=== FILE: README.md ===
# dm-worker scheduler, modelled in Dafny

This project models the job scheduler of dm-worker. Jobs are records in a
job store (`tasks`). They carry a status (`new`, `waiting`, `executing`,
`done`, `error`, `refused`) and optional `throttle`, `trailing` and
`singleton` options keyed by the job's `uniqId`. The scheduler runs them on
a pool of forked worker processes.

The repository holds two generations of the scheduler, and both are modelled.

- **The orchestration scheduler** (orchestration/). There are two parts:
  - An *admission loop*. Under a Redis query lock it takes a batch of new or
    timed-out records and applies the throttle and singleton locks. It moves
    each record to `waiting` (pushing its id onto the ready queue
    `tasks:list`) or to `refused`, or leaves it for a later poll.
  - Several *dispatch loops*. Each pops an id, takes a per-job lock, claims
    the record (`waiting -> executing`) and runs it on the worker pool. It
    then records `done` or `error` and releases the locks.

  Locks are the hand-rolled `passLock` protocol: SETNX, GET, then a GETSET
  takeover of a stale holder. The worker pool is `ChildWorkerManager` over
  `ChildWorker` slots.
- **The newer dispatcher** (lib/TaskDispatcher/). `RedisQueue.handleTask`
  takes a job lock, a throttle lock and a singleton lock through redlock, in
  that order. `TaskDispatcher.executeTask` then writes the record's status.

Two worker-process entry points answer the pool's `{ taskId }` messages:
worker/index.js and lib/Worker/executor.js. They share the same validation
chain.

Everything is pure functions over explicit state:

- The Redis keyspace is a map from lock key to stamp and reap time.
- The job store is a map from id to record.
- The ready queue is a sequence.
- A worker slot is a state machine, `Step(slot, event) -> (slot, effects)`.
  The pool interprets those effects in the order the source's listeners run.

Anything outside the process is an input:

- Redis and store failures, failed record fetches included.
- Other clients' writes between lock commands.
- Redlock's answers.
- The clock.
- `_.random` draws.
- The liveness probes `isDead`/`isConnected`.
- What an action does when run.

Modules, one per component:

| module | file | models |
|---|---|---|
| `Common` | common.dfy | `Option`, JS truthiness of strings, `_.without`, `_.random` |
| `Tasks` | tasks.dfy | the job record, its statuses, `setEach` updates, the permitted status edges |
| `Protocol` | protocol.dfy | the `{ taskId }` / `{ ready }` / `{ taskId, err }` messages |
| `Locks` | locks.dfy | `prepareLockTimeout`, `passLock`, release and TTL expiry |
| `Admission` | admission.dfy | `handleTask`, `handleTasks` and the trailing selection `lastUniqTaskIds` |
| `Dispatch` | dispatch.dfy | `popAndExecuteNextTask` |
| `ChildWorker` | childworker.dfy | one pooled worker slot |
| `Manager` | manager.dfy | `ChildWorkerManager`: spawning, listing, job hand-out, replacement, separate processes |
| `RedisQueue` | redisqueue.dfy | the redlock admission of the newer dispatcher and the `tasks:list` reading |
| `TaskDispatcher` | dispatcher.dfy | `start`/`stop`, the status writer `executeTask`, the loop pause |
| `Validation` | validation.dfy | the worker processes' record checks |
| `Executor` | executor.dfy | the worker process of lib/Worker/executor.js |
| `WorkerProcess` | workerprocess.dfy | the worker process of worker/index.js |

Where the code and the system's own description disagree, the model follows
the code:

- **Admission after an LREM error.** A failing LREM of a timed-out record
  does not abort the batch. `async.series` hands the error to `setStatusFn`,
  which marks the record `refused` with the Redis error.
- **Throttle lock errors.** A Redis error while taking the throttle lock is
  handled like a busy lock: the record is refused, or left alone. Only a
  Redis error on the singleton lock stops the batch.
- **Trailing throttle.** While the lock is held, the last trailing record of
  a `uniqId` is neither admitted nor refused. It is left alone and picked up
  by a later poll. Every earlier trailing record is refused with
  "Already exists (throttle)!". It is not silently dropped.
- **Admission from `executing`.** A timed-out `executing` record can be
  refused by a busy throttle, so `executing -> refused` is a reachable edge.
- **Throttle window key.** The orchestration throttle window is the record's
  `options.timeout`. The newer dispatcher uses `options.throttleTimeout`.
- **Foreign replies.** A reply for another job fails the running job, but
  leaves its 90 s task timer armed. The timer may later fail the slot's next
  job.
- **The newer dispatcher does not check status.** `executeTask` writes
  `executing` without looking at the record's current status.
- **String rejections.** An executor.js action whose promise rejects with a
  plain string is answered with no `err`. Those replies go to the newer
  dispatcher's worker manager (lib/WorkerManager), which is not part of this
  model, so what it makes of such a reply is not stated here.
- **Pool size.** The pool can list more workers than `CHILDS_NUM` (see Findings).
- **`null` action results.** An executor.js action that returns `null` fails
  its job at once. `isPromise` reads `then` off `null` and throws a
  `TypeError`.
- **Throwing actions.** A worker/index.js action that throws ends the worker
  process. Nothing catches the throw.
- **Negative lock timeouts.** A negative `options.timeout` reaches EXPIRE as a
  negative TTL, so Redis deletes the throttle key at once. Such a window
  throttles nothing.
- **Late completions.** The dispatch loop writes `done` or `error` without
  checking the record's status. A record that admission re-queued or refused
  meanwhile is overwritten.

## Model

| member | source | states |
|---|---|---|
| Common.Without | orchestration/ChildWorkerManager.js:43-44 | `_.without` leaves exactly the values different from the removed one, never grows, and returns a list without that value unchanged |
| Common.WithoutCounts | orchestration/ChildWorkerManager.js:43-44 | every other value is kept as often as it occurred, and every occurrence of the removed one is dropped |
| Common.WithoutConcat | orchestration/ChildWorkerManager.js:43-44 | removal distributes over concatenation, so the kept values stay in their order |
| Common.WithoutKeepsNoDuplicates | orchestration/ChildWorkerManager.js:43-44 | removing a slot from a duplicate-free list keeps it duplicate-free |
| Common.RandomInt | orchestration/ChildWorker.js:28 | `_.random(lower, upper)` lies between its bounds, in either order |
| Common.RandomIntCovers | orchestration/ChildWorker.js:28 | every value between the bounds can be drawn |
| Tasks.Apply | orchestration/index.js:126-144 | a partial update writes its status and keeps the record's id, `uniqId`, options, type and creation time |
| Tasks.SetEach | orchestration/index.js:237-240 | `setEach` on one record changes only that record; a missing record stays missing |
| Locks.PrepareLockTimeout | orchestration/index.js:35-37 | the TTL is the timeout in whole seconds rounded down; a zero becomes one second, and a negative timeout gives a negative TTL |
| Locks.Locked | orchestration/index.js:41-46 | SETNX/GETSET then EXPIRE: a positive TTL leaves our stamp with its reap time, a negative one deletes the key; no other key changes |
| Locks.PassLock | orchestration/index.js:39-72 | acquiring stores our stamp with a TTL, or leaves no key for a negative timeout; a failing SETNX changes nothing; an error is reported only for the failing command; no other key changes |
| Locks.Release | orchestration/index.js:249-253 | DEL removes exactly the key; other keys are kept |
| Locks.Reap | orchestration/index.js:45-46 | TTL expiry removes exactly the keys whose reap time has come |
| Locks.AbsentKeyIsAcquired | orchestration/index.js:41-47 | a free key is taken at once with stamp `now + timeout + 1` and the prepared TTL |
| Locks.LiveKeyIsRefused | orchestration/index.js:49-68 | a key whose stamp has not passed refuses the lock and nothing is written |
| Locks.StaleKeyIsTakenOver | orchestration/index.js:54-65 | GETSET always overwrites a stale key with our stamp; the lock is ours exactly when GETSET returned the value GET read; a negative timeout then deletes the key it won |
| Locks.AcquiredOnlyWhenFreeOrStale | orchestration/index.js:39-72 | the lock is acquired only if the key was free, or its holder was stale and untouched until our GETSET |
| Locks.ReapedBeforeStale | orchestration/index.js:35-47 | for timeouts of at least a second the TTL reaps the key before its stamp passes; from 0 to 998 ms the one-second TTL outlives the stamp |
| Locks.NegativeTimeoutHoldsNothing | orchestration/index.js:35-47 | a negative timeout grants the lock but leaves no key, so the next undisturbed attempt is granted too |
| Admission.ThrottleTimeout | orchestration/index.js:117 | the throttle window is the record's own non-zero `options.timeout`, negative included, else 3000 ms |
| Admission.SetStatus | orchestration/index.js:126-144 | an error refuses the record with it; otherwise the record becomes `waiting` and its id is pushed only after a successful update; a failed write or push stops the batch |
| Admission.SingletonStage | orchestration/index.js:121-124 | the singleton step writes only the record, the queue tail and the record's throttle and singleton lock keys |
| Admission.ThrottleStage | orchestration/index.js:106-119 | the throttle step writes only the record, the queue tail and the two lock keys |
| Admission.HandleTask | orchestration/index.js:74-147 | one record is left, set `waiting` with its id appended, or refused; nothing else in the store or queue changes |
| Admission.TrailingLastIsLeftAlone | orchestration/index.js:109-112 | under a busy throttle lock, the last trailing record of its `uniqId` is neither written nor queued |
| Admission.ThrottleBusyRefuses | orchestration/index.js:109-115 | under a busy throttle lock, every other throttled record is refused with "Already exists (throttle)!" |
| Admission.SingletonBusyLeaves | orchestration/index.js:121-124 | a busy singleton lock neither refuses nor queues the record; only a Redis error stops the batch |
| Admission.AdmittedIsQueued | orchestration/index.js:135-143 | with both locks passed the record becomes `waiting` and only then is its id appended; a failed update pushes nothing |
| Admission.RequeuedIdOccursOnce | orchestration/index.js:77-104 | a timed-out `waiting` or `executing` record's id occurs at most once in the queue afterwards, and only at the end |
| Admission.HandleTaskPermitted | orchestration/index.js:74-147 | admission moves a `new`, `waiting` or `executing` record only along a permitted status edge |
| Admission.LastByUniqIsLast | orchestration/index.js:187-191 | `uniqTasks` has one entry per `uniqId` of the batch's trailing throttle records, holding the id of the last one |
| Admission.TrailingPassesIffLast | orchestration/index.js:187-191 | with distinct ids, a trailing record's id is in `lastUniqTaskIds` exactly when no later trailing record shares its `uniqId` |
| Admission.RunBatch | orchestration/index.js:193-198 | the batch is handled in order and stops at the first error; records outside the batch are untouched |
| Admission.AdmissionCycle | orchestration/index.js:149-201 | without the query lock nothing is written; otherwise the query lock is released at the end; a failed fetch writes no record |
| Admission.LiveThrottleBatch | orchestration/index.js:106-119 | while a throttle key is live, every record of a batch on it is refused except trailing records in `lastUniqTaskIds`; nothing is queued |
| Admission.ThrottleWindowAdmitsFirst | orchestration/index.js:106-119 | with a free throttle key and a non-negative window, the first plain-throttle record of a batch is admitted and queued and every later one is refused |
| Admission.NegativeThrottleQueuesAll | orchestration/index.js:106-119 | with a negative window the throttle key never stays, so every plain-throttle record of a batch is queued, in batch order, and the lock table ends as it began |
| Admission.NegativeThrottleAdmitsAll | orchestration/index.js:106-119 | with a negative window every plain-throttle record of a batch ends `waiting`; none is refused |
| Admission.LiveThrottleStep | orchestration/index.js:106-115 | while the throttle key is live, one throttled record is refused, or left alone when trailing and in `lastUniqTaskIds`; locks and queue do not change |
| Admission.FreeThrottleStep | orchestration/index.js:106-119 | with the throttle key free, one throttled record is set `waiting` and queued, and the key is left as its own lock attempt leaves it |
| Admission.TrailingWindowKeepsLast | orchestration/index.js:187-194 | while the throttle key is live, among trailing records of one `uniqId` all but the last are refused and the last is left as it is |
| Dispatch.Complete | orchestration/index.js:248-274 | on completion the job lock, and the singleton lock of a singleton record with a `uniqId`, are released; the record ends `error` with the worker's error or `done` |
| Dispatch.ClaimNext | orchestration/index.js:205-247 | an empty queue is a no-op and an empty popped id is dropped before any lock; otherwise the head is popped, and a job is left running exactly when its lock was taken, its record was fetched and `waiting`, and it is now claimed `executing`; no other record changes |
| Dispatch.FailedFetchDropsTask | orchestration/index.js:213-231 | an empty popped id changes nothing but the queue; a record whose fetch fails is dropped unchanged, `waiting` or not, and its job lock is kept |
| Dispatch.CompleteOverwritesAnyStatus | orchestration/index.js:248-274 | the pool's answer writes `done` or `error` whatever the record's status is by then, so a record re-queued or refused meanwhile moves along an edge that is not permitted |
| Dispatch.DispatchStep | orchestration/index.js:205-280 | a pass run without interruption: an empty queue is a no-op; otherwise the head is popped and only the popped record can change |
| Dispatch.UnhandledTaskIsNoOp | orchestration/index.js:231-235 | a popped id whose record is missing or not `waiting` changes no record and keeps its job lock |
| Dispatch.WaitingTaskRuns | orchestration/index.js:237-274 | a claimed `waiting` record is stamped `executing` and ends `done` or `error` with its times; its locks are released |
| Dispatch.DispatchPermitted | orchestration/index.js:231-274 | dispatch changes only a `waiting` record, to `executing`, `done` or `error`, along permitted edges |
| ChildWorker.Spawn | orchestration/ChildWorker.js:13-28 | a new slot holds its process, is idle, not ready, not ended, and has a job limit in 200..500 |
| ChildWorker.End | orchestration/ChildWorker.js:138-142 | the first `end` marks the slot ended, emits `end` once and arms the grace timer; later calls do nothing |
| ChildWorker.CallExecutingCallback | orchestration/ChildWorker.js:84-96 | the pending callback is called once with the worker id, the job counts, and the slot ends exactly at its limit; without a process handle the call throws |
| ChildWorker.Refusal | orchestration/ChildWorker.js:103-109 | the five checks in order: not forked, ended, not ready, dead, not connected; none fails exactly for a live, ready, connected process |
| ChildWorker.ExecuteTask | orchestration/ChildWorker.js:98-136 | a busy slot answers the new callback at once; a refused job is answered through `callExecutingCallback`; otherwise the job is sent with a fresh timer and reply listener |
| ChildWorker.OnReady | orchestration/ChildWorker.js:43-54 | a `ready` message makes a live slot ready and emits `ready`; an ended slot ignores it |
| ChildWorker.OnReply | orchestration/ChildWorker.js:120-133 | a reply without an id, or for another job, fails the job; the matching reply clears its timer and settles it |
| ChildWorker.WorkerError | orchestration/ChildWorker.js:122-132 | the worker's `err` reaches the callback exactly when it is truthy |
| ChildWorker.SpawnSatisfiesSlotInv | orchestration/ChildWorker.js:13-28 | a new slot satisfies the slot invariant |
| ChildWorker.CallKeepsSlotInv | orchestration/ChildWorker.js:84-96 | `callExecutingCallback` restores the slot invariant |
| ChildWorker.RepliesKeepSlotInv | orchestration/ChildWorker.js:120-133 | running the reply listeners keeps the slot invariant |
| ChildWorker.StepKeepsSlotInv | orchestration/ChildWorker.js:13-150 | every event keeps the invariant: ended exactly when the grace timer is armed, handle dropped only by it, a live slot below its limit |
| ChildWorker.CallInvokesPending | orchestration/ChildWorker.js:84-96 | `callExecutingCallback` calls at most the pending callback, after which none is pending |
| ChildWorker.ReplyInvokesPending | orchestration/ChildWorker.js:120-133 | one reply listener calls at most the pending callback |
| ChildWorker.RepliesInvokePending | orchestration/ChildWorker.js:120-133 | all reply listeners together call at most the pending callback |
| ChildWorker.MessageCallsOnlyPending | orchestration/ChildWorker.js:43-54 | a message calls at most the pending callback |
| ChildWorker.TimeoutCallsOnlyPending | orchestration/ChildWorker.js:111-118 | the task timer calls at most the pending callback |
| ChildWorker.GraceCallsOnlyPending | orchestration/ChildWorker.js:143-149 | the grace timer calls at most the pending callback |
| ChildWorker.ExecuteCallsOnlyOwn | orchestration/ChildWorker.js:98-109 | `executeTask(_, done)` calls at most `done` |
| ChildWorker.StepCallsAtMostOne | orchestration/ChildWorker.js:84-150 | one event calls at most one callback: `executeTask` only its own, every other event only the pending one |
| ChildWorker.EachCallbackCalledAtMostOnce | orchestration/ChildWorker.js:84-150 | over any run, each distinct callback handed to the slot is called at most once, and no other is called |
| ChildWorker.FreshSlotCallsEachCallbackOnce | orchestration/ChildWorker.js:13-150 | from a new slot every callback given is called at most once |
| ChildWorker.MatchingReplySettles | orchestration/ChildWorker.js:120-133 | the matching reply calls the callback once with the worker's error, clears the timer, counts the job, and ends the slot exactly at its limit |
| ChildWorker.ForeignReplyFails | orchestration/ChildWorker.js:127-129 | a reply for another job fails the running one and leaves its task timer armed |
| ChildWorker.TimeoutIsNotCounted | orchestration/ChildWorker.js:111-118 | the task timeout fails the pending callback without counting the job and ends the slot |
| ChildWorker.EndIsIdempotent | orchestration/ChildWorker.js:138-141 | ending an ended slot, or a later exit, signal or disconnect timer, emits nothing more |
| ChildWorker.GraceFlushesPending | orchestration/ChildWorker.js:143-149 | the grace timer calls the pending callback with the end reason, kills the process and drops the handle, once |
| ChildWorker.EndedStepIsQuiet | orchestration/ChildWorker.js:44 | an ended slot stays ended and never emits `ready` or `end` again |
| ChildWorker.LiveStepShape | orchestration/ChildWorker.js:30-136 | a live slot's step is silent, `ready`, a send, `end`, or a callback call that leaves the slot idle, possibly followed by `end` |
| Manager.ExecutionsLength | orchestration/ChildWorkerManager.js:16-18 | the number of dispatch loops is half the pool rounded down: at least one, fewer than the slots |
| Manager.NewPool | orchestration/ChildWorkerManager.js:8-21 | fewer than two slots is an error; otherwise one slot is spawned and none is listed |
| Manager.SpawnOne | orchestration/ChildWorkerManager.js:23-24 | a new slot is added under a fresh id |
| Manager.OnChildReady | orchestration/ChildWorkerManager.js:26-40 | a ready slot is listed and free; `init` is given exactly once the pool is first full |
| Manager.OnChildEnd | orchestration/ChildWorkerManager.js:42-46 | an ended slot is unlisted and freed, and a replacement is spawned |
| Manager.OnEffect | orchestration/ChildWorkerManager.js:23-66 | a slot's effects never remove slots or change the target; a pooled slot's callback puts the slot back at the tail of `freeChilds` exactly when it has not ended, then answers the caller with the slot's error and worker id |
| Manager.ExecuteOnPool | orchestration/ChildWorkerManager.js:49-61 | with no free slot the job is retried later and nothing changes |
| Manager.SpawnSeparate | orchestration/ChildWorkerManager.js:63-66 | a separate job gets a new unlisted slot of its own |
| Manager.PoolStep | orchestration/ChildWorkerManager.js:23-66 | a pool event never changes the target |
| Manager.NewPoolSatisfiesInv | orchestration/ChildWorkerManager.js:8-21 | a new pool satisfies the pool invariant and is within its target |
| Manager.ReadyKeepsInv | orchestration/ChildWorkerManager.js:26-40 | the ready listener keeps the pool invariant |
| Manager.EndKeepsInv | orchestration/ChildWorkerManager.js:42-46 | the end listener keeps the pool invariant |
| Manager.SubmitKeepsInv | orchestration/ChildWorkerManager.js:49-61 | handing out a job keeps the pool invariant |
| Manager.PoolStepKeepsInv | orchestration/ChildWorkerManager.js:23-66 | every event keeps free slots listed, idle and distinct, listed slots live and starting slots idle |
| Manager.RunPool | orchestration/ChildWorkerManager.js:23-66 | a run of events keeps the pool invariant and, with the bounded policy, listed plus starting slots within the target |
| Manager.BoundedPoolNeverExceedsTarget | orchestration/ChildWorkerManager.js:26-33 | with the corrected spawn rule, no run lists more slots than `childsLength` |
| Manager.InitAtMostOnce | orchestration/ChildWorkerManager.js:34-38 | over any run `init` is given at most once, and exactly when the pool becomes ready |
| Manager.SubmitTakesFirstFree | orchestration/ChildWorkerManager.js:49-60 | a job goes to the first free slot, which leaves the free list, or answers at once with its refusal |
| Manager.MatchingReplyFreesSlot | orchestration/ChildWorkerManager.js:56-60 | the matching reply of a listed slot answers the caller with the worker's error and returns the slot to the tail of `freeChilds`, unless it was the slot's last job, which unlists it |
| Manager.SubmitThenReplyReturnsSlot | orchestration/ChildWorkerManager.js:49-60 | a job taken by the first free slot and then answered leaves that slot at the tail of `freeChilds` below its job limit, and unlisted at it |
| Manager.FreshSlotReadyAsWritten | orchestration/ChildWorkerManager.js:26-32 | a fresh slot's `ready` lists it and spawns the next slot while the listed slots are short of the target |
| Manager.StartedSlotExits | orchestration/ChildWorkerManager.js:42-46 | a listed slot's exit unlists it and spawns a replacement |
| Manager.AsWrittenPoolOverSpawns | orchestration/ChildWorkerManager.js:26-46 | with the spawn rule as written, a pool of two ends with three listed slots |
| RedisQueue.Plan | lib/TaskDispatcher/RedisQueue.js:86-90 | the locks are asked for in the order job, throttle, singleton |
| RedisQueue.HandleTask | lib/TaskDispatcher/RedisQueue.js:35-123 | the requests are a prefix of the plan; a job runs exactly when its locks pass and is refused exactly on a busy throttle; the job lock is released after the query timeout plus 100 ms, or at once |
| RedisQueue.LocksInOrder | lib/TaskDispatcher/RedisQueue.js:86-90 | a lock is asked for only after every lock before it was granted |
| RedisQueue.TaskLockBusySkips | lib/TaskDispatcher/RedisQueue.js:42-51 | a busy job lock skips the job with nothing written or held |
| RedisQueue.ThrottleBusyRefuses | lib/TaskDispatcher/RedisQueue.js:68-84 | a busy throttle refuses the job unless it is trailing and the last of its kind |
| RedisQueue.SingletonBusySkips | lib/TaskDispatcher/RedisQueue.js:54-66 | a busy singleton lock skips the job and releases the job lock at once |
| RedisQueue.GetTaskList | lib/TaskDispatcher/RedisQueue.js:15-27 | a Redis error or malformed JSON gives `[]`; any parsed value is returned as is |
| RedisQueue.LoopTasks | lib/TaskDispatcher/RedisQueue.js:29-33 | the loop sees jobs only when the stored text is a JSON array of them |
| RedisQueue.LoopTasksFallback | lib/TaskDispatcher/RedisQueue.js:15-33 | the loop works on exactly the stored array, and on no jobs after any failure |
| TaskDispatcher.Start | lib/TaskDispatcher/index.js:25-31 | `start` is a no-op when started; otherwise it takes a manager and sets `started` |
| TaskDispatcher.Stop | lib/TaskDispatcher/index.js:33-39 | `stop` is a no-op when stopped; otherwise it drops the manager and clears `started` |
| TaskDispatcher.StartStopSwitch | lib/TaskDispatcher/index.js:25-39 | starting and stopping are idempotent and undo each other |
| TaskDispatcher.ExecuteTask | lib/TaskDispatcher/index.js:41-97 | a missing record is untouched; `executing` writes the claim then `done` or `error`; `refused` writes one refusal; any other status writes nothing |
| TaskDispatcher.ExecuteTaskOutcome | lib/TaskDispatcher/index.js:54-93 | the record ends `done` or `error` with its times, or `refused` with the given error; no other record changes |
| TaskDispatcher.ExecutingIgnoresCurrentStatus | lib/TaskDispatcher/index.js:55-60 | a `done` record is claimed `executing` again, an edge the orchestration never takes |
| TaskDispatcher.QueueThenWrite | lib/TaskDispatcher/index.js:41-97 | after the queue and the writer, a job is unchanged, refused with "Throttle", or `done`/`error` |
| TaskDispatcher.SleepTime | lib/TaskDispatcher/index.js:118-125 | the pause between passes lies within 50 ms of the loop's timeout |
| TaskDispatcher.SleepTimeCovers | lib/TaskDispatcher/index.js:123 | every pause in that window can occur |
| Validation.StatusName | lib/Worker/executor.js:66-69 | the status text is "executing" exactly for `executing` |
| Validation.Validate | lib/Worker/executor.js:61-82 | the checks in order: record, status, type, registered action; each outcome holds exactly in its case |
| Validation.Lookup | worker/index.js:25-27 | the lookup finds exactly the stored record |
| Executor.DoneCalls | lib/Worker/executor.js:42-51 | `done` gets the action's own calls, then the promise's settlement; a non-promise, `null` or a throw adds nothing |
| Executor.Settle | lib/Worker/executor.js:84-89 | the wrapper settles on the first `done` call: rejected exactly for a truthy error, with that error |
| Executor.BridgeThrow | lib/utils.js:7-9 | the bridge throws exactly for an action that throws or returns `null`, whose `then` cannot be read |
| Executor.ExecuteTaskWrapper | lib/Worker/executor.js:53-92 | the action runs once exactly for a valid record; otherwise the job fails with an `Error` that has a message |
| Executor.ValidationOrder | lib/Worker/executor.js:61-82 | each failed check throws its own message naming the job id |
| Executor.ValidJobRunsActionOnce | lib/Worker/executor.js:42-89 | a valid job runs its action once and ends as its first `done` call, promise or throw says; a `null` result before any call fails it with the `TypeError` of reading `then` |
| Executor.OnMessage | lib/Worker/executor.js:94-111 | a message without an id gets no reply; a reply echoes the id |
| Executor.ReplyMatchesOutcome | lib/Worker/executor.js:104-110 | a job is answered exactly when the wrapper settles, with `err` exactly for an error object with a message |
| Executor.StringRejectionAnswersWithoutError | lib/Worker/executor.js:107-110 | a plain-string rejection is answered with no `err` |
| Executor.Replies | lib/Worker/executor.js:94-111 | the replies to a run of messages answered in turn: at most one per message, none of them `ready` |
| WorkerProcess.ExecuteTask | worker/index.js:19-45 | a failed fetch reads no record; a failed check calls `done` once with its string; a valid record's every completion calls it without error, and the process ends exactly when the action throws |
| WorkerProcess.RejectionOrder | worker/index.js:26-38 | the checks in order, each with its own string; an error is reported exactly when a check fails |
| WorkerProcess.FailedFetchAnswersNoTask | worker/index.js:26-28 | a failed fetch answers even a stored, runnable job with "No task with such taskId" and does not run its action |
| WorkerProcess.OnMessage | worker/index.js:47-59 | a message without an id gets no reply; every reply echoes the id |
| WorkerProcess.RepliesMatchChecks | worker/index.js:47-59 | a failed check gets one reply with its string; a valid record gets one reply without `err` per completion, and ends the process exactly when its action throws |
| WorkerProcess.Replies | worker/index.js:47-59 | the replies to a run of messages answered in turn, none of them `ready` |
| WorkerProcess.NothingAfterThrow | worker/index.js:40-43 | when messages are answered in turn, the dead process answers no message after the one whose action throws |
| WorkerProcess.RepliesWithoutThrow | worker/index.js:47-59 | a message whose action does not throw is answered, and the process goes on to answer the rest |
| Protocol.Announced | worker/index.js:61 | a worker process sends `ready` exactly once, first, and then its replies in order |

## Left out

- Process start-up and shutdown are not modelled: the `REDIS_URL` check, the index creation, `SIGTERM`/`SIGINT`/`SIGQUIT`/`uncaughtException` handling, and the 3 s exit delay. They are I/O with no state the model keeps.
- The loop drivers are not modelled: `doQueries`, `doExecutions`, the 500 ms back-off and the `stopped` flag. The model gives one admission cycle (`AdmissionCycle`) and one dispatch pass (`DispatchStep`); the drivers only repeat them.
- The `doneCount`/LLEN interval is left out: it only feeds logging.
- `CHILDS_NUM` is taken as an integer. The source compares the raw environment string with `2` and then uses it in arithmetic.
- The admission query's filter and order are not computed. The fetched batch is an input. `Tasks.Eligible` states the filter, and the 100-record limit is documented only.
- `model.close`, `unfetch` and the write callbacks' timing are left out, and store writes are treated as immediate.
- Logging and timing figures are left out.
- The `startTime` bookkeeping of a slot is left out: it is only logged.
- Real concurrency between loops is modelled only in part. Admission cycles, `ClaimNext` and `Complete` are separate steps that can be put in any order. The other clients' lock writes are inputs. Finer interleavings inside one admission cycle are not modelled.
- Dispatch.DispatchStep: this is the claim and the pool's answer run as one step. In the source the two can be up to `TASK_TIMEOUT` (90 s) apart, and admission can re-queue or refuse the record in between. `DispatchPermitted` is stated for this uninterrupted pass only. `CompleteOverwritesAnyStatus` states what the answer does in any other world.
- Timers are events the caller supplies. Nothing forces the 90 s, 3 s or 50 ms timers to fire in time order.
- RedisQueue.handleTasks (`_.shuffle` and one `handleTask` per job) is left out. It is iteration over `RedisQueue.HandleTask` in a random order.
- MongoQueue, the worker manager of the newer dispatcher and `autoStop` are not part of this model.
- `TaskDispatcher.ExecuteTask` does not model store-write failures or the `refused` write's missing await. In the source a failed `done` write is caught and turned into an `error` write; a failed `executing` or `error` write escapes.
- Action-registry entries that are falsy but present are not modelled. Such an entry makes the message read "No action to execute: " followed by that value rather than "undefined".
- Validation.Validate: the registry is the set of its own entries. Both workers look the action up as `actions[actionType]` on a plain object, which also finds names inherited from `Object.prototype`. A record whose `type` is `constructor` runs `Object` as its action: in executor.js that returns a non-promise, so the job never settles and gets no reply. A `type` of `__proto__` finds an object and throws "action is not a function". The model rejects both with "No action to execute: undefined".
- A missing actions file (`actions` undefined, so the lookup throws) is not modelled.
- RedisQueue.LoopTasks: JSON values that are neither arrays nor null are taken as no jobs. For a number or a boolean the source also has no jobs, because `_.shuffle` gives `[]`. For a string it handles each character as a job, and for an object each of its values. A `null` job, in an array or among an object's values, throws where `handleTask` reads its `_id`. Jobs that are not job records are not modelled.
- Manager.RunPool stops at an event for a slot id the pool never spawned, or a direct `executeTask` on a slot. Neither can happen, because jobs reach slots only through the pool.
- TaskDispatcher.Start: restarting the loops after a stop/start pair is not modelled.
- Executor.ExecuteTaskWrapper: a failure of `fetchAsync`/`unfetchAsync` is not modelled.
- Executor.NullThenError: the message is V8's wording in current Node releases. Older releases word the same `TypeError` differently.
- WorkerProcess.ExecuteTask: a throw comes after the action's synchronous callback calls, and their replies are taken as sent. Whether Node flushes those IPC messages before the process dies is not modelled.
- Admission.ThrottleWindowAdmitsFirst: stated for a first record whose window is not negative. `NegativeThrottleQueuesAll` and `NegativeThrottleAdmitsAll` cover batches whose windows are all negative. Batches that mix the two are not stated.
- `options.timeout` and `options.throttleTimeout` are taken as integer numbers of ms. A fractional or non-numeric value is not modelled.
- Locks.PassLock: one `now` serves SETNX, GET and GETSET. The source reads `Date.now()` afresh for each command, a few milliseconds apart at most.
- WorkerProcess.NothingAfterThrow: stated for messages answered one at a time. In the source `model.fetch` is asynchronous, so jobs in one process can overlap. A later message whose fetch finishes first can be answered before an earlier action throws.
- WorkerProcess.Replies: the replies are those of messages answered in turn, each message's replies before the next one's. Overlapping jobs, whose replies interleave, are not modelled.
- Executor.Replies: as for `WorkerProcess.Replies`, each message is answered before the next one. `executeTaskWrapper` is asynchronous, so replies to overlapping jobs can come in another order.

## Findings

| source | as written | input that shows it | evidently intended | confidence | as-written member | corrected member |
|---|---|---|---|---|---|---|
| orchestration/ChildWorkerManager.js:31 | a ready slot spawns another while `childs.length < CHILDS_LENGTH`, ignoring slots still starting, and every ended slot is replaced as well | `childsLength` 2. Slot 0 gets ready and spawns slot 1; slot 0 exits and slot 2 replaces it; slot 1 gets ready (1 listed) and spawns slot 3; slots 2 and 3 get ready, and 3 slots are listed | the pool never lists more than `childsLength` slots | not executed | Manager.AsWrittenPoolOverSpawns | Manager.BoundedPoolNeverExceedsTarget |

=== FILE: admission.dfy ===
/** The admission loop of the orchestration scheduler (`handleTask` and
    `handleTasks` in orchestration/index.js): under the query lock it takes a
    batch of new or timed-out records, applies the throttle and singleton locks,
    and moves each record to `waiting` (pushing its id onto the ready queue
    `tasks:list`) or to `refused`, or leaves it for a later poll. */
module Admission {
  import opened Common
  import opened Tasks
  import Locks

  const WAITING_TIME_TIMEOUT := 30000
  const EXECUTING_TIME_TIMEOUT := 30000
  const THROTTLE_TIMEOUT: nat := 3000
  const SINGLETON_TIMEOUT: nat := 30000
  const MONGO_QUERY_TIMEOUT: nat := 2000
  const QUERY_LOCK_KEY := "tasks:lockQuery"

  /** The error stored on a record refused by the throttle. */
  const THROTTLE_REFUSAL := "Already exists (throttle)!"
  /** Stands for the error value a failing Redis command reports. */
  const REDIS_ERROR := "redis error"

  /** Everything admission reads and writes: the job store, the Redis lock
      keys and the ready queue. */
  datatype World = World(tasks: Store, locks: Locks.Keyspace, queue: seq<TaskId>)

  /** The environment of one `handleTask`: a failing LREM, the two lock
      attempts, a failing `setEach`, a failing RPUSH. */
  datatype AdmitIo = AdmitIo(
    lremFails: bool,
    throttle: Locks.LockIo,
    singleton: Locks.LockIo,
    updateFails: bool,
    pushFails: bool)

  const Smooth := AdmitIo(false, Locks.Undisturbed, Locks.Undisturbed, false, false)

  /** Whether `handleTask` called its `done` without (Continue) or with
      (Abort) an error; an error stops `async.eachSeries` over the batch. */
  datatype Next = Continue | Abort

  datatype Handled = Handled(world: World, next: Next)

  predicate IsThrottled(t: Task) { t.options.Some? && t.options.value.throttle }
  predicate IsTrailing(t: Task) { t.options.Some? && t.options.value.trailing }
  predicate IsSingleton(t: Task) { t.options.Some? && t.options.value.singleton }

  function ThrottleKey(t: Task): string { "game:throttlelock:" + KeyPart(t.uniqId) }
  function SingletonKey(t: Task): string { "game:singletonlock:" + KeyPart(t.uniqId) }

  /** `task.options.timeout || THROTTLE_TIMEOUT`: any non-zero timeout is
      kept, a negative one included. */
  function ThrottleTimeout(t: Task): (ms: int)
    ensures ms != 0
    ensures t.options.Some? && t.options.value.timeout != 0 ==> ms == t.options.value.timeout
    ensures t.options.None? || t.options.value.timeout == 0 ==> ms == THROTTLE_TIMEOUT
  {
    if t.options.Some? && t.options.value.timeout != 0 then t.options.value.timeout else THROTTLE_TIMEOUT
  }

  /** A record picked up again while `waiting` or `executing` first has its id
      removed from the ready queue (LREM). */
  predicate Requeued(t: Task) { t.status == Waiting || t.status == Executing }

  /** The queue after the LREM step (unchanged when it is skipped or fails). */
  function Pruned(q: seq<TaskId>, t: Task, io: AdmitIo): seq<TaskId> {
    if Requeued(t) && !io.lremFails then Without(q, t.id) else q
  }

  /** The writes one `handleTask` can make, relative to the world `w` it
      starts from (after LREM): the record of `t` is untouched, set `waiting`,
      or refused with one of the two errors; other records are untouched; the
      id is appended to the queue only together with the `waiting` update;
      only the throttle and singleton lock keys change. */
  ghost predicate Confined(w: World, r: Handled, t: Task, now: int) {
    && (|| r.world.tasks == w.tasks
        || r.world.tasks == SetEach(w.tasks, t.id, ToWaiting(now))
        || r.world.tasks == SetEach(w.tasks, t.id, ToRefused(THROTTLE_REFUSAL, now))
        || r.world.tasks == SetEach(w.tasks, t.id, ToRefused(REDIS_ERROR, now)))
    && (r.world.queue == w.queue || r.world.queue == w.queue + [t.id])
    && (r.world.queue == w.queue + [t.id] ==>
          r.world.tasks == SetEach(w.tasks, t.id, ToWaiting(now)) && r.next == Continue)
    && (forall k :: k != ThrottleKey(t) && k != SingletonKey(t) ==>
          (k in r.world.locks <==> k in w.locks) && (k in w.locks ==> r.world.locks[k] == w.locks[k]))
  }

  /** `setStatusFn`: refuse with the error, or set `waiting` and only after a
      successful update push the id onto the queue. */
  function SetStatus(w: World, t: Task, err: Option<string>, now: int, io: AdmitIo): (r: Handled)
    requires err == None || err == Some(THROTTLE_REFUSAL) || err == Some(REDIS_ERROR)
    ensures Confined(w, r, t, now)
    ensures r.world.locks == w.locks
    ensures io.updateFails ==> r == Handled(w, Abort)
    ensures err.Some? && !io.updateFails ==>
      r == Handled(w.(tasks := SetEach(w.tasks, t.id, ToRefused(err.value, now))), Continue)
    ensures err.None? && !io.updateFails ==>
      r.world.tasks == SetEach(w.tasks, t.id, ToWaiting(now))
      && (r.world.queue == w.queue + [t.id] <==> !io.pushFails)
      && (r.next == Abort <==> io.pushFails)
  {
    if io.updateFails then Handled(w, Abort)
    else match err
      case Some(reason) => Handled(w.(tasks := SetEach(w.tasks, t.id, ToRefused(reason, now))), Continue)
      case None =>
        var updated := w.(tasks := SetEach(w.tasks, t.id, ToWaiting(now)));
        if io.pushFails then Handled(updated, Abort)
        else Handled(updated.(queue := updated.queue + [t.id]), Continue)
  }

  /** A lock attempt that changes only its own key keeps the other keys. */
  lemma LockStepConfined(w: World, a: Locks.Attempt, key: string, r: Handled, t: Task, now: int)
    requires key == ThrottleKey(t) || key == SingletonKey(t)
    requires forall k :: k != key ==> (k in a.keys <==> k in w.locks)
    requires forall k :: k != key && k in w.locks ==> a.keys[k] == w.locks[k]
    requires Confined(w.(locks := a.keys), r, t, now)
    ensures Confined(w, r, t, now)
  {
  }

  /** `singletonFn`: a busy singleton lock leaves the record for a later poll. */
  function SingletonStage(w: World, t: Task, now: int, io: AdmitIo): (r: Handled)
    ensures Confined(w, r, t, now)
  {
    if !IsSingleton(t) then SetStatus(w, t, None, now, io)
    else
      var a := Locks.PassLock(w.locks, SingletonKey(t), SINGLETON_TIMEOUT, now, io.singleton);
      var locked := w.(locks := a.keys);
      var r := match a.outcome
        case Acquired => SetStatus(locked, t, None, now, io)
        case Busy => Handled(locked, Continue)
        case Failed(_) => Handled(locked, Abort);
      LockStepConfined(w, a, SingletonKey(t), r, t, now);
      r
  }

  /** `throttleFn` with `alreadyLocked`: a busy throttle lock leaves the last
      trailing record of its `uniqId` alone and refuses every other one. */
  function ThrottleStage(w: World, t: Task, lastIds: set<TaskId>, now: int, io: AdmitIo): (r: Handled)
    ensures Confined(w, r, t, now)
  {
    if !IsThrottled(t) then SingletonStage(w, t, now, io)
    else
      var a := Locks.PassLock(w.locks, ThrottleKey(t), ThrottleTimeout(t), now, io.throttle);
      var locked := w.(locks := a.keys);
      var r :=
        if a.outcome.Acquired? then SingletonStage(locked, t, now, io)
        else if IsTrailing(t) && t.id in lastIds then Handled(locked, Continue)
        else SetStatus(locked, t, Some(THROTTLE_REFUSAL), now, io);
      assert Confined(locked, r, t, now);
      LockStepConfined(w, a, ThrottleKey(t), r, t, now);
      r
  }

  /** `handleTask(model, task, lastUniqTaskIds, done)` for the record snapshot
      `t` returned by the admission query, at time `now`. */
  function HandleTask(w: World, t: Task, lastIds: set<TaskId>, now: int, io: AdmitIo): (r: Handled)
    ensures Confined(w.(queue := Pruned(w.queue, t, io)), r, t, now)
  {
    if Requeued(t) && io.lremFails then SetStatus(w, t, Some(REDIS_ERROR), now, io)
    else ThrottleStage(w.(queue := Pruned(w.queue, t, io)), t, lastIds, now, io)
  }

  /** The throttle attempt of `HandleTask` (LREM does not touch the locks). */
  function ThrottleAttempt(w: World, t: Task, now: int, io: AdmitIo): Locks.Attempt {
    Locks.PassLock(w.locks, ThrottleKey(t), ThrottleTimeout(t), now, io.throttle)
  }

  /** Busy throttle lock, trailing record that is the last of its `uniqId`:
      the record is not written and its id is not queued. */
  lemma TrailingLastIsLeftAlone(w: World, t: Task, lastIds: set<TaskId>, now: int, io: AdmitIo)
    requires !(Requeued(t) && io.lremFails)
    requires IsThrottled(t) && IsTrailing(t) && t.id in lastIds
    requires !ThrottleAttempt(w, t, now, io).outcome.Acquired?
    ensures var r := HandleTask(w, t, lastIds, now, io);
      r.world.tasks == w.tasks && r.world.queue == Pruned(w.queue, t, io) && r.next == Continue
  {
  }

  /** Busy throttle lock, any other record: it is refused with the throttle
      error and the refusal time, and its id is not queued. */
  lemma ThrottleBusyRefuses(w: World, t: Task, lastIds: set<TaskId>, now: int, io: AdmitIo)
    requires !(Requeued(t) && io.lremFails) && !io.updateFails
    requires IsThrottled(t) && !(IsTrailing(t) && t.id in lastIds)
    requires !ThrottleAttempt(w, t, now, io).outcome.Acquired?
    ensures var r := HandleTask(w, t, lastIds, now, io);
      && r.world.tasks == SetEach(w.tasks, t.id, ToRefused(THROTTLE_REFUSAL, now))
      && r.world.queue == Pruned(w.queue, t, io)
      && r.next == Continue
  {
  }

  /** Busy singleton lock: neither refused nor queued; a Redis error during
      the attempt stops the batch instead. */
  lemma SingletonBusyLeaves(w: World, t: Task, lastIds: set<TaskId>, now: int, io: AdmitIo)
    requires !(Requeued(t) && io.lremFails)
    requires !IsThrottled(t) || ThrottleAttempt(w, t, now, io).outcome.Acquired?
    requires IsSingleton(t)
    requires var locks := if IsThrottled(t) then ThrottleAttempt(w, t, now, io).keys else w.locks;
      !Locks.PassLock(locks, SingletonKey(t), SINGLETON_TIMEOUT, now, io.singleton).outcome.Acquired?
    ensures var r := HandleTask(w, t, lastIds, now, io);
      var locks := if IsThrottled(t) then ThrottleAttempt(w, t, now, io).keys else w.locks;
      && r.world.tasks == w.tasks
      && r.world.queue == Pruned(w.queue, t, io)
      && (r.next == Abort <==>
            Locks.PassLock(locks, SingletonKey(t), SINGLETON_TIMEOUT, now, io.singleton).outcome.Failed?)
  {
  }

  /** With both locks passed: the record becomes `waiting` at `now`, and only
      then is its id appended to the queue; a failed update pushes nothing. */
  lemma AdmittedIsQueued(w: World, t: Task, lastIds: set<TaskId>, now: int, io: AdmitIo)
    requires !(Requeued(t) && io.lremFails)
    requires !IsThrottled(t) || ThrottleAttempt(w, t, now, io).outcome.Acquired?
    requires !IsSingleton(t) ||
      var locks := if IsThrottled(t) then ThrottleAttempt(w, t, now, io).keys else w.locks;
      Locks.PassLock(locks, SingletonKey(t), SINGLETON_TIMEOUT, now, io.singleton).outcome.Acquired?
    ensures var r := HandleTask(w, t, lastIds, now, io);
      && (io.updateFails ==> r.world.tasks == w.tasks && r.world.queue == Pruned(w.queue, t, io) && r.next == Abort)
      && (!io.updateFails ==> r.world.tasks == SetEach(w.tasks, t.id, ToWaiting(now)))
      && (!io.updateFails && !io.pushFails ==> r.world.queue == Pruned(w.queue, t, io) + [t.id] && r.next == Continue)
  {
  }

  /** A timed-out `waiting` or `executing` record ends with its id at most
      once in the queue, and then at the end: stale entries are removed before
      any push. */
  lemma RequeuedIdOccursOnce(w: World, t: Task, lastIds: set<TaskId>, now: int, io: AdmitIo)
    requires Requeued(t) && !io.lremFails
    ensures var q := HandleTask(w, t, lastIds, now, io).world.queue;
      forall i :: 0 <= i < |q| - 1 ==> q[i] != t.id
  {
    var q := HandleTask(w, t, lastIds, now, io).world.queue;
    var p := Without(w.queue, t.id);
    assert t.id !in p;
    forall i | 0 <= i < |q| - 1 ensures q[i] != t.id {
      assert q[i] == p[i];
    }
  }

  /** Admission only moves a record along a permitted edge, and only the
      records it is handed. */
  lemma HandleTaskPermitted(w: World, t: Task, lastIds: set<TaskId>, now: int, io: AdmitIo)
    requires t.id in w.tasks && w.tasks[t.id].status in {New, Waiting, Executing}
    ensures var r := HandleTask(w, t, lastIds, now, io);
      Permitted(w.tasks[t.id].status, r.world.tasks[t.id].status)
  {
  }

  // ---------------------------------------------------------------------------
  // The trailing selection of `handleTasks`

  /** A record that takes part in trailing throttle: `uniqId && throttle && trailing`. */
  predicate TrailingThrottle(t: Task) {
    Present(t.uniqId) && IsThrottled(t) && IsTrailing(t)
  }

  /** `uniqTasks`: for each `uniqId`, the id last assigned while walking the batch. */
  function LastByUniq(batch: seq<Task>): map<string, TaskId>
    decreases |batch|
  {
    if |batch| == 0 then map[]
    else
      var t := batch[|batch| - 1];
      var m := LastByUniq(batch[..|batch| - 1]);
      if TrailingThrottle(t) then m[t.uniqId.value := t.id] else m
  }

  /** `lastUniqTaskIds = _.values(uniqTasks)`. */
  function LastUniqTaskIds(batch: seq<Task>): set<TaskId> {
    LastByUniq(batch).Values
  }

  ghost predicate TrailingAt(batch: seq<Task>, j: int, u: string) {
    0 <= j < |batch| && TrailingThrottle(batch[j]) && batch[j].uniqId.value == u
  }

  /** Position `j` is the last trailing record with `uniqId` u. */
  ghost predicate LastOf(batch: seq<Task>, j: int, u: string) {
    TrailingAt(batch, j, u) && forall k :: j < k < |batch| ==> !TrailingAt(batch, k, u)
  }

  /** `uniqTasks` has exactly one entry per `uniqId` among trailing throttle
      records, holding the id of the last such record in query order. */
  lemma {:induction false} LastByUniqIsLast(batch: seq<Task>)
    ensures forall u :: u in LastByUniq(batch) <==> exists j :: TrailingAt(batch, j, u)
    ensures forall u :: u in LastByUniq(batch) ==>
      exists j :: LastOf(batch, j, u) && LastByUniq(batch)[u] == batch[j].id
    decreases |batch|
  {
    if |batch| > 0 {
      var n := |batch| - 1;
      var init := batch[..n];
      var t := batch[n];
      LastByUniqIsLast(init);
      var m := LastByUniq(init);
      forall j, u | 0 <= j < n ensures TrailingAt(init, j, u) <==> TrailingAt(batch, j, u) {
        assert init[j] == batch[j];
      }
      forall u ensures u in LastByUniq(batch) <==> exists j :: TrailingAt(batch, j, u) {
        if u in LastByUniq(batch) {
          if TrailingThrottle(t) && t.uniqId.value == u {
            assert TrailingAt(batch, n, u);
          } else {
            assert u in m;
            var j :| TrailingAt(init, j, u);
            assert TrailingAt(batch, j, u);
          }
        }
        if exists j :: TrailingAt(batch, j, u) {
          var j :| TrailingAt(batch, j, u);
          if j < n {
            assert TrailingAt(init, j, u);
            assert u in m;
          }
        }
      }
      forall u | u in LastByUniq(batch)
        ensures exists j :: LastOf(batch, j, u) && LastByUniq(batch)[u] == batch[j].id
      {
        if TrailingThrottle(t) && t.uniqId.value == u {
          assert LastOf(batch, n, u);
        } else {
          var j :| LastOf(init, j, u) && m[u] == init[j].id;
          assert !TrailingAt(batch, n, u);
          assert LastOf(batch, j, u);
        }
      }
    }
  }

  /** With distinct ids, a trailing throttle record's id is in
      `lastUniqTaskIds` exactly when no later record of the batch shares its
      `uniqId` with trailing throttle. */
  lemma TrailingPassesIffLast(batch: seq<Task>, i: int)
    requires forall a, b :: 0 <= a < b < |batch| ==> batch[a].id != batch[b].id
    requires 0 <= i < |batch| && TrailingThrottle(batch[i])
    ensures batch[i].id in LastUniqTaskIds(batch) <==> LastOf(batch, i, batch[i].uniqId.value)
  {
    LastByUniqIsLast(batch);
    var m := LastByUniq(batch);
    var u := batch[i].uniqId.value;
    if batch[i].id in m.Values {
      var v :| v in m && m[v] == batch[i].id;
      var j :| LastOf(batch, j, v) && m[v] == batch[j].id;
      assert j == i;
    }
    if LastOf(batch, i, u) {
      assert TrailingAt(batch, i, u);
      var j :| LastOf(batch, j, u) && m[u] == batch[j].id;
      if j != i {
        assert false;
      }
      assert m[u] in m.Values;
    }
  }

  // ---------------------------------------------------------------------------
  // One admission cycle

  /** The environment of the `i`-th record of the batch; missing entries are smooth. */
  function IoAt(ios: seq<AdmitIo>, i: nat): AdmitIo {
    if i < |ios| then ios[i] else Smooth
  }

  /** The ids of a batch. */
  function Ids(batch: seq<Task>): set<TaskId> {
    set t | t in batch :: t.id
  }

  datatype BatchResult = BatchResult(world: World, handled: nat, next: Next)

  /** `async.eachSeries(tasks, handleTask)`: records are handled in query
      order and an error stops the rest of the batch. */
  function RunBatch(w: World, batch: seq<Task>, lastIds: set<TaskId>, now: int, ios: seq<AdmitIo>): (r: BatchResult)
    ensures r.handled <= |batch|
    ensures r.next == Continue ==> r.handled == |batch|
    ensures r.world.tasks.Keys == w.tasks.Keys
    ensures forall k :: k in w.tasks && k !in Ids(batch) ==> r.world.tasks[k] == w.tasks[k]
    decreases |batch|
  {
    if |batch| == 0 then BatchResult(w, 0, Continue)
    else
      var h := HandleTask(w, batch[0], lastIds, now, IoAt(ios, 0));
      if h.next == Abort then BatchResult(h.world, 1, Abort)
      else
        var rest := RunBatch(h.world, batch[1..], lastIds, now, if |ios| > 0 then ios[1..] else []);
        assert Ids(batch[1..]) <= Ids(batch);
        BatchResult(rest.world, rest.handled + 1, rest.next)
  }

  datatype CycleOutcome = LockNotTaken | FetchFailed | Processed(handled: nat, next: Next)

  datatype Cycle = Cycle(world: World, outcome: CycleOutcome)

  /** `handleTasks`: take the query lock; on failure back off with nothing
      written. Otherwise fetch the batch (`None` when the query fails), compute
      `lastUniqTaskIds`, handle the records in order, and release the query
      lock. The batch is what the store returned for the `Eligible` query
      ordered by `createdAt`, at most 100 records. */
  function AdmissionCycle(w: World, now: int, lockIo: Locks.LockIo, fetched: Option<seq<Task>>, ios: seq<AdmitIo>): (r: Cycle)
    ensures r.outcome.LockNotTaken? ==> r.world.tasks == w.tasks && r.world.queue == w.queue
    ensures !r.outcome.LockNotTaken? ==> QUERY_LOCK_KEY !in r.world.locks
    ensures fetched.None? ==> r.world.tasks == w.tasks && r.world.queue == w.queue
  {
    var a := Locks.PassLock(w.locks, QUERY_LOCK_KEY, MONGO_QUERY_TIMEOUT, now, lockIo);
    if !a.outcome.Acquired? then Cycle(w.(locks := a.keys), LockNotTaken)
    else if fetched.None? then Cycle(w.(locks := Locks.Release(a.keys, QUERY_LOCK_KEY)), FetchFailed)
    else
      var batch := fetched.value;
      var b := RunBatch(w.(locks := a.keys), batch, LastUniqTaskIds(batch), now, ios);
      Cycle(b.world.(locks := Locks.Release(b.world.locks, QUERY_LOCK_KEY)), Processed(b.handled, b.next))
  }

  // ---------------------------------------------------------------------------
  // Throttle windows over a whole batch

  /** A new record with throttle (and no singleton) on lock key `key`. */
  predicate ThrottleOnly(t: Task, key: string) {
    IsThrottled(t) && !IsSingleton(t) && ThrottleKey(t) == key && t.status == New
  }

  /** The ids a busy throttle lock refuses: every record except trailing
      ones whose id is in `lastIds`. */
  function Refusable(batch: seq<Task>, lastIds: set<TaskId>): set<TaskId> {
    set t | t in batch && !(IsTrailing(t) && t.id in lastIds) :: t.id
  }

  /** A batch run without failures is its first record's handling followed
      by the run of the rest. */
  lemma RunBatchCons(w: World, batch: seq<Task>, lastIds: set<TaskId>, now: int)
    requires |batch| > 0 && HandleTask(w, batch[0], lastIds, now, Smooth).next == Continue
    ensures var h := HandleTask(w, batch[0], lastIds, now, Smooth);
      var rest := RunBatch(h.world, batch[1..], lastIds, now, []);
      RunBatch(w, batch, lastIds, now, []) == BatchResult(rest.world, rest.handled + 1, rest.next)
  {
  }

  /** The refusable ids of a batch: the first record's, if it is refused,
      and the rest's. */
  lemma RefusableCons(batch: seq<Task>, lastIds: set<TaskId>)
    requires |batch| > 0
    ensures forall k :: k in Refusable(batch, lastIds) <==>
      k in Refusable(batch[1..], lastIds) || (!(IsTrailing(batch[0]) && batch[0].id in lastIds) && k == batch[0].id)
  {
    assert batch == [batch[0]] + batch[1..];
  }

  /** One record of a throttle batch while its lock is live: it is refused,
      or left alone if trailing and in `lastIds`; nothing else changes. */
  lemma LiveThrottleStep(w: World, t: Task, lastIds: set<TaskId>, now: int, key: string)
    requires key in w.locks && !Locks.Stale(w.locks[key], now) && ThrottleOnly(t, key)
    ensures var h := HandleTask(w, t, lastIds, now, Smooth);
      && h.world.locks == w.locks && h.world.queue == w.queue && h.next == Continue
      && h.world.tasks == (if IsTrailing(t) && t.id in lastIds then w.tasks
                           else SetEach(w.tasks, t.id, ToRefused(THROTTLE_REFUSAL, now)))
  {
    Locks.LiveKeyIsRefused(w.locks, key, ThrottleTimeout(t), now);
    if IsTrailing(t) && t.id in lastIds {
      TrailingLastIsLeftAlone(w, t, lastIds, now, Smooth);
    } else {
      ThrottleBusyRefuses(w, t, lastIds, now, Smooth);
    }
  }

  /** One record of a throttle batch while its key is free: it is admitted
      and queued, and the key is left as its own lock attempt leaves it. */
  lemma FreeThrottleStep(w: World, t: Task, lastIds: set<TaskId>, now: int, key: string)
    requires key !in w.locks && ThrottleOnly(t, key)
    ensures var h := HandleTask(w, t, lastIds, now, Smooth);
      && h.world.locks == Locks.Locked(w.locks, key, ThrottleTimeout(t), now)
      && h.world.queue == w.queue + [t.id] && h.next == Continue
      && h.world.tasks == SetEach(w.tasks, t.id, ToWaiting(now))
  {
    Locks.AbsentKeyIsAcquired(w.locks, key, ThrottleTimeout(t), now, Locks.Undisturbed);
    AdmittedIsQueued(w, t, lastIds, now, Smooth);
  }

  /** While the throttle lock of a batch is live, every record of it is
      refused except trailing records in `lastIds`, which are left alone;
      nothing is queued and no lock changes. */
  lemma {:induction false} LiveThrottleBatch(w: World, batch: seq<Task>, lastIds: set<TaskId>, now: int, key: string)
    requires key in w.locks && !Locks.Stale(w.locks[key], now)
    requires forall i :: 0 <= i < |batch| ==> ThrottleOnly(batch[i], key)
    ensures var r := RunBatch(w, batch, lastIds, now, []);
      && r.world.queue == w.queue && r.world.locks == w.locks && r.next == Continue
      && r.world.tasks.Keys == w.tasks.Keys
      && forall k :: k in w.tasks ==>
           r.world.tasks[k] == (if k in Refusable(batch, lastIds)
                                then Apply(w.tasks[k], ToRefused(THROTTLE_REFUSAL, now)) else w.tasks[k])
    decreases |batch|
  {
    if |batch| > 0 {
      var t := batch[0];
      LiveThrottleStep(w, t, lastIds, now, key);
      var h := HandleTask(w, t, lastIds, now, Smooth);
      var refused := !(IsTrailing(t) && t.id in lastIds);
      forall i | 0 <= i < |batch[1..]| ensures ThrottleOnly(batch[1..][i], key) {
        assert batch[1..][i] == batch[i + 1];
      }
      LiveThrottleBatch(h.world, batch[1..], lastIds, now, key);
      RunBatchCons(w, batch, lastIds, now);
      RefusableCons(batch, lastIds);
    }
  }

  /** Plain throttle: with the throttle
      key free, the first record of a batch sharing it is admitted and queued,
      and every later one is refused. */
  lemma ThrottleWindowAdmitsFirst(w: World, batch: seq<Task>, lastIds: set<TaskId>, now: int, key: string)
    requires key !in w.locks && |batch| > 0 && ThrottleTimeout(batch[0]) >= 0
    requires forall i :: 0 <= i < |batch| ==> ThrottleOnly(batch[i], key) && !IsTrailing(batch[i])
    requires forall i :: 0 < i < |batch| ==> batch[i].id != batch[0].id
    ensures var r := RunBatch(w, batch, lastIds, now, []);
      && r.world.queue == w.queue + [batch[0].id]
      && r.next == Continue
      && forall k :: k in w.tasks ==>
           r.world.tasks[k] == (if k == batch[0].id then Apply(w.tasks[k], ToWaiting(now))
                                else if k in Ids(batch) then Apply(w.tasks[k], ToRefused(THROTTLE_REFUSAL, now))
                                else w.tasks[k])
  {
    var t := batch[0];
    FreeThrottleStep(w, t, lastIds, now, key);
    var h := HandleTask(w, t, lastIds, now, Smooth);
    forall i | 0 <= i < |batch[1..]| ensures ThrottleOnly(batch[1..][i], key) {
      assert batch[1..][i] == batch[i + 1];
    }
    LiveThrottleBatch(h.world, batch[1..], lastIds, now, key);
    forall k | k in w.tasks
      ensures k in Refusable(batch[1..], lastIds) <==> k != t.id && k in Ids(batch)
    {
      assert batch == [t] + batch[1..];
      if k in Refusable(batch[1..], lastIds) {
        var u :| u in batch[1..] && u.id == k;
        var i :| 0 <= i < |batch[1..]| && batch[1..][i] == u;
        assert batch[i + 1] == u;
      }
      if k != t.id && k in Ids(batch) {
        var u :| u in batch && u.id == k;
        assert u in batch[1..];
        assert !IsTrailing(u);
      }
    }
  }

  /** The ids of a batch, in query order. */
  function IdList(batch: seq<Task>): (ids: seq<TaskId>)
    ensures |ids| == |batch|
    decreases |batch|
  {
    if |batch| == 0 then [] else [batch[0].id] + IdList(batch[1..])
  }

  /** A negative throttle timeout never holds the throttle key, whose EXPIRE
      deletes it at once: with the key free, every record of a batch sharing
      it is admitted, and queued in order. */
  lemma {:induction false} NegativeThrottleQueuesAll(w: World, batch: seq<Task>, lastIds: set<TaskId>, now: int, key: string)
    requires key !in w.locks
    requires forall i :: 0 <= i < |batch| ==> ThrottleOnly(batch[i], key) && ThrottleTimeout(batch[i]) < 0
    ensures var r := RunBatch(w, batch, lastIds, now, []);
      && r.world.queue == w.queue + IdList(batch)
      && r.world.locks == w.locks && r.next == Continue
    decreases |batch|
  {
    if |batch| > 0 {
      var t := batch[0];
      FreeThrottleStep(w, t, lastIds, now, key);
      var h := HandleTask(w, t, lastIds, now, Smooth);
      forall i | 0 <= i < |batch[1..]| ensures ThrottleOnly(batch[1..][i], key) && ThrottleTimeout(batch[1..][i]) < 0 {
        assert batch[1..][i] == batch[i + 1];
      }
      assert h.world.locks == w.locks by {
        assert Locks.PrepareLockTimeout(ThrottleTimeout(t)) < 0;
        assert w.locks - {key} == w.locks;
      }
      NegativeThrottleQueuesAll(h.world, batch[1..], lastIds, now, key);
      RunBatchCons(w, batch, lastIds, now);
      assert IdList(batch) == [t.id] + IdList(batch[1..]);
      assert (w.queue + [t.id]) + IdList(batch[1..]) == w.queue + IdList(batch);
    }
  }

  /** ... and every record of such a batch ends `waiting`. */
  lemma {:induction false} NegativeThrottleAdmitsAll(w: World, batch: seq<Task>, lastIds: set<TaskId>, now: int, key: string)
    requires key !in w.locks
    requires forall i :: 0 <= i < |batch| ==> ThrottleOnly(batch[i], key) && ThrottleTimeout(batch[i]) < 0
    ensures var r := RunBatch(w, batch, lastIds, now, []);
      forall k :: k in w.tasks && k in Ids(batch) ==> r.world.tasks[k].status == Waiting
    decreases |batch|
  {
    if |batch| > 0 {
      var t := batch[0];
      FreeThrottleStep(w, t, lastIds, now, key);
      var h := HandleTask(w, t, lastIds, now, Smooth);
      forall i | 0 <= i < |batch[1..]| ensures ThrottleOnly(batch[1..][i], key) && ThrottleTimeout(batch[1..][i]) < 0 {
        assert batch[1..][i] == batch[i + 1];
      }
      NegativeThrottleAdmitsAll(h.world, batch[1..], lastIds, now, key);
      var rest := RunBatch(h.world, batch[1..], lastIds, now, []);
      RunBatchCons(w, batch, lastIds, now);
      forall k | k in w.tasks && k in Ids(batch) ensures rest.world.tasks[k].status == Waiting {
        if k !in Ids(batch[1..]) {
          assert rest.world.tasks[k] == h.world.tasks[k];
        }
      }
    }
  }

  /** Trailing throttle: while the throttle key is live, among records with one
      `uniqId` every record but the last is refused and the last is left as it
      is, to be admitted by a later poll once the lock has expired. */
  lemma TrailingWindowKeepsLast(w: World, batch: seq<Task>, now: int, key: string)
    requires key in w.locks && !Locks.Stale(w.locks[key], now) && |batch| > 0
    requires forall i :: 0 <= i < |batch| ==> ThrottleOnly(batch[i], key) && TrailingThrottle(batch[i])
    requires forall i :: 0 <= i < |batch| ==> batch[i].uniqId == batch[0].uniqId
    requires forall a, b :: 0 <= a < b < |batch| ==> batch[a].id != batch[b].id
    ensures var r := RunBatch(w, batch, LastUniqTaskIds(batch), now, []);
      var last := batch[|batch| - 1].id;
      && r.world.queue == w.queue
      && forall k :: k in w.tasks ==>
           r.world.tasks[k] == (if k in Ids(batch) && k != last
                                then Apply(w.tasks[k], ToRefused(THROTTLE_REFUSAL, now)) else w.tasks[k])
  {
    LiveThrottleBatch(w, batch, LastUniqTaskIds(batch), now, key);
    TrailingRefusesAllButLast(batch);
  }

  /** In a batch of trailing records sharing one `uniqId`, the ids a busy
      throttle refuses are all but the last. */
  lemma TrailingRefusesAllButLast(batch: seq<Task>)
    requires |batch| > 0
    requires forall i :: 0 <= i < |batch| ==> TrailingThrottle(batch[i])
    requires forall i :: 0 <= i < |batch| ==> batch[i].uniqId == batch[0].uniqId
    requires forall a, b :: 0 <= a < b < |batch| ==> batch[a].id != batch[b].id
    ensures forall k :: k in Refusable(batch, LastUniqTaskIds(batch)) <==> k in Ids(batch) && k != batch[|batch| - 1].id
  {
    var lastIds := LastUniqTaskIds(batch);
    var n := |batch| - 1;
    forall k ensures k in Refusable(batch, lastIds) <==> k in Ids(batch) && k != batch[n].id {
      if k in Ids(batch) {
        var t :| t in batch && t.id == k;
        var i :| 0 <= i < |batch| && batch[i] == t;
        TrailingPassesIffLast(batch, i);
        assert TrailingAt(batch, n, batch[i].uniqId.value);
        if i < n {
          assert !LastOf(batch, i, batch[i].uniqId.value);
        } else {
          assert LastOf(batch, n, batch[i].uniqId.value);
        }
      }
    }
  }
}

=== FILE: childworker.dfy ===
/** One pooled worker process as the scheduler sees it (`ChildWorker` in
    orchestration/ChildWorker.js): a slot that runs at most one job at a time,
    answers each job's callback once, retires after a random number of jobs,
    and after ending waits a grace period before flushing the pending callback
    and killing the process.

    The slot is a pure state machine: `Step` takes the slot and one event (a
    message or lifecycle event from the process, a timer firing, or a call of
    `executeTask`) and returns the new slot and the effects of the step in the
    order the source performs them. Callbacks are named by `CallbackId`s; the
    process's liveness probes (`isDead`, `isConnected`) are inputs. */
module ChildWorker {
  import opened Common
  import Protocol

  const TASK_TIMEOUT: nat := 90000
  const END_GRACE: nat := 3000
  const DISCONNECT_GRACE: nat := 50
  const MIN_TASKS_LIMIT: int := 200
  const MAX_TASKS_LIMIT: int := 500

  type TaskId = string

  /** Names a caller's `done` callback. */
  type CallbackId = nat

  /** The errors the slot reports, to a callback or with its `end` event. */
  datatype Failure =
    | AlreadyExecuting(current: TaskId)
    | NotForked
    | WorkerEnded
    | NotReady
    | WorkerDead
    | NotConnected
    | UnknownFormat
    | OtherTask(got: TaskId, expected: Option<TaskId>)
    | TaskTimeout
    | Disconnected
    | ExitCode(code: int)
    | ProcessError(message: string)
    | LimitReached
    | Reported(message: string)   // the `err` the worker process sent back

  /** The grace timer armed by `end`: not yet armed, armed with the end
      reason, or fired (the pending callback was flushed and the handle dropped). */
  datatype Grace = Unarmed | Armed(reason: Option<Failure>) | Flushed

  /** The slot's fields. `worker` is the cluster worker's id while the handle
      is held; `readyListener` is the start-up `once('message')` listener;
      `replyListeners` are the registered reply listeners in registration
      order, each holding the id of the task timer it clears (there is more
      than one only when a job with an empty, falsy id is overwritten);
      `timers` are the armed task timers;
      `disconnectTimers` counts the armed 50 ms end timers. */
  datatype Slot = Slot(
    worker: Option<nat>,
    ready: bool,
    ended: bool,
    executingId: Option<TaskId>,
    executingCallback: Option<CallbackId>,
    tasksDone: nat,
    tasksLimit: int,
    readyListener: bool,
    replyListeners: seq<nat>,
    timers: seq<nat>,
    nextTimer: nat,
    disconnectTimers: nat,
    grace: Grace)

  /** What a step does outside the slot, in order. `Invoke` calls a callback
      with its error and worker id; `slotEnded` is the slot's `ended` flag at
      the moment of the call, which the pool's wrapper callback reads. `Crash`
      is the TypeError thrown by reading `this.worker.id` after the handle was
      dropped: the rest of the step does not happen. */
  datatype Effect =
    | Invoke(callback: CallbackId, err: Option<Failure>, workerId: Option<nat>, slotEnded: bool)
    | EmitReady
    | EmitEnd(reason: Option<Failure>)
    | Send(message: Protocol.ToChild)
    | Kill
    | Crash

  datatype Out = Out(slot: Slot, effects: seq<Effect>)

  datatype Event =
    | Message(data: Protocol.ToParent)
    | Disconnect
    | Exit(code: int)
    | ProcessFailed(message: string)
    | Signal                             // SIGTERM, SIGINT or SIGQUIT
    | TaskTimerFires(timer: nat)
    | DisconnectTimerFires
    | GraceTimerFires
    | Execute(taskId: TaskId, callback: CallbackId, dead: bool, connected: bool)

  /** Not running a job: no job id (an empty id is falsy and counts as none)
      and no pending callback. */
  predicate Idle(s: Slot) {
    !Present(s.executingId) && s.executingCallback.None?
  }

  /** The constructor: a freshly forked process with a job limit drawn from
      200..500 (`draw` stands for the random source). */
  function Spawn(workerId: nat, draw: nat): (s: Slot)
    ensures MIN_TASKS_LIMIT <= s.tasksLimit <= MAX_TASKS_LIMIT
    ensures s.worker == Some(workerId) && !s.ready && !s.ended && s.readyListener
    ensures Idle(s) && s.tasksDone == 0 && s.timers == [] && s.grace == Unarmed
  {
    Slot(Some(workerId), false, false, None, None, 0, RandomInt(MIN_TASKS_LIMIT, MAX_TASKS_LIMIT, draw),
         true, [], [], 0, 0, Unarmed)
  }

  /** `end(err)`: the first call marks the slot ended, emits `end` and arms the
      grace timer; later calls do nothing. */
  function End(s: Slot, reason: Option<Failure>): (o: Out)
    ensures o.slot.ended
    ensures o.effects == if s.ended then [] else [EmitEnd(reason)]
    ensures o.slot.(ended := s.ended, grace := s.grace) == s
    ensures s.ended ==> o.slot.grace == s.grace
    ensures !s.ended ==> o.slot.grace == Armed(reason)
  {
    if s.ended then Out(s, [])
    else Out(s.(ended := true, grace := Armed(reason)), [EmitEnd(reason)])
  }

  /** `callExecutingCallback(err)`: forget the job, call its callback (if
      still pending) once with the worker id, count the job, and end the slot
      when the job limit is reached. */
  function CallExecutingCallback(s: Slot, err: Option<Failure>): (o: Out)
    ensures !Present(o.slot.executingId)
    ensures s.executingCallback.None? ==> o == Out(s.(executingId := None), [])
    ensures s.executingCallback.Some? && s.worker.None? ==> o == Out(s.(executingId := None), [Crash])
    ensures s.executingCallback.Some? && s.worker.Some? ==>
      && |o.effects| >= 1
      && o.effects[0] == Invoke(s.executingCallback.value, err, s.worker, s.ended)
      && o.slot.executingCallback.None?
      && o.slot.tasksDone == s.tasksDone + 1
      && (o.slot.ended <==> s.ended || o.slot.tasksDone == s.tasksLimit)
      && o.effects[1..] == (if !s.ended && o.slot.tasksDone == s.tasksLimit then [EmitEnd(Some(LimitReached))] else [])
    ensures o.slot.worker == s.worker && o.slot.timers == s.timers && o.slot.replyListeners == s.replyListeners
    ensures o.slot.readyListener == s.readyListener && o.slot.ready == s.ready
  {
    var cleared := s.(executingId := None);
    match cleared.executingCallback
    case None => Out(cleared, [])
    case Some(cb) =>
      if cleared.worker.None? then Out(cleared, [Crash])
      else
        var invoked := Invoke(cb, err, cleared.worker, cleared.ended);
        var counted := cleared.(executingCallback := None, tasksDone := cleared.tasksDone + 1);
        if counted.tasksDone == counted.tasksLimit then
          var e := End(counted, Some(LimitReached));
          Out(e.slot, [invoked] + e.effects)
        else Out(counted, [invoked])
  }

  /** The checks `executeTask` makes, in order, once the job is recorded. */
  function Refusal(s: Slot, dead: bool, connected: bool): (f: Option<Failure>)
    ensures f.None? <==> s.worker.Some? && !s.ended && s.ready && !dead && connected
    ensures f == Some(NotForked) <==> s.worker.None?
    ensures f == Some(WorkerEnded) <==> s.worker.Some? && s.ended
    ensures f == Some(NotReady) <==> s.worker.Some? && !s.ended && !s.ready
    ensures f == Some(WorkerDead) <==> s.worker.Some? && !s.ended && s.ready && dead
    ensures f == Some(NotConnected) <==> s.worker.Some? && !s.ended && s.ready && !dead && !connected
  {
    if s.worker.None? then Some(NotForked)
    else if s.ended then Some(WorkerEnded)
    else if !s.ready then Some(NotReady)
    else if dead then Some(WorkerDead)
    else if !connected then Some(NotConnected)
    else None
  }

  /** `executeTask(taskId, done)`: a slot already running a job answers the
      new callback at once and is left as it was; otherwise the job is
      recorded, and either refused through `callExecutingCallback`, or sent to
      the process with a 90 s task timer and a reply listener. */
  function ExecuteTask(s: Slot, taskId: TaskId, cb: CallbackId, dead: bool, connected: bool): (o: Out)
    ensures Present(s.executingId) ==>
      o == Out(s, [Invoke(cb, Some(AlreadyExecuting(s.executingId.value)), None, s.ended)])
    ensures !Present(s.executingId) && Refusal(s, dead, connected).None? ==>
      && o.effects == [Send(Protocol.ToChild(Some(taskId)))]
      && o.slot.executingId == Some(taskId) && o.slot.executingCallback == Some(cb)
      && o.slot.replyListeners == s.replyListeners + [s.nextTimer]
      && o.slot.timers == s.timers + [s.nextTimer] && o.slot.nextTimer == s.nextTimer + 1
    ensures !Present(s.executingId) && s.worker.Some? && Refusal(s, dead, connected).Some? ==>
      && |o.effects| >= 1
      && o.effects[0] == Invoke(cb, Refusal(s, dead, connected), s.worker, s.ended)
      && Idle(o.slot) && o.slot.tasksDone == s.tasksDone + 1
      && o.slot.timers == s.timers && o.slot.replyListeners == s.replyListeners
    ensures !Present(s.executingId) && s.worker.None? ==>
      o.effects == [Crash] && o.slot.executingCallback == Some(cb)
    ensures o.slot.ended ==> s.ended || o.slot.tasksDone == s.tasksLimit
  {
    if Present(s.executingId) then
      Out(s, [Invoke(cb, Some(AlreadyExecuting(s.executingId.value)), None, s.ended)])
    else
      var taken := s.(executingId := Some(taskId), executingCallback := Some(cb));
      match Refusal(taken, dead, connected)
      case Some(f) => CallExecutingCallback(taken, Some(f))
      case None =>
        var timer := taken.nextTimer;
        Out(taken.(timers := taken.timers + [timer], nextTimer := timer + 1,
                   replyListeners := taken.replyListeners + [timer]),
            [Send(Protocol.ToChild(Some(taskId)))])
  }

  /** The start-up listener: a `ready` message makes a live slot ready. */
  function OnReady(s: Slot, data: Protocol.ToParent): (o: Out)
    ensures !s.ended && data.ready ==> o == Out(s.(ready := true), [EmitReady])
    ensures s.ended || !data.ready ==> o == Out(s, [])
  {
    if s.ended then Out(s, [])
    else if data.ready then Out(s.(ready := true), [EmitReady])
    else Out(s, [])
  }

  /** One reply listener, holding task timer `timer`: a reply without a task
      id, or for another task, fails the current job; the matching reply
      clears the timer and settles the job with the worker's error. */
  function OnReply(s: Slot, timer: nat, data: Protocol.ToParent): (o: Out)
    ensures o.slot.replyListeners == s.replyListeners
    ensures !Present(data.taskId) ==> o == CallExecutingCallback(s, Some(UnknownFormat))
    ensures Present(data.taskId) && data.taskId != s.executingId ==>
      o == CallExecutingCallback(s, Some(OtherTask(data.taskId.value, s.executingId)))
    ensures Present(data.taskId) && data.taskId == s.executingId ==>
      timer !in o.slot.timers && (forall k :: k in o.slot.timers <==> k in s.timers && k != timer)
  {
    if !Present(data.taskId) then CallExecutingCallback(s, Some(UnknownFormat))
    else if data.taskId != s.executingId then
      CallExecutingCallback(s, Some(OtherTask(data.taskId.value, s.executingId)))
    else
      var err := if Present(data.err) then Some(Reported(data.err.value)) else None;
      CallExecutingCallback(s.(timers := Without(s.timers, timer)), err)
  }

  /** The reply listeners run in registration order, each removed just before
      it runs; a throwing listener stops the rest, which stay registered. */
  function OnReplies(s: Slot, data: Protocol.ToParent): (o: Out)
    decreases |s.replyListeners|
  {
    if s.replyListeners == [] then Out(s, [])
    else
      var first := OnReply(s.(replyListeners := s.replyListeners[1..]), s.replyListeners[0], data);
      if Crash in first.effects then first
      else
        var rest := OnReplies(first.slot, data);
        Out(rest.slot, first.effects + rest.effects)
  }

  /** A `message` event: the start-up listener, registered first, runs first;
      then the reply listeners. */
  function OnMessage(s: Slot, data: Protocol.ToParent): Out {
    var afterReady := if s.readyListener then OnReady(s.(readyListener := false), data) else Out(s, []);
    var replied := OnReplies(afterReady.slot, data);
    Out(replied.slot, afterReady.effects + replied.effects)
  }

  /** A task timer fires: the pending callback (of whichever job is running
      now) gets the timeout error, without counting the job, and the slot ends. */
  function OnTaskTimeout(s: Slot, timer: nat): (o: Out) {
    if timer !in s.timers then Out(s, [])
    else
      var fired := s.(timers := Without(s.timers, timer));
      match fired.executingCallback
      case None => End(fired, Some(TaskTimeout))
      case Some(cb) =>
        if fired.worker.None? then Out(fired, [Crash])
        else
          var e := End(fired.(executingCallback := None), Some(TaskTimeout));
          Out(e.slot, [Invoke(cb, Some(TaskTimeout), fired.worker, fired.ended)] + e.effects)
  }

  /** The grace timer fires: flush the pending callback with the end reason,
      then kill the process and drop the handle. */
  function OnGrace(s: Slot): (o: Out) {
    match s.grace
    case Armed(reason) =>
      var flushed := CallExecutingCallback(s.(grace := Flushed), reason);
      if flushed.slot.worker.None? then flushed
      else Out(flushed.slot.(worker := None), flushed.effects + [Kill])
    case _ => Out(s, [])
  }

  function Step(s: Slot, e: Event): (o: Out) {
    match e
    case Message(data) => OnMessage(s, data)
    case Disconnect => Out(s.(ready := false, disconnectTimers := s.disconnectTimers + 1), [])
    case Exit(code) => End(s.(ready := false), Some(ExitCode(code)))
    case ProcessFailed(message) => End(s.(ready := false), Some(ProcessError(message)))
    case Signal => End(s, None)
    case TaskTimerFires(timer) => OnTaskTimeout(s, timer)
    case DisconnectTimerFires =>
      if s.disconnectTimers == 0 then Out(s, [])
      else End(s.(disconnectTimers := s.disconnectTimers - 1), Some(Disconnected))
    case GraceTimerFires => OnGrace(s)
    case Execute(taskId, cb, dead, connected) => ExecuteTask(s, taskId, cb, dead, connected)
  }

  /** What every reachable slot satisfies: it is ended exactly when the grace
      timer has been armed, it loses its process handle only when the grace
      timer fires, a live slot has jobs left before its limit, and a live slot
      still waiting for its start-up message is neither ready nor running a job. */
  predicate SlotInv(s: Slot) {
    SlotCore(s) && (s.readyListener && !s.ended ==> Idle(s))
  }

  /** `SlotInv` without the idleness of a slot waiting for its start-up
      message: what holds while `executeTask` records a job. */
  predicate SlotCore(s: Slot) {
    && (s.ended <==> !s.grace.Unarmed?)
    && (s.worker.None? <==> s.grace.Flushed?)
    && (!s.ended ==> s.tasksDone < s.tasksLimit)
    && (s.readyListener && !s.ended ==> !s.ready)
  }

  lemma SpawnSatisfiesSlotInv(workerId: nat, draw: nat)
    ensures SlotInv(Spawn(workerId, draw))
  {
  }

  lemma CallKeepsSlotInv(s: Slot, err: Option<Failure>)
    requires SlotCore(s)
    ensures SlotInv(CallExecutingCallback(s, err).slot)
  {
  }

  lemma {:induction false} RepliesKeepSlotInv(s: Slot, data: Protocol.ToParent)
    requires SlotInv(s)
    ensures SlotInv(OnReplies(s, data).slot)
    decreases |s.replyListeners|
  {
    if s.replyListeners != [] {
      var t := s.(replyListeners := s.replyListeners[1..]);
      var timer := s.replyListeners[0];
      CallKeepsSlotInv(t, Some(UnknownFormat));
      CallKeepsSlotInv(t, Some(OtherTask(if data.taskId.Some? then data.taskId.value else "", t.executingId)));
      CallKeepsSlotInv(t.(timers := Without(t.timers, timer)), if Present(data.err) then Some(Reported(data.err.value)) else None);
      var first := OnReply(t, timer, data);
      if Crash !in first.effects {
        RepliesKeepSlotInv(first.slot, data);
      }
    }
  }

  /** Every step keeps the slot invariant. */
  lemma StepKeepsSlotInv(s: Slot, e: Event)
    requires SlotInv(s)
    ensures SlotInv(Step(s, e).slot)
  {
    match e
    case Message(data) =>
      var afterReady := if s.readyListener then OnReady(s.(readyListener := false), data) else Out(s, []);
      RepliesKeepSlotInv(afterReady.slot, data);
    case Execute(taskId, cb, dead, connected) =>
      if !Present(s.executingId) {
        var taken := s.(executingId := Some(taskId), executingCallback := Some(cb));
        if Refusal(taken, dead, connected).Some? {
          CallKeepsSlotInv(taken, Refusal(taken, dead, connected));
        }
      }
    case GraceTimerFires =>
    case _ =>
  }

  /** The callbacks a list of effects calls, in order. */
  function Invoked(effects: seq<Effect>): (r: seq<CallbackId>)
    ensures |r| <= |effects|
  {
    if effects == [] then []
    else (if effects[0].Invoke? then [effects[0].callback] else []) + Invoked(effects[1..])
  }

  lemma {:induction false} InvokedAppend(a: seq<Effect>, b: seq<Effect>)
    ensures Invoked(a + b) == Invoked(a) + Invoked(b)
    decreases |a|
  {
    if a != [] {
      assert (a + b)[1..] == a[1..] + b;
      InvokedAppend(a[1..], b);
    } else {
      assert a + b == b;
    }
  }

  /** The callbacks handed to `executeTask`, in order. */
  function CallbacksGiven(events: seq<Event>): (r: seq<CallbackId>)
    ensures |r| <= |events|
  {
    if events == [] then []
    else (if events[0].Execute? then [events[0].callback] else []) + CallbacksGiven(events[1..])
  }

  /** A run of events from a slot: the final slot and every effect in order. */
  function Run(s: Slot, events: seq<Event>): (o: Out)
    decreases |events|
  {
    if events == [] then Out(s, [])
    else
      var first := Step(s, events[0]);
      var rest := Run(first.slot, events[1..]);
      Out(rest.slot, first.effects + rest.effects)
  }

  /** The callbacks of `callExecutingCallback`: the pending one at most, after
      which nothing is pending; when it calls nothing, the pending callback is
      kept or forgotten. */
  lemma CallInvokesPending(s: Slot, err: Option<Failure>)
    ensures var o := CallExecutingCallback(s, err);
      && (Invoked(o.effects) == [] ==> o.slot.executingCallback == s.executingCallback)
      && (Invoked(o.effects) != [] ==>
            s.executingCallback.Some? && Invoked(o.effects) == [s.executingCallback.value]
            && o.slot.executingCallback.None?)
  {
    var o := CallExecutingCallback(s, err);
    if s.executingCallback.Some? && s.worker.Some? {
      assert o.effects == [o.effects[0]] + o.effects[1..];
      InvokedAppend([o.effects[0]], o.effects[1..]);
    }
  }

  lemma ReplyInvokesPending(s: Slot, timer: nat, data: Protocol.ToParent)
    ensures var o := OnReply(s, timer, data);
      && (Invoked(o.effects) == [] ==> o.slot.executingCallback == s.executingCallback)
      && (Invoked(o.effects) != [] ==>
            s.executingCallback.Some? && Invoked(o.effects) == [s.executingCallback.value]
            && o.slot.executingCallback.None?)
  {
    if !Present(data.taskId) {
      CallInvokesPending(s, Some(UnknownFormat));
    } else if data.taskId != s.executingId {
      CallInvokesPending(s, Some(OtherTask(data.taskId.value, s.executingId)));
    } else {
      CallInvokesPending(s.(timers := Without(s.timers, timer)), if Present(data.err) then Some(Reported(data.err.value)) else None);
    }
  }

  lemma {:induction false} RepliesInvokePending(s: Slot, data: Protocol.ToParent)
    ensures var o := OnReplies(s, data);
      && (Invoked(o.effects) == [] ==> o.slot.executingCallback == s.executingCallback)
      && (Invoked(o.effects) != [] ==>
            s.executingCallback.Some? && Invoked(o.effects) == [s.executingCallback.value]
            && o.slot.executingCallback.None?)
    decreases |s.replyListeners|
  {
    if s.replyListeners != [] {
      var t := s.(replyListeners := s.replyListeners[1..]);
      var timer := s.replyListeners[0];
      ReplyInvokesPending(t, timer, data);
      var first := OnReply(t, timer, data);
      if Crash !in first.effects {
        RepliesInvokePending(first.slot, data);
        InvokedAppend(first.effects, OnReplies(first.slot, data).effects);
      }
    }
  }

  /** A step outside `executeTask` calls at most the pending callback, and
      then none is pending; when it calls nothing, the pending callback is kept
      or forgotten. */
  predicate CallsOnlyPending(s: Slot, o: Out) {
    var called := Invoked(o.effects);
    && (called == [] ==> o.slot.executingCallback in {s.executingCallback, None})
    && (called != [] ==>
          s.executingCallback.Some? && called == [s.executingCallback.value] && o.slot.executingCallback.None?)
  }

  /** An `executeTask(_, cb)` step calls at most `cb`, and then leaves the
      pending callback as it was or none; when it calls nothing, `cb` may
      become the pending callback. */
  predicate CallsOnlyOwn(s: Slot, cb: CallbackId, o: Out) {
    var called := Invoked(o.effects);
    && (called == [] ==> o.slot.executingCallback in {s.executingCallback, None, Some(cb)})
    && (called != [] ==> called == [cb] && o.slot.executingCallback in {s.executingCallback, None})
  }

  lemma MessageCallsOnlyPending(s: Slot, data: Protocol.ToParent)
    ensures CallsOnlyPending(s, OnMessage(s, data))
  {
    var afterReady := if s.readyListener then OnReady(s.(readyListener := false), data) else Out(s, []);
    RepliesInvokePending(afterReady.slot, data);
    InvokedAppend(afterReady.effects, OnReplies(afterReady.slot, data).effects);
  }

  lemma TimeoutCallsOnlyPending(s: Slot, timer: nat)
    ensures CallsOnlyPending(s, OnTaskTimeout(s, timer))
  {
    if timer in s.timers {
      var fired := s.(timers := Without(s.timers, timer));
      if fired.executingCallback.Some? && fired.worker.Some? {
        var e := End(fired.(executingCallback := None), Some(TaskTimeout));
        InvokedAppend([Invoke(fired.executingCallback.value, Some(TaskTimeout), fired.worker, fired.ended)], e.effects);
      }
    }
  }

  lemma GraceCallsOnlyPending(s: Slot)
    ensures CallsOnlyPending(s, OnGrace(s))
  {
    if s.grace.Armed? {
      var flushed := CallExecutingCallback(s.(grace := Flushed), s.grace.reason);
      CallInvokesPending(s.(grace := Flushed), s.grace.reason);
      if flushed.slot.worker.Some? {
        InvokedAppend(flushed.effects, [Kill]);
      }
    }
  }

  lemma ExecuteCallsOnlyOwn(s: Slot, taskId: TaskId, cb: CallbackId, dead: bool, connected: bool)
    ensures CallsOnlyOwn(s, cb, ExecuteTask(s, taskId, cb, dead, connected))
  {
    if !Present(s.executingId) {
      var taken := s.(executingId := Some(taskId), executingCallback := Some(cb));
      CallInvokesPending(taken, Refusal(taken, dead, connected));
    }
  }

  /** One step calls at most one callback: `executeTask(_, cb)` only `cb`,
      any other step only the pending callback. */
  lemma StepCallsAtMostOne(s: Slot, e: Event)
    ensures |Invoked(Step(s, e).effects)| <= 1
    ensures e.Execute? ==> CallsOnlyOwn(s, e.callback, Step(s, e))
    ensures !e.Execute? ==> CallsOnlyPending(s, Step(s, e))
  {
    match e
    case Message(data) => MessageCallsOnlyPending(s, data);
    case TaskTimerFires(timer) => TimeoutCallsOnlyPending(s, timer);
    case GraceTimerFires => GraceCallsOnlyPending(s);
    case Execute(taskId, cb, dead, connected) => ExecuteCallsOnlyOwn(s, taskId, cb, dead, connected);
    case _ =>
  }

  /** Each callback is called at most once over any run, provided the
      callbacks handed to `executeTask` are distinct and differ from the one
      pending at the start; and only those callbacks are ever called. */
  lemma {:induction false} EachCallbackCalledAtMostOnce(s: Slot, events: seq<Event>)
    requires NoDuplicates(CallbacksGiven(events))
    requires s.executingCallback.Some? ==> s.executingCallback.value !in CallbacksGiven(events)
    ensures NoDuplicates(Invoked(Run(s, events).effects))
    ensures forall c :: c in Invoked(Run(s, events).effects) ==>
      c in CallbacksGiven(events) || Some(c) == s.executingCallback
    decreases |events|
  {
    if events != [] {
      var e := events[0];
      var first := Step(s, e);
      var rest := Run(first.slot, events[1..]);
      var given := CallbacksGiven(events);
      var later := CallbacksGiven(events[1..]);
      assert given == (if e.Execute? then [e.callback] else []) + later;
      assert NoDuplicates(later) by {
        forall i, j | 0 <= i < j < |later| ensures later[i] != later[j] {
          var d := |given| - |later|;
          assert later[i] == given[i + d] && later[j] == given[j + d];
        }
      }
      assert e.Execute? ==> e.callback !in later by {
        if e.Execute? {
          forall k | 0 <= k < |later| ensures later[k] != e.callback {
            assert later[k] == given[k + 1] && given[0] == e.callback;
          }
        }
      }
      StepCallsAtMostOne(s, e);
      EachCallbackCalledAtMostOnce(first.slot, events[1..]);
      InvokedAppend(first.effects, rest.effects);
      var now := Invoked(first.effects);
      var after := Invoked(rest.effects);
      assert forall c :: c in now ==> c !in after;
      assert NoDuplicates(now) by {
        assert |now| <= 1;
      }
      ConcatNoDuplicates(now, after);
    }
  }

  /** A freshly spawned slot calls each distinct callback it is given at most once. */
  lemma FreshSlotCallsEachCallbackOnce(workerId: nat, draw: nat, events: seq<Event>)
    requires NoDuplicates(CallbacksGiven(events))
    ensures NoDuplicates(Invoked(Run(Spawn(workerId, draw), events).effects))
    ensures forall c :: c in Invoked(Run(Spawn(workerId, draw), events).effects) ==> c in CallbacksGiven(events)
  {
    EachCallbackCalledAtMostOnce(Spawn(workerId, draw), events);
  }

  /** The worker's `err`, as passed on to the job's callback. */
  function WorkerError(err: Option<string>): (f: Option<Failure>)
    ensures f.Some? <==> Present(err)
    ensures f.Some? ==> f == Some(Reported(err.value))
  {
    if Present(err) then Some(Reported(err.value)) else None
  }

  /** A live slot running job `id` that receives its reply settles it: the
      callback is called once with the worker's error and the worker id, the
      job's timer is cleared, the job counts, and the slot ends exactly when
      that was its last job. */
  lemma MatchingReplySettles(s: Slot, id: TaskId, err: Option<string>)
    requires SlotInv(s) && !s.ended && !s.readyListener
    requires id != "" && s.executingId == Some(id) && s.executingCallback.Some?
    requires |s.replyListeners| == 1
    ensures var o := Step(s, Message(Protocol.Reply(id, err)));
      && Invoked(o.effects) == [s.executingCallback.value]
      && o.effects[0] == Invoke(s.executingCallback.value, WorkerError(err), s.worker, false)
      && s.replyListeners[0] !in o.slot.timers
      && Idle(o.slot) && o.slot.replyListeners == []
      && o.slot.tasksDone == s.tasksDone + 1
      && (o.slot.ended <==> o.slot.tasksDone == s.tasksLimit)
      && o.effects[1..] == (if o.slot.ended then [EmitEnd(Some(LimitReached))] else [])
  {
    var data := Protocol.Reply(id, err);
    var t := s.(replyListeners := []);
    assert s.replyListeners[1..] == [];
    var timer := s.replyListeners[0];
    assert WorkerError(err) == (if Present(data.err) then Some(Reported(data.err.value)) else None);
    var first := OnReply(t, timer, data);
    assert first == CallExecutingCallback(t.(timers := Without(t.timers, timer)), WorkerError(err));
    assert OnReplies(s, data) == first;
    CallInvokesPending(t.(timers := Without(t.timers, timer)), WorkerError(err));
    InvokedAppend([], first.effects);
  }

  /** A reply for another job fails the running job with `OtherTask` but,
      unlike a matching reply, leaves its task timer armed. */
  lemma ForeignReplyFails(s: Slot, id: TaskId, other: TaskId, err: Option<string>)
    requires SlotInv(s) && !s.ended && !s.readyListener
    requires other != "" && other != id && s.executingId == Some(id) && s.executingCallback.Some?
    requires |s.replyListeners| == 1
    ensures var o := Step(s, Message(Protocol.Reply(other, err)));
      && o.effects[0] == Invoke(s.executingCallback.value, Some(OtherTask(other, Some(id))), s.worker, false)
      && o.slot.timers == s.timers && Idle(o.slot) && o.slot.tasksDone == s.tasksDone + 1
  {
    var data := Protocol.Reply(other, err);
    var t := s.(replyListeners := []);
    assert s.replyListeners[1..] == [];
    var first := OnReply(t, s.replyListeners[0], data);
    assert first == CallExecutingCallback(t, Some(OtherTask(other, Some(id))));
    assert OnReplies(s, data) == first;
  }

  /** A task timer that fires while a callback is pending calls it with the
      timeout error, does not count the job, and ends the slot. */
  lemma TimeoutIsNotCounted(s: Slot, timer: nat)
    requires SlotInv(s) && !s.ended
    requires timer in s.timers && s.executingCallback.Some?
    ensures var o := Step(s, TaskTimerFires(timer));
      && o.effects == [Invoke(s.executingCallback.value, Some(TaskTimeout), s.worker, false), EmitEnd(Some(TaskTimeout))]
      && o.slot.ended && o.slot.tasksDone == s.tasksDone && o.slot.executingCallback.None?
      && timer !in o.slot.timers
  {
  }

  /** `end` acts once: ending an ended slot emits nothing and changes nothing,
      whatever the reason; so do a later exit, error, signal or disconnect timer. */
  lemma EndIsIdempotent(s: Slot, first: Option<Failure>, second: Option<Failure>, code: int)
    ensures var ended := End(s, first).slot;
      && End(ended, second) == Out(ended, [])
      && Step(ended, Signal) == Out(ended, [])
      && Step(ended, Exit(code)) == Out(ended.(ready := false), [])
      && Invoked(Step(ended, DisconnectTimerFires).effects) == []
      && Step(ended, DisconnectTimerFires).slot.grace == ended.grace
  {
  }

  /** The grace timer of an ended slot calls the still-pending callback with
      the end reason, kills the process and drops the handle; the job counts
      but no second `end` is emitted. Firing again does nothing. */
  lemma GraceFlushesPending(s: Slot)
    requires SlotInv(s) && s.grace.Armed? && s.executingCallback.Some?
    ensures var o := Step(s, GraceTimerFires);
      && o.effects == [Invoke(s.executingCallback.value, s.grace.reason, s.worker, true), Kill]
      && o.slot.worker.None? && o.slot.grace == Flushed && Idle(o.slot)
      && o.slot.tasksDone == s.tasksDone + 1
      && Step(o.slot, GraceTimerFires) == Out(o.slot, [])
  {
  }

  /** Effects the pool's lists ignore: a call made after the slot ended, the
      kill, and a crash. */
  predicate Quiet(e: Effect) {
    e.Kill? || e.Crash? || (e.Invoke? && e.slotEnded)
  }

  predicate AllQuiet(effects: seq<Effect>) {
    forall i :: 0 <= i < |effects| ==> Quiet(effects[i])
  }

  lemma {:induction false} EndedRepliesAreQuiet(s: Slot, data: Protocol.ToParent)
    requires s.ended
    ensures OnReplies(s, data).slot.ended && AllQuiet(OnReplies(s, data).effects)
    decreases |s.replyListeners|
  {
    if s.replyListeners != [] {
      var first := OnReply(s.(replyListeners := s.replyListeners[1..]), s.replyListeners[0], data);
      if Crash !in first.effects {
        EndedRepliesAreQuiet(first.slot, data);
      }
    }
  }

  /** Once ended, a slot stays ended and its steps (other than
      `executeTask`) only call callbacks flagged as ended, kill the process,
      or crash: no `ready` or `end` event again. */
  lemma EndedStepIsQuiet(s: Slot, e: Event)
    requires s.ended && !e.Execute?
    ensures Step(s, e).slot.ended && AllQuiet(Step(s, e).effects)
  {
    if e.Message? {
      var afterReady := if s.readyListener then OnReady(s.(readyListener := false), e.data) else Out(s, []);
      assert afterReady.effects == [] && afterReady.slot.ended;
      EndedRepliesAreQuiet(afterReady.slot, e.data);
      assert Step(s, e).effects == OnReplies(afterReady.slot, e.data).effects;
    }
  }

  /** Reply listeners with no pending callback do nothing visible: they only
      forget the job id and clear their timers. */
  lemma {:induction false} SilentReplies(s: Slot, data: Protocol.ToParent)
    requires s.executingCallback.None?
    ensures var o := OnReplies(s, data);
      && o.effects == [] && o.slot.executingCallback.None?
      && (!Present(s.executingId) ==> !Present(o.slot.executingId))
      && o.slot.ended == s.ended && o.slot.readyListener == s.readyListener && o.slot.ready == s.ready
      && o.slot.worker == s.worker && o.slot.grace == s.grace
      && o.slot.tasksDone == s.tasksDone && o.slot.tasksLimit == s.tasksLimit
    decreases |s.replyListeners|
  {
    if s.replyListeners != [] {
      var first := OnReply(s.(replyListeners := s.replyListeners[1..]), s.replyListeners[0], data);
      SilentReplies(first.slot, data);
    }
  }

  /** The shapes of one step of a live slot, as the pool sees them. */
  predicate LiveShape(s: Slot, o: Out) {
    || (o.effects == [] && !o.slot.ended && (Idle(s) ==> Idle(o.slot)))
    || (o.effects == [EmitReady] && s.readyListener && !o.slot.ended && !o.slot.readyListener && Idle(o.slot))
    || (|o.effects| == 1 && o.effects[0].Send? && !o.slot.ended)
    || (|o.effects| == 1 && o.effects[0].EmitEnd? && o.slot.ended)
    || (|o.effects| == 1 && o.effects[0].Invoke? && !o.effects[0].slotEnded && !o.slot.ended && Idle(o.slot))
    || (|o.effects| == 2 && o.effects[0].Invoke? && !o.effects[0].slotEnded && o.effects[1].EmitEnd? && o.slot.ended)
  }

  lemma LiveRepliesShape(s: Slot, data: Protocol.ToParent)
    requires SlotInv(s) && !s.ended
    ensures LiveShape(s, OnReplies(s, data))
    ensures OnReplies(s, data).slot.readyListener == s.readyListener
    ensures |OnReplies(s, data).effects| >= 1 ==> OnReplies(s, data).effects[0].Invoke?
  {
    if s.executingCallback.None? {
      SilentReplies(s, data);
    } else if s.replyListeners != [] {
      var t := s.(replyListeners := s.replyListeners[1..]);
      var first := OnReply(t, s.replyListeners[0], data);
      assert Crash !in first.effects;
      SilentReplies(first.slot, data);
      assert OnReplies(s, data).effects == first.effects + [];
    }
  }

  /** A live slot's step is one of: nothing visible (an idle slot stays
      idle); `ready`; a message to the process; `end`; a call of the pending
      callback after which the slot is idle; or such a call followed by `end`.
      `executeTask` is considered on an idle slot past its start-up, as the
      pool calls it. The start-up listener is never registered again. */
  lemma LiveStepShape(s: Slot, e: Event)
    requires SlotInv(s) && !s.ended
    requires e.Execute? ==> Idle(s) && !s.readyListener
    ensures LiveShape(s, Step(s, e))
    ensures Step(s, e).slot.readyListener ==> s.readyListener
    ensures !e.Execute? && |Step(s, e).effects| >= 1 ==> !Step(s, e).effects[0].Send?
  {
    match e
    case Message(data) =>
      if s.readyListener {
        var r := OnReady(s.(readyListener := false), data);
        SilentReplies(r.slot, data);
      } else {
        LiveRepliesShape(s, data);
      }
    case _ =>
  }
}

=== FILE: common.dfy ===
/** Small building blocks shared by every part of the scheduler model:
    optional values, JavaScript truthiness of optional strings, removal of
    every occurrence of a value from a list, and lodash's integer `_.random`
    with the random draw made explicit. */
module Common {

  /** A value that may be missing (`null` / `undefined` in the source). */
  datatype Option<+T> = None | Some(value: T)

  /** JavaScript truthiness of an optional string field: present and non-empty. */
  predicate Present(o: Option<string>) {
    o.Some? && o.value != ""
  }

  /** The text a template literal produces for an optional string:
      a missing value prints as "undefined". */
  function KeyPart(o: Option<string>): string {
    match o
    case Some(s) => s
    case None => "undefined"
  }

  /** Every occurrence of `x` removed, the order of the rest kept.
      This is Redis `LREM key 0 x` and lodash `_.without(xs, x)`. */
  function Without<T(==,!new)>(xs: seq<T>, x: T): (r: seq<T>)
    ensures forall y :: y in r <==> y in xs && y != x
    ensures |r| <= |xs|
    ensures x !in xs ==> r == xs
    decreases |xs|
  {
    if |xs| == 0 then []
    else if xs[0] == x then Without(xs[1..], x)
    else [xs[0]] + Without(xs[1..], x)
  }

  /** Removal keeps every other value as often as it occurred and drops
      every occurrence of the removed one. */
  lemma {:induction false} WithoutCounts<T(!new)>(xs: seq<T>, x: T)
    ensures multiset(Without(xs, x)) == multiset(xs)[x := 0]
    decreases |xs|
  {
    if |xs| > 0 {
      WithoutCounts(xs[1..], x);
      assert xs == [xs[0]] + xs[1..];
      assert multiset(xs) == multiset{xs[0]} + multiset(xs[1..]);
    }
  }

  /** Removal works element by element, so it distributes over
      concatenation and the kept values stay in their order. */
  lemma {:induction false} WithoutConcat<T(!new)>(xs: seq<T>, ys: seq<T>, x: T)
    ensures Without(xs + ys, x) == Without(xs, x) + Without(ys, x)
    decreases |xs|
  {
    if |xs| > 0 {
      assert (xs + ys)[0] == xs[0];
      assert (xs + ys)[1..] == xs[1..] + ys;
      WithoutConcat(xs[1..], ys, x);
    } else {
      assert xs + ys == ys;
    }
  }

  /** No value occurs twice. */
  predicate NoDuplicates<T(==)>(xs: seq<T>) {
    forall i, j :: 0 <= i < j < |xs| ==> xs[i] != xs[j]
  }

  /** Removing a value keeps a duplicate-free list duplicate-free. */
  lemma {:induction false} WithoutKeepsNoDuplicates<T(!new)>(xs: seq<T>, x: T)
    requires NoDuplicates(xs)
    ensures NoDuplicates(Without(xs, x))
    decreases |xs|
  {
    if |xs| > 0 {
      assert NoDuplicates(xs[1..]) by {
        forall i, j | 0 <= i < j < |xs[1..]| ensures xs[1..][i] != xs[1..][j] {
          assert xs[1..][i] == xs[i + 1] && xs[1..][j] == xs[j + 1];
        }
      }
      WithoutKeepsNoDuplicates(xs[1..], x);
      if xs[0] != x {
        var rest := Without(xs[1..], x);
        assert xs[0] !in xs[1..] by {
          forall k | 0 <= k < |xs[1..]| ensures xs[1..][k] != xs[0] {
            assert xs[1..][k] == xs[k + 1];
          }
        }
        assert xs[0] !in rest;
        var r := [xs[0]] + rest;
        forall i, j | 0 <= i < j < |r| ensures r[i] != r[j] {
          if i == 0 {
            assert r[j] == rest[j - 1];
            assert r[j] in rest;
          } else {
            assert r[i] == rest[i - 1] && r[j] == rest[j - 1];
          }
        }
      }
    }
  }

  /** Appending a value that is not yet present keeps a list duplicate-free. */
  lemma AppendFreshKeepsNoDuplicates<T>(xs: seq<T>, x: T)
    requires NoDuplicates(xs) && x !in xs
    ensures NoDuplicates(xs + [x])
  {
    var r := xs + [x];
    forall i, j | 0 <= i < j < |r| ensures r[i] != r[j] {
      if j == |xs| {
        assert r[i] == xs[i];
      } else {
        assert r[i] == xs[i] && r[j] == xs[j];
      }
    }
  }

  /** Removing a value from a list it was just appended to is removing it
      from the list. */
  lemma {:induction false} WithoutAppended<T(!new)>(xs: seq<T>, x: T)
    ensures Without(xs + [x], x) == Without(xs, x)
    decreases |xs|
  {
    if |xs| == 0 {
      assert xs + [x] == [x];
      assert [x][1..] == [];
    } else {
      assert (xs + [x])[1..] == xs[1..] + [x];
      WithoutAppended(xs[1..], x);
    }
  }

  /** In a duplicate-free list, removing a present value shortens it by one. */
  lemma {:induction false} WithoutPresentLength<T(!new)>(xs: seq<T>, x: T)
    requires NoDuplicates(xs) && x in xs
    ensures |Without(xs, x)| == |xs| - 1
    decreases |xs|
  {
    if xs[0] == x {
      assert x !in xs[1..] by {
        forall k | 0 <= k < |xs[1..]| ensures xs[1..][k] != x {
          assert xs[1..][k] == xs[k + 1];
        }
      }
    } else {
      assert x in xs[1..];
      assert NoDuplicates(xs[1..]) by {
        forall i, j | 0 <= i < j < |xs[1..]| ensures xs[1..][i] != xs[1..][j] {
          assert xs[1..][i] == xs[i + 1] && xs[1..][j] == xs[j + 1];
        }
      }
      WithoutPresentLength(xs[1..], x);
    }
  }

  /** Two duplicate-free lists with no value in common concatenate to a
      duplicate-free list. */
  lemma ConcatNoDuplicates<T>(a: seq<T>, b: seq<T>)
    requires NoDuplicates(a) && NoDuplicates(b)
    requires forall x :: x in a ==> x !in b
    ensures NoDuplicates(a + b)
  {
    var r := a + b;
    forall i, j | 0 <= i < j < |r| ensures r[i] != r[j] {
      if j < |a| {
        assert r[i] == a[i] && r[j] == a[j];
      } else if i < |a| {
        assert r[i] == a[i] && r[j] == b[j - |a|];
        assert r[j] in b;
      } else {
        assert r[i] == b[i - |a|] && r[j] == b[j - |a|];
      }
    }
  }

  /** lodash `_.random(lower, upper)` on integers: a value between the two bounds,
      both included; the bounds are swapped when given in the wrong order.
      The random source is the explicit `draw`. */
  function RandomInt(lower: int, upper: int, draw: nat): (r: int)
    ensures lower <= upper ==> lower <= r <= upper
    ensures upper < lower ==> upper <= r <= lower
  {
    var lo := if lower <= upper then lower else upper;
    var hi := if lower <= upper then upper else lower;
    lo + draw % (hi - lo + 1)
  }

  /** Every value of the range can be drawn: `RandomInt` covers its range exactly. */
  lemma RandomIntCovers(lower: int, upper: int, v: int)
    requires lower <= v <= upper
    ensures exists draw: nat :: RandomInt(lower, upper, draw) == v
  {
    var draw: nat := v - lower;
    assert draw % (upper - lower + 1) == draw;
    assert RandomInt(lower, upper, draw) == v;
  }
}

=== FILE: dispatch.dfy ===
/** The dispatch loop of the orchestration scheduler (`popAndExecuteNextTask`
    in orchestration/index.js): pop an id from the ready queue, take the
    per-task execution lock, move the record `waiting -> executing`, run it on
    the worker pool, release the locks and record `done` or `error`. */
module Dispatch {
  import opened Common
  import opened Tasks
  import Locks
  import Admission

  const EXECUTING_TIME_TIMEOUT: nat := 30000

  function TaskLockKey(id: TaskId): string { "tasks:lockTask:" + id }

  /** The environment of one dispatch step: the execution-lock attempt, a
      failing record fetch (its callback ignores the error and reads no
      record) and failing `setEach` calls (the claim to `executing`, the
      final write). */
  datatype DispatchIo = DispatchIo(lock: Locks.LockIo, fetchFails: bool, claimFails: bool, finishFails: bool)

  /** `childWorkerManager.executeTask` or, for `task.separate`,
      `executeTaskInSeparateProcess`. */
  datatype Path = Pooled | SeparateProcess

  datatype Outcome =
    | Idle                  // BLPOP is still blocked: the queue is empty
    | BadId                 // the popped id is empty: "Wrong format of res from blpop"
    | LockNotTaken          // another loop holds the execution lock
    | LockError             // a Redis error while locking
    | NoTask                // no record with the popped id
    | NotWaiting            // the record is not `waiting`: already handled
    | ClaimFailed           // the update to `executing` failed
    | HandedOff(path: Path) // claimed and handed to the pool; no answer yet
    | Finished(path: Path, workerError: Option<string>)

  datatype Dispatched = Dispatched(world: Admission.World, outcome: Outcome)

  /** A singleton record's lock is released as soon as it finishes. */
  predicate ReleasesSingleton(t: Task) {
    Admission.IsSingleton(t) && Present(t.uniqId)
  }

  /** The callback of the pool execution: release the execution lock, the
      singleton lock of a singleton record, and record the result under the
      popped id. `t` is the record as fetched before the claim. */
  function Complete(w: Admission.World, id: TaskId, t: Task, path: Path, workerError: Option<string>,
                    doneAt: int, finishFails: bool): (r: Dispatched)
    ensures r.outcome == Finished(path, workerError)
    ensures r.world.queue == w.queue
    ensures TaskLockKey(id) !in r.world.locks
    ensures ReleasesSingleton(t) ==> Admission.SingletonKey(t) !in r.world.locks
    ensures forall k :: k != TaskLockKey(id) && (k != Admission.SingletonKey(t) || !ReleasesSingleton(t)) ==>
      (k in r.world.locks <==> k in w.locks) && (k in w.locks ==> r.world.locks[k] == w.locks[k])
    ensures finishFails ==> r.world.tasks == w.tasks
    ensures !finishFails && Present(workerError) ==>
      r.world.tasks == SetEach(w.tasks, id, ToError(workerError.value, doneAt))
    ensures !finishFails && !Present(workerError) ==> r.world.tasks == SetEach(w.tasks, id, ToDone(doneAt))
  {
    var taskFree := Locks.Release(w.locks, TaskLockKey(id));
    var locks := if ReleasesSingleton(t) then Locks.Release(taskFree, Admission.SingletonKey(t)) else taskFree;
    var released := w.(locks := locks);
    if finishFails then Dispatched(released, Finished(path, workerError))
    else
      var patch := if Present(workerError) then ToError(workerError.value, doneAt) else ToDone(doneAt);
      Dispatched(released.(tasks := SetEach(w.tasks, id, patch)), Finished(path, workerError))
  }

  /** A job claimed by a dispatch loop and handed to the worker pool: the
      popped id, the record as fetched before the claim, and the way it runs. */
  datatype Running = Running(id: TaskId, task: Task, path: Path)

  /** The first half of a dispatch pass, and the job left running if any. */
  datatype Claimed = Claimed(world: Admission.World, outcome: Outcome, running: Option<Running>)

  /** The part of `popAndExecuteNextTask` up to the hand-off to the pool, at
      time `now`: pop an id, take its execution lock, fetch the record, and
      claim it `executing` if it is `waiting`. The pool's answer arrives
      later, in a separate step (`Complete`). */
  function ClaimNext(w: Admission.World, now: int, io: DispatchIo): (r: Claimed)
    ensures |w.queue| == 0 <==> r.outcome == Idle
    ensures r.outcome == Idle ==> r.world == w && r.running.None?
    ensures |w.queue| > 0 ==> r.world.queue == w.queue[1..]
    ensures |w.queue| > 0 && w.queue[0] == "" ==> r.outcome == BadId && r.world == w.(queue := w.queue[1..])
    ensures r.world.tasks.Keys == w.tasks.Keys
    ensures r.running.Some? <==>
      && |w.queue| > 0 && w.queue[0] != "" && !io.fetchFails
      && w.queue[0] in w.tasks && w.tasks[w.queue[0]].status == Waiting && !io.claimFails
      && Locks.PassLock(w.locks, TaskLockKey(w.queue[0]), EXECUTING_TIME_TIMEOUT, now, io.lock).outcome.Acquired?
    ensures r.running.Some? ==>
      && r.running.value.id == w.queue[0] && r.running.value.task == w.tasks[w.queue[0]]
      && r.world.tasks == SetEach(w.tasks, w.queue[0], ToExecuting(now))
      && r.world.locks == Locks.PassLock(w.locks, TaskLockKey(w.queue[0]), EXECUTING_TIME_TIMEOUT, now, io.lock).keys
    ensures r.running.None? ==> r.world.tasks == w.tasks
  {
    if |w.queue| == 0 then Claimed(w, Idle, None)
    else
      var id := w.queue[0];
      var popped := w.(queue := w.queue[1..]);
      if id == "" then Claimed(popped, BadId, None)
      else
        var a := Locks.PassLock(popped.locks, TaskLockKey(id), EXECUTING_TIME_TIMEOUT, now, io.lock);
        var locked := popped.(locks := a.keys);
        if !a.outcome.Acquired? then Claimed(locked, if a.outcome.Failed? then LockError else LockNotTaken, None)
        else if io.fetchFails || id !in locked.tasks then Claimed(locked, NoTask, None)
        else
          var t := locked.tasks[id];
          if t.status != Waiting then Claimed(locked, NotWaiting, None)
          else if io.claimFails then Claimed(locked, ClaimFailed, None)
          else
            var claimed := locked.(tasks := SetEach(locked.tasks, id, ToExecuting(now)));
            var path := if t.separate then SeparateProcess else Pooled;
            Claimed(claimed, HandedOff(path), Some(Running(id, t, path)))
  }

  /** The pool's answer arrives in whatever world the other loops have left
      by then, and the final `setEach` writes `done` or `error` without
      looking at the record: a record that admission has meanwhile moved back
      to `waiting` or to `refused` (its execution timed out) is overwritten,
      along an edge the status graph does not permit. */
  lemma CompleteOverwritesAnyStatus(w: Admission.World, job: Running, workerError: Option<string>, doneAt: int)
    requires job.id in w.tasks
    ensures var r := Complete(w, job.id, job.task, job.path, workerError, doneAt, false);
      var before := w.tasks[job.id].status;
      var after := r.world.tasks[job.id].status;
      && after == (if Present(workerError) then Error else Done)
      && (before != Executing && before != after ==> !Permitted(before, after))
  {
  }

  /** One pass of `popAndExecuteNextTask` run without interruption: the
      claim at `now` and the pool's answer `workerError` at `doneAt`, with no
      other loop's step in between. */
  function DispatchStep(w: Admission.World, now: int, doneAt: int, io: DispatchIo,
                        workerError: Option<string>): (r: Dispatched)
    ensures |w.queue| == 0 <==> r.outcome == Idle
    ensures r.outcome == Idle ==> r.world == w
    ensures |w.queue| > 0 ==> r.world.queue == w.queue[1..]
    ensures r.world.tasks.Keys == w.tasks.Keys
    ensures forall k :: k in w.tasks && (|w.queue| == 0 || k != w.queue[0]) ==> r.world.tasks[k] == w.tasks[k]
  {
    var c := ClaimNext(w, now, io);
    match c.running
    case None => Dispatched(c.world, c.outcome)
    case Some(job) => Complete(c.world, job.id, job.task, job.path, workerError, doneAt, io.finishFails)
  }

  /** A popped id whose record is missing or not `waiting` changes no record,
      and its execution lock is kept until its TTL. */
  lemma UnhandledTaskIsNoOp(w: Admission.World, now: int, doneAt: int, io: DispatchIo, workerError: Option<string>)
    requires |w.queue| > 0
    requires w.queue[0] !in w.tasks || w.tasks[w.queue[0]].status != Waiting
    ensures var r := DispatchStep(w, now, doneAt, io, workerError);
      && r.world.tasks == w.tasks
      && (r.outcome == NoTask || r.outcome == NotWaiting ==> TaskLockKey(w.queue[0]) in r.world.locks)
  {
  }

  /** A record whose fetch fails is dropped: the popped id is gone from the
      queue, the record, `waiting` or not, is left as it is, and the
      execution lock is kept until its TTL, so no other loop runs it before
      admission re-queues it. An empty popped id is dropped before any lock
      is taken. */
  lemma FailedFetchDropsTask(w: Admission.World, now: int, doneAt: int, io: DispatchIo, workerError: Option<string>)
    requires |w.queue| > 0
    ensures var r := DispatchStep(w, now, doneAt, io, workerError);
      var id := w.queue[0];
      var a := Locks.PassLock(w.locks, TaskLockKey(id), EXECUTING_TIME_TIMEOUT, now, io.lock);
      && (id == "" ==> r == Dispatched(w.(queue := w.queue[1..]), BadId))
      && (id != "" && io.fetchFails && a.outcome.Acquired? ==>
            && r.outcome == NoTask && r.world.queue == w.queue[1..] && r.world.tasks == w.tasks
            && TaskLockKey(id) in r.world.locks)
  {
  }

  /** A waiting record that runs ends `error` with the worker's error or
      `done`, having been stamped `executing` at `now`; the execution lock is
      always released afterwards, the singleton lock exactly for singleton
      records with a `uniqId`, and any other singleton key is left as it was. */
  lemma WaitingTaskRuns(w: Admission.World, now: int, doneAt: int, io: DispatchIo, workerError: Option<string>)
    requires |w.queue| > 0 && w.queue[0] in w.tasks && w.tasks[w.queue[0]].status == Waiting
    requires w.queue[0] != "" && !io.fetchFails && !io.claimFails && !io.finishFails
    requires Locks.PassLock(w.locks, TaskLockKey(w.queue[0]), EXECUTING_TIME_TIMEOUT, now, io.lock).outcome.Acquired?
    ensures var id := w.queue[0];
      var t := w.tasks[id];
      var r := DispatchStep(w, now, doneAt, io, workerError);
      && r.outcome.Finished?
      && r.world.tasks[id].executingTime == Some(now)
      && (Present(workerError) ==>
            r.world.tasks[id].status == Error && r.world.tasks[id].error == workerError
            && r.world.tasks[id].errorTime == Some(doneAt))
      && (!Present(workerError) ==> r.world.tasks[id].status == Done && r.world.tasks[id].doneTime == Some(doneAt))
      && TaskLockKey(id) !in r.world.locks
      && (ReleasesSingleton(t) ==> Admission.SingletonKey(t) !in r.world.locks)
      && (!ReleasesSingleton(t) && Admission.SingletonKey(t) != TaskLockKey(id) ==>
            (Admission.SingletonKey(t) in r.world.locks <==> Admission.SingletonKey(t) in w.locks))
  {
    var id := w.queue[0];
    var t := w.tasks[id];
    var a := Locks.PassLock(w.locks, TaskLockKey(id), EXECUTING_TIME_TIMEOUT, now, io.lock);
    var claimed := w.(queue := w.queue[1..], locks := a.keys, tasks := SetEach(w.tasks, id, ToExecuting(now)));
    var path := if t.separate then SeparateProcess else Pooled;
    assert DispatchStep(w, now, doneAt, io, workerError) == Complete(claimed, id, t, path, workerError, doneAt, false);
    assert claimed.tasks[id] == Apply(t, ToExecuting(now));
  }

  /** Dispatch moves a record only along permitted edges,
      `waiting -> executing -> done | error`: a record it changes was `waiting`
      and ends `executing` (when the final write fails), `done` or `error`. */
  lemma DispatchPermitted(w: Admission.World, now: int, doneAt: int, io: DispatchIo, workerError: Option<string>, k: TaskId)
    requires k in w.tasks
    ensures var r := DispatchStep(w, now, doneAt, io, workerError);
      r.world.tasks[k].status != w.tasks[k].status ==>
        && w.tasks[k].status == Waiting && r.world.tasks[k].status in {Executing, Done, Error}
        && Permitted(Waiting, Executing) && Permitted(Executing, r.world.tasks[k].status)
  {
    var r := DispatchStep(w, now, doneAt, io, workerError);
    if |w.queue| > 0 && k == w.queue[0] && w.tasks[k].status == Waiting && r.outcome.Finished? {
      var a := Locks.PassLock(w.locks, TaskLockKey(k), EXECUTING_TIME_TIMEOUT, now, io.lock);
      var claimed := w.(queue := w.queue[1..], locks := a.keys, tasks := SetEach(w.tasks, k, ToExecuting(now)));
      var path := if w.tasks[k].separate then SeparateProcess else Pooled;
      assert r == Complete(claimed, k, w.tasks[k], path, workerError, doneAt, io.finishFails);
    }
  }
}

=== FILE: dispatcher.dfy ===
/** The newer dispatcher (`TaskDispatcher` in lib/TaskDispatcher/index.js):
    its start/stop switch, the status writer `executeTask` that `RedisQueue`
    calls as `runTask`, and the random sleep between loop passes. The worker
    manager's answer and the clock are inputs. */
module TaskDispatcher {
  import opened Common
  import opened Tasks
  import RedisQueue

  /** `started`, and whether a worker manager is held. */
  datatype Dispatcher = Dispatcher(started: bool, managerHeld: bool)

  const Initial := Dispatcher(false, false)

  /** The manager is held exactly while the dispatcher is started. */
  predicate Coherent(d: Dispatcher) { d.started == d.managerHeld }

  /** `start()`: a no-op when started; otherwise create and start a manager
      and set `started`. */
  function Start(d: Dispatcher): (r: Dispatcher)
    ensures r.started
    ensures d.started ==> r == d
    ensures Coherent(d) ==> Coherent(r)
  {
    if d.started then d else Dispatcher(true, true)
  }

  /** `stop()`: a no-op when not started; otherwise stop and drop the manager
      and clear `started`. */
  function Stop(d: Dispatcher): (r: Dispatcher)
    ensures !r.started
    ensures !d.started ==> r == d
    ensures Coherent(d) ==> Coherent(r)
  {
    if !d.started then d else Dispatcher(false, false)
  }

  /** Starting twice is starting once, stopping twice is stopping once, and
      on a coherent dispatcher a stop undoes a start from the stopped state. */
  lemma StartStopSwitch(d: Dispatcher)
    requires Coherent(d)
    ensures Start(Start(d)) == Start(d) && Stop(Stop(d)) == Stop(d)
    ensures !d.started ==> Stop(Start(d)) == d
    ensures d.started ==> Start(Stop(d)) == d
    ensures Start(d).started != d.started || d.started
  {
  }

  /** The fields each `setEach` of `executeTask` writes. */
  datatype Write =
    | WriteExecuting(at: int)
    | WriteDone(at: int)
    | WriteError(err: string, at: int)
    | WriteRefused(statusError: Option<string>, at: int)

  function ApplyWrite(t: Task, w: Write): (r: Task)
    ensures r.id == t.id && r.uniqId == t.uniqId && r.options == t.options && r.actionType == t.actionType
  {
    match w
    case WriteExecuting(at) => t.(status := Executing, executingTime := Some(at))
    case WriteDone(at) => t.(status := Done, doneTime := Some(at))
    case WriteError(err, at) => t.(status := Error, error := Some(err), errorTime := Some(at))
    case WriteRefused(err, at) => t.(status := Refused, error := err, refusedTime := Some(at))
  }

  /** The writes applied in order to the record `id`. */
  function ApplyAll(s: Store, id: TaskId, writes: seq<Write>): (r: Store)
    ensures r.Keys == s.Keys
    ensures forall k :: k in s && k != id ==> r[k] == s[k]
    decreases |writes|
  {
    if writes == [] || id !in s then s
    else ApplyAll(s[id := ApplyWrite(s[id], writes[0])], id, writes[1..])
  }

  datatype Written = Written(store: Store, writes: seq<Write>)

  /** `executeTask(taskId, status, statusError)`, with the record claimed at
      `startAt` and finished at `doneAt`; `managerError` is the rejection of
      `workerManager.executeTask` (`None` when it resolves). */
  function ExecuteTask(s: Store, id: TaskId, status: string, statusError: Option<string>,
                       startAt: int, doneAt: int, managerError: Option<string>): (r: Written)
    ensures id !in s ==> r == Written(s, [])
    ensures id in s && status == "executing" ==>
      r.writes == [WriteExecuting(startAt),
                   if managerError.Some? then WriteError(managerError.value, doneAt) else WriteDone(doneAt)]
    ensures id in s && status == "refused" ==> r.writes == [WriteRefused(statusError, startAt)]
    ensures status != "executing" && status != "refused" ==> r.writes == []
    ensures r.store == ApplyAll(s, id, r.writes)
  {
    if id !in s then Written(s, [])
    else
      var writes :=
        if status == "executing" then
          [WriteExecuting(startAt), if managerError.Some? then WriteError(managerError.value, doneAt) else WriteDone(doneAt)]
        else if status == "refused" then [WriteRefused(statusError, startAt)]
        else [];
      Written(ApplyAll(s, id, writes), writes)
  }

  /** The record after `executeTask`: an executed record ends `done` or
      `error` with its `executingTime` stamped, a refused one ends `refused`
      with the given error, an unknown status changes nothing, and no other
      record changes. */
  lemma ExecuteTaskOutcome(s: Store, id: TaskId, status: string, statusError: Option<string>,
                           startAt: int, doneAt: int, managerError: Option<string>)
    ensures var r := ExecuteTask(s, id, status, statusError, startAt, doneAt, managerError).store;
      && r.Keys == s.Keys
      && (forall k :: k in s && k != id ==> r[k] == s[k])
      && (id in s && status == "executing" ==>
            && r[id].executingTime == Some(startAt)
            && (managerError.None? ==> r[id].status == Done && r[id].doneTime == Some(doneAt))
            && (managerError.Some? ==>
                  r[id].status == Error && r[id].error == managerError && r[id].errorTime == Some(doneAt)))
      && (id in s && status == "refused" ==>
            r[id] == s[id].(status := Refused, error := statusError, refusedTime := Some(startAt)))
      && (status != "executing" && status != "refused" ==> r == s)
  {
    var r := ExecuteTask(s, id, status, statusError, startAt, doneAt, managerError);
    if id in s && status == "executing" {
      var claimed := s[id := ApplyWrite(s[id], r.writes[0])];
      var finished := claimed[id := ApplyWrite(claimed[id], r.writes[1])];
      assert r.writes[1..][1..] == [];
      assert ApplyAll(finished, id, []) == finished;
      assert ApplyAll(claimed, id, r.writes[1..]) == finished;
      assert r.store == ApplyAll(claimed, id, r.writes[1..]);
    }
    if id in s && status == "refused" {
      var refused := s[id := ApplyWrite(s[id], r.writes[0])];
      assert r.writes[1..] == [];
      assert ApplyAll(refused, id, []) == refused;
      assert r.store == refused;
    }
  }

  /** The writer does not check the record's current status: a record that
      is already `done` is claimed `executing` again and run a second time. */
  lemma ExecutingIgnoresCurrentStatus(s: Store, id: TaskId, startAt: int, doneAt: int)
    requires id in s && s[id].status == Done
    ensures var w := ExecuteTask(s, id, "executing", None, startAt, doneAt, None);
      w.writes[0] == WriteExecuting(startAt) && !Permitted(Done, Executing)
  {
  }

  /** A job passed through `RedisQueue.handleTask` and then this writer
      ends `refused` with error "Throttle", runs to `done` or `error`, or is
      left as it was. */
  lemma QueueThenWrite(s: Store, t: RedisQueue.QueueTask, cfg: RedisQueue.Config, g: RedisQueue.Grants,
                       startAt: int, doneAt: int, managerError: Option<string>)
    requires t.id in s
    ensures var h := RedisQueue.HandleTask(t, cfg, g);
      var r := if h.run.Some? then ExecuteTask(s, t.id, h.run.value.status, h.run.value.statusError,
                                                startAt, doneAt, managerError).store
               else s;
      || r == s
      || (r[t.id].status == Refused && r[t.id].error == Some("Throttle"))
      || r[t.id].status in {Done, Error}
  {
    var h := RedisQueue.HandleTask(t, cfg, g);
    if h.run.Some? {
      ExecuteTaskOutcome(s, t.id, h.run.value.status, h.run.value.statusError, startAt, doneAt, managerError);
    }
  }

  /** The pause of the redis loop, in ms. */
  const REDIS_LOOP_TIMEOUT := 100

  /** `_.random(timeout - 50, timeout + 50)`: the pause after each loop pass. */
  function SleepTime(timeout: int, draw: nat): (ms: int)
    ensures timeout - 50 <= ms <= timeout + 50
  {
    RandomInt(timeout - 50, timeout + 50, draw)
  }

  /** Every pause in the window can occur. */
  lemma SleepTimeCovers(timeout: int, ms: int)
    requires timeout - 50 <= ms <= timeout + 50
    ensures exists draw: nat :: SleepTime(timeout, draw) == ms
  {
    var draw: nat := ms - (timeout - 50);
    assert draw % 101 == draw;
    assert SleepTime(timeout, draw) == ms;
  }
}

=== FILE: executor.dfy ===
/** The worker process of the newer dispatcher (lib/Worker/executor.js):
    every `{ taskId }` message runs `executeTaskWrapper`, which validates the
    record, runs the registered action once through a callback/promise
    bridge, and is answered with `{ taskId }` or `{ taskId, err: err.message }`.
    What an action does when run (the callback calls it makes, the promise
    it returns) is an input. */
module Executor {
  import opened Common
  import opened Tasks
  import opened Validation
  import Protocol

  /** A value passed as an error: falsy, an `Error` object (whose `message`
      may be missing), or any other truthy value such as a string. */
  datatype ErrValue = Falsy | ErrorObject(message: Option<string>) | Primitive(text: string)

  /** What the action's call returns, or the value it throws. `isPromise`
      (lib/utils.js) asks for an object with a callable `then`: `NotPromise`
      is any other value except `null`, `Resolves` and `Rejects` are
      promises, and `ReturnsNull` is `null`, whose `typeof` is `object`, so
      that reading its `then` throws a `TypeError` out of the bridge. */
  datatype Returned = NotPromise | ReturnsNull | Resolves | Rejects(reason: ErrValue) | Throws(thrown: ErrValue)

  /** The `TypeError` that reading `then` off `null` throws. */
  const NullThenError: ErrValue := ErrorObject(Some("Cannot read properties of null (reading 'then')"))

  /** The value the bridge throws as the action's call returns, if any: the
      action's own throw, or the `TypeError` of a `null` result. */
  function BridgeThrow(returned: Returned): (thrown: Option<ErrValue>)
    ensures thrown.Some? <==> returned.Throws? || returned.ReturnsNull?
    ensures returned.Throws? ==> thrown == Some(returned.thrown)
    ensures returned.ReturnsNull? ==> thrown == Some(NullThenError)
  {
    match returned
    case Throws(e) => Some(e)
    case ReturnsNull => Some(NullThenError)
    case _ => None
  }

  /** How a registered action behaves when run: the errors it passes to the
      callback, in order, before its returned value settles. */
  datatype ActionRun = ActionRun(callbackCalls: seq<ErrValue>, returned: Returned)

  /** `executeTask(action, model, task, done)`: the calls `done` receives,
      the action's own ones first, then the promise's settlement. */
  function DoneCalls(run: ActionRun): (calls: seq<ErrValue>)
    ensures run.returned.NotPromise? || run.returned.ReturnsNull? || run.returned.Throws? ==> calls == run.callbackCalls
    ensures run.returned.Resolves? ==> calls == run.callbackCalls + [Falsy]
    ensures run.returned.Rejects? ==> calls == run.callbackCalls + [run.returned.reason]
  {
    run.callbackCalls + match run.returned
      case NotPromise => []
      case ReturnsNull => []
      case Throws(_) => []
      case Resolves => [Falsy]
      case Rejects(e) => [e]
  }

  /** The state of the wrapper's promise. */
  datatype Outcome = Pending | Succeeded | Failed(err: ErrValue)

  /** The wrapper's promise settles on the first `done` call: rejected with a
      truthy error, resolved otherwise; later calls have no effect. */
  function Settle(calls: seq<ErrValue>): (o: Outcome)
    ensures calls == [] <==> o == Pending
    ensures o.Failed? <==> calls != [] && !calls[0].Falsy?
    ensures o.Failed? ==> o.err == calls[0]
  {
    if calls == [] then Pending
    else if calls[0].Falsy? then Succeeded
    else Failed(calls[0])
  }

  /** The error each failed check throws, naming the job id. */
  function RejectionError(why: Rejection, id: TaskId): ErrValue {
    match why
    case NoTask => ErrorObject(Some("No task with such taskId: " + id))
    case NotExecuting(status) => ErrorObject(Some("Task status is not executing: " + StatusName(status) + ", tId: " + id))
    case NoActionType => ErrorObject(Some("No action type in task, tId: " + id))
    case NoAction => ErrorObject(Some("No action to execute: undefined, tId: " + id))
  }

  /** One run of `executeTaskWrapper(taskId)`: how often the action was run
      and how the wrapper's promise ends. */
  datatype WrapperRun = WrapperRun(actionRuns: nat, outcome: Outcome)

  function ExecuteTaskWrapper(s: Store, id: TaskId, actions: map<string, ActionRun>): (r: WrapperRun)
    ensures r.actionRuns == (if Validate(Lookup(s, id), actions).Valid? then 1 else 0)
    ensures r.actionRuns == 0 ==> r.outcome.Failed? && r.outcome.err.ErrorObject? && r.outcome.err.message.Some?
  {
    match Validate(Lookup(s, id), actions)
    case Rejected(why) => WrapperRun(0, Failed(RejectionError(why, id)))
    case Valid(_, run) =>
      var calls := DoneCalls(run);
      var thrown := BridgeThrow(run.returned);
      WrapperRun(1, if calls == [] && thrown.Some? then Failed(thrown.value) else Settle(calls))
  }

  /** The validation failures in order: a missing record, then a wrong
      status, then a missing type, then an unregistered type; each fails the
      job with its own message before any action runs. */
  lemma ValidationOrder(s: Store, id: TaskId, actions: map<string, ActionRun>)
    ensures var r := ExecuteTaskWrapper(s, id, actions);
      && (id !in s ==> r == WrapperRun(0, Failed(ErrorObject(Some("No task with such taskId: " + id)))))
      && (id in s && s[id].status != Executing ==>
            r == WrapperRun(0, Failed(ErrorObject(Some("Task status is not executing: " + StatusName(s[id].status) + ", tId: " + id)))))
      && (id in s && s[id].status == Executing && !Present(s[id].actionType) ==>
            r == WrapperRun(0, Failed(ErrorObject(Some("No action type in task, tId: " + id)))))
      && (id in s && s[id].status == Executing && Present(s[id].actionType) && s[id].actionType.value !in actions ==>
            r == WrapperRun(0, Failed(ErrorObject(Some("No action to execute: undefined, tId: " + id)))))
  {
  }

  /** A valid job runs its action exactly once, and the job ends as the
      action's first `done` call says: a promise that resolves first
      succeeds, one that rejects first fails with its reason, a throw before
      any call fails with the thrown value (even a falsy one), a `null`
      result before any call fails with the `TypeError` of reading its
      `then`, and an action that never calls back and returns any other
      non-promise leaves the job pending. */
  lemma ValidJobRunsActionOnce(s: Store, id: TaskId, actions: map<string, ActionRun>)
    requires id in s && s[id].status == Executing && Present(s[id].actionType) && s[id].actionType.value in actions
    ensures var run := actions[s[id].actionType.value];
      var r := ExecuteTaskWrapper(s, id, actions);
      && r.actionRuns == 1
      && (run.callbackCalls == [] && run.returned.Resolves? ==> r.outcome == Succeeded)
      && (run.callbackCalls == [] && run.returned.Rejects? && !run.returned.reason.Falsy? ==>
            r.outcome == Failed(run.returned.reason))
      && (run.callbackCalls == [] && run.returned.NotPromise? ==> r.outcome == Pending)
      && (run.callbackCalls == [] && run.returned.ReturnsNull? ==> r.outcome == Failed(NullThenError))
      && (run.callbackCalls == [] && run.returned.Throws? ==> r.outcome == Failed(run.returned.thrown))
      && (run.callbackCalls != [] ==> r.outcome == Settle(run.callbackCalls))
  {
    var run := actions[s[id].actionType.value];
    if run.callbackCalls != [] {
      assert DoneCalls(run)[0] == run.callbackCalls[0];
    }
  }

  /** The reply to one message, if any: none for a message without a job id
      or for a job that never settles; otherwise the id echoed, with the
      failure's `message` as `err`. */
  function OnMessage(data: Option<Protocol.ToChild>, s: Store, actions: map<string, ActionRun>): (reply: Option<Protocol.ToParent>)
    ensures !(data.Some? && Present(data.value.taskId)) ==> reply.None?
    ensures reply.Some? ==> !reply.value.ready && reply.value.taskId == data.value.taskId
  {
    if !(data.Some? && Present(data.value.taskId)) then None
    else
      var id := data.value.taskId.value;
      match ExecuteTaskWrapper(s, id, actions).outcome
      case Pending => None
      case Succeeded => Some(Protocol.Reply(id, None))
      case Failed(err) => Some(Protocol.Reply(id, if err.ErrorObject? then err.message else None))
  }

  /** A job with an id is answered exactly when the wrapper settles, with
      an `err` exactly when it fails with an error that has a message. */
  lemma ReplyMatchesOutcome(data: Option<Protocol.ToChild>, s: Store, actions: map<string, ActionRun>)
    requires data.Some? && Present(data.value.taskId)
    ensures var o := ExecuteTaskWrapper(s, data.value.taskId.value, actions).outcome;
      var reply := OnMessage(data, s, actions);
      && (reply.Some? <==> !o.Pending?)
      && (reply.Some? ==> (reply.value.err.Some? <==> o.Failed? && o.err.ErrorObject? && o.err.message.Some?))
      && (reply.Some? && o.Failed? && o.err.ErrorObject? ==> reply.value.err == o.err.message)
  {
  }

  /** A failure that is not an `Error` object has no `message`: an action
      that rejects with a plain string is answered with no `err`. */
  lemma StringRejectionAnswersWithoutError(id: TaskId, s: Store, actions: map<string, ActionRun>, text: string)
    requires id != "" && id in s && s[id].status == Executing && Present(s[id].actionType)
    requires s[id].actionType.value in actions
    requires actions[s[id].actionType.value] == ActionRun([], Rejects(Primitive(text)))
    ensures OnMessage(Some(Protocol.ToChild(Some(id))), s, actions) == Some(Protocol.Reply(id, None))
  {
    assert DoneCalls(ActionRun([], Rejects(Primitive(text)))) == [Primitive(text)];
  }

  /** The replies to a sequence of messages answered one at a time, in
      order. */
  function Replies(messages: seq<Option<Protocol.ToChild>>, s: Store, actions: map<string, ActionRun>): (out: seq<Protocol.ToParent>)
    ensures |out| <= |messages|
    ensures forall i :: 0 <= i < |out| ==> !out[i].ready
    decreases |messages|
  {
    if messages == [] then []
    else
      var first := OnMessage(messages[0], s, actions);
      (if first.Some? then [first.value] else []) + Replies(messages[1..], s, actions)
  }

  /** The process's output for a sequence of messages: `{ ready: true }`
      exactly once, first, then the replies in order. */
  function Outputs(messages: seq<Option<Protocol.ToChild>>, s: Store, actions: map<string, ActionRun>): seq<Protocol.ToParent> {
    Protocol.Announced(Replies(messages, s, actions))
  }
}

=== FILE: locks.dfy ===
/** The hand-rolled Redis lock of the orchestration loops (`passLock`):
    SETNX of an expiry stamp, then GET, then a GETSET takeover of a stale
    holder. The Redis keyspace is a map from key to the stored stamp and the
    time Redis reaps the key (set by EXPIRE). Other clients' writes between the
    commands and failing commands are explicit inputs. */
module Locks {
  import opened Common

  /** A lock key's value: the stamp (ms) after which the holder counts as
      stale, and the time the key's Redis TTL removes it, if one is set. */
  datatype Entry = Entry(stamp: int, reapAt: Option<int>)

  type Keyspace = map<string, Entry>

  /** The Redis commands of the protocol that can fail. */
  datatype Command = SetNx | Get | GetSet

  /** What another client does to the key between two of our commands: it
      writes an entry (a stamp, with or without a TTL) or deletes the key. */
  datatype Interference = Quiet | Wrote(entry: Entry) | Deleted

  /** The environment of one `passLock` call: the command that fails (if any)
      and other clients' writes before our GET and before our GETSET. */
  datatype LockIo = LockIo(failing: Option<Command>, beforeGet: Interference, beforeGetSet: Interference)

  /** `success()`, `fail()` (busy) and `fail(err)` (a Redis error). */
  datatype Outcome = Acquired | Busy | Failed(command: Command)

  datatype Attempt = Attempt(keys: Keyspace, outcome: Outcome)

  /** No failing command and no other client. */
  const Undisturbed := LockIo(None, Quiet, Quiet)

  /** `prepareLockTimeout`: a lock timeout in ms as a Redis TTL in whole
      seconds, `Math.floor(timeout / 1000) || 1`. A zero is replaced by one,
      but a negative timeout gives a negative TTL. (With a positive divisor
      Dafny's `/` rounds down, as `Math.floor` does.) */
  function PrepareLockTimeout(timeout: int): (secs: int)
    ensures secs != 0
    ensures timeout >= 0 ==> secs >= 1
    ensures timeout < 0 ==> secs < 0
    ensures secs == 1 || secs * 1000 <= timeout
    ensures timeout < (secs + 1) * 1000
  {
    if timeout / 1000 != 0 then timeout / 1000 else 1
  }

  /** `+res` of a GET/GETSET reply: a missing key reads as 0. */
  function Read(keys: Keyspace, key: string): int {
    if key in keys then keys[key].stamp else 0
  }

  function Interfere(keys: Keyspace, key: string, i: Interference): Keyspace {
    match i
    case Quiet => keys
    case Wrote(e) => keys[key := e]
    case Deleted => keys - {key}
  }

  /** The value SETNX/GETSET store, and the key after EXPIRE. */
  function Stamp(timeout: int, now: int): int {
    now + timeout + 1
  }

  function Held(timeout: int, now: int): Entry {
    Entry(Stamp(timeout, now), Some(now + PrepareLockTimeout(timeout) * 1000))
  }

  /** Our stamp written and the key's TTL set by EXPIRE: a TTL of zero or
      less makes Redis delete the key at once. */
  function Locked(keys: Keyspace, key: string, timeout: int, now: int): (r: Keyspace)
    ensures PrepareLockTimeout(timeout) > 0 ==> key in r && r[key] == Held(timeout, now)
    ensures PrepareLockTimeout(timeout) < 0 ==> key !in r
    ensures forall k :: k != key ==> (k in r <==> k in keys)
    ensures forall k :: k != key && k in keys ==> r[k] == keys[k]
  {
    if PrepareLockTimeout(timeout) > 0 then keys[key := Held(timeout, now)] else keys - {key}
  }

  /** `passLock(key, timeout, fail, success)` at time `now`. */
  function PassLock(keys: Keyspace, key: string, timeout: int, now: int, io: LockIo): (r: Attempt)
    ensures r.outcome.Acquired? && timeout >= 0 ==> key in r.keys && r.keys[key] == Held(timeout, now)
    ensures r.outcome.Acquired? && timeout < 0 ==> key !in r.keys
    ensures io.failing == Some(SetNx) ==> r == Attempt(keys, Failed(SetNx))
    ensures r.outcome.Failed? ==> Some(r.outcome.command) == io.failing
    ensures forall k :: k != key ==> (k in r.keys <==> k in keys)
    ensures forall k :: k != key && k in keys ==> r.keys[k] == keys[k]
  {
    if io.failing == Some(SetNx) then Attempt(keys, Failed(SetNx))
    else if key !in keys then Attempt(Locked(keys, key, timeout, now), Acquired)
    else
      var afterGet := Interfere(keys, key, io.beforeGet);
      if io.failing == Some(Get) then Attempt(afterGet, Failed(Get))
      else
        var lockTime := Read(afterGet, key);
        if lockTime < now then
          var afterGetSet := Interfere(afterGet, key, io.beforeGetSet);
          if io.failing == Some(GetSet) then Attempt(afterGetSet, Failed(GetSet))
          else
            var previous := Read(afterGetSet, key);
            if lockTime == previous then Attempt(Locked(afterGetSet, key, timeout, now), Acquired)
            else Attempt(afterGetSet[key := Entry(Stamp(timeout, now), None)], Busy)
        else Attempt(afterGet, Busy)
  }

  /** `redis.del(key)`: releasing a missing key is not an error. */
  function Release(keys: Keyspace, key: string): (r: Keyspace)
    ensures key !in r
    ensures forall k :: k != key && k in keys ==> k in r && r[k] == keys[k]
    ensures r.Keys <= keys.Keys
  {
    keys - {key}
  }

  /** Redis TTL expiry at time `now`: keys whose reap time has come are gone. */
  function Reap(keys: Keyspace, now: int): (r: Keyspace)
    ensures forall k :: k in r <==> k in keys && (keys[k].reapAt.None? || now < keys[k].reapAt.value)
    ensures forall k :: k in r ==> r[k] == keys[k]
  {
    map k | k in keys && (keys[k].reapAt.None? || now < keys[k].reapAt.value) :: keys[k]
  }

  /** A lock whose stamp has passed counts as stale. */
  predicate Stale(e: Entry, now: int) {
    e.stamp < now
  }

  /** A free key is taken and stamped `now + timeout + 1`, with a TTL of
      `PrepareLockTimeout(timeout)` seconds. */
  lemma AbsentKeyIsAcquired(keys: Keyspace, key: string, timeout: int, now: int, io: LockIo)
    requires key !in keys && io.failing != Some(SetNx)
    ensures PassLock(keys, key, timeout, now, io) == Attempt(Locked(keys, key, timeout, now), Acquired)
    ensures timeout >= 0 ==> PassLock(keys, key, timeout, now, io) == Attempt(keys[key := Held(timeout, now)], Acquired)
  {
  }

  /** A key whose stamp has not yet passed refuses the lock and nothing is written. */
  lemma LiveKeyIsRefused(keys: Keyspace, key: string, timeout: int, now: int)
    requires key in keys && !Stale(keys[key], now)
    ensures PassLock(keys, key, timeout, now, Undisturbed) == Attempt(keys, Busy)
  {
  }

  /** A stale key is always overwritten with our stamp by GETSET, and the lock
      is ours exactly when GETSET returned the value our GET read; the stamp
      stays unless a negative timeout's EXPIRE deletes the key we won. */
  lemma StaleKeyIsTakenOver(keys: Keyspace, key: string, timeout: int, now: int, io: LockIo)
    requires io.failing == None && io.beforeGet == Quiet
    requires key in keys && Stale(keys[key], now)
    ensures var r := PassLock(keys, key, timeout, now, io);
      && (timeout >= 0 || r.outcome.Busy? ==> key in r.keys && r.keys[key].stamp == Stamp(timeout, now))
      && (timeout < 0 && r.outcome.Acquired? ==> key !in r.keys)
      && (r.outcome.Acquired? <==> Read(Interfere(keys, key, io.beforeGetSet), key) == keys[key].stamp)
      && (r.outcome.Busy? <==> !r.outcome.Acquired?)
  {
  }

  /** When the lock is acquired, either the key was free, or the holder we
      read was stale and nobody changed the stamp before our GETSET: a holder
      is never displaced while its stamp is live. */
  lemma AcquiredOnlyWhenFreeOrStale(keys: Keyspace, key: string, timeout: int, now: int, io: LockIo)
    requires PassLock(keys, key, timeout, now, io).outcome.Acquired?
    ensures key !in keys ||
      (var read := Interfere(keys, key, io.beforeGet);
       Read(read, key) < now && Read(Interfere(read, key, io.beforeGetSet), key) == Read(read, key))
  {
  }

  /** For timeouts of a second or more the TTL reaps the key before its stamp
      passes, so the GETSET takeover only matters for keys whose EXPIRE never
      ran (the process died between SETNX and EXPIRE); for shorter timeouts the
      one-second TTL outlives the stamp. */
  lemma ReapedBeforeStale(timeout: int, now: int, later: int)
    ensures timeout >= 1000 && Stale(Held(timeout, now), later) ==> later >= Held(timeout, now).reapAt.value
    ensures 0 <= timeout < 999 ==> Held(timeout, now).reapAt.value > Stamp(timeout, now)
  {
    var secs := PrepareLockTimeout(timeout);
    if timeout >= 1000 {
      assert secs * 1000 <= timeout;
    }
  }

  /** A negative timeout gives EXPIRE a negative TTL, which deletes the key
      at once: the lock is granted but nothing holds it, so an undisturbed
      second attempt on the same key is granted too. */
  lemma NegativeTimeoutHoldsNothing(keys: Keyspace, key: string, timeout: int, now: int, io: LockIo)
    requires timeout < 0 && PassLock(keys, key, timeout, now, io).outcome.Acquired?
    ensures var r := PassLock(keys, key, timeout, now, io);
      && key !in r.keys
      && PassLock(r.keys, key, timeout, now, Undisturbed) == Attempt(r.keys, Acquired)
  {
  }
}

=== FILE: manager.dfy ===
/** The worker pool (`ChildWorkerManager` in
    orchestration/ChildWorkerManager.js): it spawns worker slots one after
    another until `childsLength` are ready, keeps the ready ones in `childs`
    and the idle ones in `freeChilds`, hands each job to the first free slot
    (or asks the caller to retry in 200 ms), replaces every slot that ends,
    and runs `separate` jobs on a process of their own.

    Slots are named by their cluster worker id; `Step` of the slot module
    gives each slot event's effects, which the pool's listeners then handle in
    order. `starting` records the pooled slots that have not yet become ready;
    the source keeps no such list, and only the `Bounded` spawn policy reads it. */
module Manager {
  import opened Common
  import opened ChildWorker
  import Protocol

  const DEFAULT_CHILDS: int := 2
  const RETRY_DELAY: nat := 200

  /** A job handed to the pool: its id and the caller's callback. */
  datatype Job = Job(taskId: TaskId, callback: CallbackId)

  datatype Pool = Pool(
    target: int,
    slots: map<nat, Slot>,
    childs: seq<nat>,
    free: seq<nat>,
    starting: set<nat>,
    separate: map<nat, Job>,
    ready: bool,
    nextId: nat)

  /** When a slot becomes ready and the pool is still short, the source
      spawns another as long as fewer than `target` slots are listed
      (`AsWritten`); `Bounded` also counts the slots still starting. */
  datatype SpawnPolicy = AsWritten | Bounded

  /** What the pool does outside itself. `RetryLater` is the 200 ms retry of
      a job that found no free slot; `Init` starts the scheduler's loops. */
  datatype Notice =
    | Answer(callback: CallbackId, err: Option<Failure>, workerId: Option<nat>)
    | RetryLater(job: Job)
    | SendTo(child: nat, message: Protocol.ToChild)
    | Killed(child: nat)
    | Init
    | Crashed

  datatype Handled = Handled(pool: Pool, notices: seq<Notice>)

  /** The random draw for a spawned slot's job limit and the liveness probes
      of the process a job is handed to. */
  datatype Env = Env(draw: nat, dead: bool, connected: bool)

  datatype PoolEvent =
    | ChildEvent(child: nat, event: Event)
    | Submit(job: Job)            // `executeTask`
    | SubmitSeparate(job: Job)    // `executeTaskInSeparateProcess`

  datatype Startup = Started(pool: Pool, executions: int) | TooFewChilds(childsLength: int)

  /** The number of dispatch loops: half the pool, rounded down, so that
      while a slot is respawned the others can take the load. */
  function ExecutionsLength(childsLength: int): (e: int)
    requires childsLength >= 2
    ensures 1 <= e < childsLength
    ensures 2 * e <= childsLength < 2 * e + 2
  {
    childsLength / 2
  }

  /** `spawnOne`: a new slot, still starting. */
  function SpawnOne(p: Pool, draw: nat): (q: Pool)
    ensures q.slots == p.slots[p.nextId := Spawn(p.nextId, draw)] && q.nextId == p.nextId + 1
    ensures q.starting == p.starting + {p.nextId}
    ensures q == p.(slots := q.slots, starting := q.starting, nextId := q.nextId)
  {
    p.(slots := p.slots[p.nextId := Spawn(p.nextId, draw)], starting := p.starting + {p.nextId}, nextId := p.nextId + 1)
  }

  /** The constructor: fewer than two slots is an error; otherwise the first
      slot is spawned. */
  function NewPool(childsLength: int, draw: nat): (r: Startup)
    ensures r.TooFewChilds? <==> childsLength < 2
    ensures r.Started? ==>
      && r.pool.target == childsLength && r.executions == ExecutionsLength(childsLength)
      && r.pool.childs == [] && r.pool.free == [] && !r.pool.ready
      && r.pool.slots.Keys == {0} && r.pool.starting == {0}
  {
    if childsLength < 2 then TooFewChilds(childsLength)
    else Started(SpawnOne(Pool(childsLength, map[], [], [], {}, map[], false, 0), draw), ExecutionsLength(childsLength))
  }

  /** The `ready` listener of a pooled slot: list it as ready and free, then
      spawn the next slot while the pool is short, or else start the
      scheduler the first time the pool is full. */
  function OnChildReady(p: Pool, c: nat, draw: nat, policy: SpawnPolicy): (h: Handled)
    ensures h.pool.childs == p.childs + [c] && h.pool.free == p.free + [c]
    ensures Init in h.notices <==> !p.ready && |p.childs| + 1 >= p.target
    ensures h.pool.ready <==> p.ready || |p.childs| + 1 >= p.target
    ensures h.pool.slots.Keys >= p.slots.Keys && h.pool.separate == p.separate && h.pool.target == p.target
    ensures |h.notices| <= 1
  {
    var listed := p.(childs := p.childs + [c], free := p.free + [c], starting := p.starting - {c});
    if |listed.childs| < listed.target then
      if policy.AsWritten? || |listed.childs| + |listed.starting| < listed.target then
        Handled(SpawnOne(listed, draw), [])
      else Handled(listed, [])
    else if !listed.ready then Handled(listed.(ready := true), [Init])
    else Handled(listed, [])
  }

  /** The `end` listener of a pooled slot: unlist it and spawn a replacement. */
  function OnChildEnd(p: Pool, c: nat, draw: nat): (h: Handled)
    ensures c !in h.pool.childs && c !in h.pool.free
    ensures h.pool.childs == Without(p.childs, c) && h.pool.free == Without(p.free, c)
    ensures h.pool.slots == p.slots[p.nextId := Spawn(p.nextId, draw)]
    ensures h.notices == [] && h.pool.target == p.target && h.pool.ready == p.ready
  {
    Handled(SpawnOne(p.(childs := Without(p.childs, c), free := Without(p.free, c), starting := p.starting - {c}), draw), [])
  }

  /** The notice a separate slot's effect gives: its callback is the caller's
      own, and nobody listens to its `end`. */
  function Relay(c: nat, e: Effect): (n: seq<Notice>)
    ensures |n| <= 1
  {
    match e
    case Invoke(cb, err, w, _) => [Answer(cb, err, w)]
    case Send(m) => [SendTo(c, m)]
    case Kill => [Killed(c)]
    case Crash => [Crashed]
    case _ => []
  }

  function RelayAll(c: nat, effects: seq<Effect>): seq<Notice> {
    if effects == [] then [] else Relay(c, effects[0]) + RelayAll(c, effects[1..])
  }

  /** One effect of slot `c`, handled by the pool's listeners. A pooled slot's
      callback is the pool's wrapper: it puts the slot back on the free list
      unless the slot has ended, then answers the caller. A separate slot runs
      its job as soon as it is ready. */
  function OnEffect(p: Pool, c: nat, e: Effect, env: Env, policy: SpawnPolicy): (h: Handled)
    requires c in p.slots
    ensures h.pool.slots.Keys >= p.slots.Keys && h.pool.target == p.target
    ensures c !in p.separate && e.Invoke? ==>
      && h.pool.free == (if e.slotEnded then p.free else p.free + [c])
      && h.pool.childs == p.childs && h.pool.slots == p.slots
      && h.notices == [Answer(e.callback, e.err, e.workerId)]
  {
    if c in p.separate then
      if e.EmitReady? then
        var run := ExecuteTask(p.slots[c], p.separate[c].taskId, p.separate[c].callback, env.dead, env.connected);
        Handled(p.(slots := p.slots[c := run.slot]), RelayAll(c, run.effects))
      else Handled(p, Relay(c, e))
    else
      match e
      case Invoke(cb, err, w, slotEnded) =>
        Handled(if slotEnded then p else p.(free := p.free + [c]), [Answer(cb, err, w)])
      case EmitReady => OnChildReady(p, c, env.draw, policy)
      case EmitEnd(_) => OnChildEnd(p, c, env.draw)
      case Send(m) => Handled(p, [SendTo(c, m)])
      case Kill => Handled(p, [Killed(c)])
      case Crash => Handled(p, [Crashed])
  }

  /** The effects of one slot step, handled in order. */
  function Interpret(p: Pool, c: nat, effects: seq<Effect>, env: Env, policy: SpawnPolicy): (h: Handled)
    requires c in p.slots
    ensures h.pool.slots.Keys >= p.slots.Keys && h.pool.target == p.target
    decreases |effects|
  {
    if effects == [] then Handled(p, [])
    else
      var first := OnEffect(p, c, effects[0], env, policy);
      var rest := Interpret(first.pool, c, effects[1..], env, policy);
      Handled(rest.pool, first.notices + rest.notices)
  }

  /** Every listed or recorded slot id names a slot, and ids are below `nextId`. */
  ghost predicate WellFormed(p: Pool) {
    && (forall c :: c in p.childs ==> c in p.slots)
    && (forall c :: c in p.free ==> c in p.slots)
    && (forall c :: c in p.starting ==> c in p.slots)
    && (forall c :: c in p.separate ==> c in p.slots)
    && (forall c :: c in p.slots ==> c < p.nextId)
  }

  /** `executeTask(taskId, done)`: no free slot means retry later; otherwise
      the first free slot is taken off the free list and given the job. */
  function ExecuteOnPool(p: Pool, job: Job, env: Env, policy: SpawnPolicy): (h: Handled)
    requires WellFormed(p)
    ensures p.free == [] ==> h == Handled(p, [RetryLater(job)])
    ensures h.pool.target == p.target
  {
    if p.free == [] then Handled(p, [RetryLater(job)])
    else
      var c := p.free[0];
      var taken := p.(free := Without(p.free, c));
      var run := ExecuteTask(taken.slots[c], job.taskId, job.callback, env.dead, env.connected);
      Interpret(taken.(slots := taken.slots[c := run.slot]), c, run.effects, env, policy)
  }

  /** `executeTaskInSeparateProcess(taskId, done)`: a new slot outside the
      pool, which runs the job when ready and is never listed. */
  function SpawnSeparate(p: Pool, job: Job, draw: nat): (q: Pool)
    ensures q.slots == p.slots[p.nextId := Spawn(p.nextId, draw)] && q.nextId == p.nextId + 1
    ensures q.separate == p.separate[p.nextId := job]
    ensures q.childs == p.childs && q.free == p.free && q.starting == p.starting && q.ready == p.ready
  {
    p.(slots := p.slots[p.nextId := Spawn(p.nextId, draw)], separate := p.separate[p.nextId := job], nextId := p.nextId + 1)
  }

  /** One event of the pool. Jobs reach slots only through the pool, so a
      slot event is never a direct `executeTask`. */
  function PoolStep(p: Pool, ev: PoolEvent, env: Env, policy: SpawnPolicy): (h: Handled)
    requires WellFormed(p)
    requires ev.ChildEvent? ==> ev.child in p.slots && !ev.event.Execute?
    ensures h.pool.target == p.target
  {
    match ev
    case ChildEvent(c, e) =>
      var o := Step(p.slots[c], e);
      Interpret(p.(slots := p.slots[c := o.slot]), c, o.effects, env, policy)
    case Submit(job) => ExecuteOnPool(p, job, env, policy)
    case SubmitSeparate(job) => Handled(SpawnSeparate(p, job, env.draw), [])
  }

  /** What every pool reachable from `NewPool` satisfies: the listed and free
      slots are distinct; every free slot is listed and idle; every listed
      slot is a live pooled slot past its start-up; a pooled slot is starting
      exactly when it is live and not listed, and starting slots are idle. */
  ghost predicate PoolInv(p: Pool) {
    && WellFormed(p)
    && NoDuplicates(p.childs) && NoDuplicates(p.free)
    && (forall c :: c in p.free ==> c in p.childs)
    && (forall c :: c in p.slots ==> SlotInv(p.slots[c]))
    && (forall c :: c in p.childs ==> c !in p.separate && !p.slots[c].ended && !p.slots[c].readyListener)
    && (forall c :: c in p.free ==> Idle(p.slots[c]))
    && (forall c :: c in p.slots && c !in p.separate ==> (c in p.starting <==> !p.slots[c].ended && c !in p.childs))
    && (forall c :: c in p.starting ==> c !in p.separate && Idle(p.slots[c]))
  }

  /** Listed and starting slots together do not exceed the target. */
  predicate Within(p: Pool) {
    |p.childs| + |p.starting| <= p.target
  }

  lemma NewPoolSatisfiesInv(childsLength: int, draw: nat)
    requires childsLength >= 2
    ensures PoolInv(NewPool(childsLength, draw).pool) && Within(NewPool(childsLength, draw).pool)
  {
    SpawnSatisfiesSlotInv(0, draw);
  }

  lemma SpawnOneKeepsInv(p: Pool, draw: nat)
    requires PoolInv(p)
    ensures PoolInv(SpawnOne(p, draw))
    ensures |SpawnOne(p, draw).starting| == |p.starting| + 1
  {
    SpawnSatisfiesSlotInv(p.nextId, draw);
    assert p.nextId !in p.slots;
    assert p.nextId !in p.starting;
  }

  lemma ReadyKeepsInv(p: Pool, c: nat, draw: nat, policy: SpawnPolicy)
    requires PoolInv(p) && c in p.starting && !p.slots[c].readyListener
    ensures PoolInv(OnChildReady(p, c, draw, policy).pool)
    ensures policy.Bounded? && Within(p) ==> Within(OnChildReady(p, c, draw, policy).pool)
  {
    var listed := p.(childs := p.childs + [c], free := p.free + [c], starting := p.starting - {c});
    assert c !in p.childs && c !in p.free;
    AppendFreshKeepsNoDuplicates(p.childs, c);
    AppendFreshKeepsNoDuplicates(p.free, c);
    assert PoolInv(listed);
    assert |listed.starting| == |p.starting| - 1;
    if |listed.childs| < listed.target && (policy.AsWritten? || |listed.childs| + |listed.starting| < listed.target) {
      SpawnOneKeepsInv(listed, draw);
    }
  }

  lemma EndKeepsInv(p: Pool, c: nat, t: Slot, draw: nat)
    requires PoolInv(p) && c in p.slots && c !in p.separate && SlotInv(t) && t.ended
    ensures PoolInv(OnChildEnd(p.(slots := p.slots[c := t]), c, draw).pool)
    ensures !p.slots[c].ended && Within(p) ==> Within(OnChildEnd(p.(slots := p.slots[c := t]), c, draw).pool)
  {
    var q := p.(slots := p.slots[c := t]);
    var unlisted := q.(childs := Without(q.childs, c), free := Without(q.free, c), starting := q.starting - {c});
    WithoutKeepsNoDuplicates(p.childs, c);
    WithoutKeepsNoDuplicates(p.free, c);
    assert PoolInv(unlisted);
    SpawnOneKeepsInv(unlisted, draw);
    if !p.slots[c].ended {
      if c in p.childs {
        WithoutPresentLength(p.childs, c);
        assert c !in p.starting;
      } else {
        assert c in p.starting;
        assert |unlisted.starting| == |p.starting| - 1;
      }
    }
  }

  lemma ReturnKeepsInv(p: Pool, c: nat, t: Slot)
    requires PoolInv(p) && c in p.childs && c !in p.free
    requires SlotInv(t) && !t.ended && !t.readyListener && Idle(t)
    ensures PoolInv(p.(slots := p.slots[c := t], free := p.free + [c]))
  {
    AppendFreshKeepsNoDuplicates(p.free, c);
  }

  lemma InterpretSingle(p: Pool, c: nat, effects: seq<Effect>, env: Env, policy: SpawnPolicy)
    requires c in p.slots && |effects| == 1
    ensures Interpret(p, c, effects, env, policy) == OnEffect(p, c, effects[0], env, policy)
  {
    var first := OnEffect(p, c, effects[0], env, policy);
    assert Interpret(first.pool, c, effects[1..], env, policy) == Handled(first.pool, []);
    assert first.notices + [] == first.notices;
  }

  lemma InterpretPair(p: Pool, c: nat, effects: seq<Effect>, env: Env, policy: SpawnPolicy)
    requires c in p.slots && |effects| == 2
    ensures var first := OnEffect(p, c, effects[0], env, policy);
      Interpret(p, c, effects, env, policy).pool == OnEffect(first.pool, c, effects[1], env, policy).pool
  {
    var first := OnEffect(p, c, effects[0], env, policy);
    InterpretSingle(first.pool, c, effects[1..], env, policy);
  }

  /** A step with no effect on the lists: the slot stays live, and an idle
      slot stays idle. */
  lemma UnlistedChangeKeepsInv(p: Pool, c: nat, t: Slot)
    requires PoolInv(p) && c in p.slots && c !in p.separate
    requires !p.slots[c].ended && !t.ended && SlotInv(t)
    requires t.readyListener ==> p.slots[c].readyListener
    requires c in p.starting ==> Idle(t)
    requires c in p.free ==> Idle(t)
    ensures PoolInv(p.(slots := p.slots[c := t]))
  {
  }

  lemma ReadyEffectKeepsInv(p: Pool, c: nat, o: Out, env: Env, policy: SpawnPolicy)
    requires PoolInv(p) && c in p.slots && c !in p.separate && !p.slots[c].ended
    requires o.effects == [EmitReady] && p.slots[c].readyListener && SlotInv(o.slot)
    requires !o.slot.ended && !o.slot.readyListener && Idle(o.slot)
    ensures PoolInv(Interpret(p.(slots := p.slots[c := o.slot]), c, o.effects, env, policy).pool)
    ensures policy.Bounded? && Within(p) ==>
      Within(Interpret(p.(slots := p.slots[c := o.slot]), c, o.effects, env, policy).pool)
  {
    var q := p.(slots := p.slots[c := o.slot]);
    assert c !in p.childs;
    UnlistedChangeKeepsInv(p, c, o.slot);
    InterpretSingle(q, c, o.effects, env, policy);
    ReadyKeepsInv(q, c, env.draw, policy);
  }

  lemma ReturnEffectKeepsInv(p: Pool, c: nat, o: Out, env: Env, policy: SpawnPolicy)
    requires PoolInv(p) && c in p.childs && c !in p.free
    requires |o.effects| == 1 && o.effects[0].Invoke? && !o.effects[0].slotEnded
    requires SlotInv(o.slot) && !o.slot.ended && !o.slot.readyListener && Idle(o.slot)
    ensures PoolInv(Interpret(p.(slots := p.slots[c := o.slot]), c, o.effects, env, policy).pool)
    ensures Interpret(p.(slots := p.slots[c := o.slot]), c, o.effects, env, policy).pool.starting == p.starting
    ensures Interpret(p.(slots := p.slots[c := o.slot]), c, o.effects, env, policy).pool.childs == p.childs
  {
    assert c !in p.separate;
    InterpretSingle(p.(slots := p.slots[c := o.slot]), c, o.effects, env, policy);
    ReturnKeepsInv(p, c, o.slot);
  }

  lemma EndEffectKeepsInv(p: Pool, c: nat, o: Out, env: Env, policy: SpawnPolicy)
    requires PoolInv(p) && c in p.slots && c !in p.separate && !p.slots[c].ended
    requires |o.effects| == 1 && o.effects[0].EmitEnd? && SlotInv(o.slot) && o.slot.ended
    ensures PoolInv(Interpret(p.(slots := p.slots[c := o.slot]), c, o.effects, env, policy).pool)
    ensures Within(p) ==> Within(Interpret(p.(slots := p.slots[c := o.slot]), c, o.effects, env, policy).pool)
  {
    InterpretSingle(p.(slots := p.slots[c := o.slot]), c, o.effects, env, policy);
    EndKeepsInv(p, c, o.slot, env.draw);
  }

  lemma ReturnThenEndKeepsInv(p: Pool, c: nat, o: Out, env: Env, policy: SpawnPolicy)
    requires PoolInv(p) && c in p.childs && c !in p.free
    requires |o.effects| == 2 && o.effects[0].Invoke? && !o.effects[0].slotEnded && o.effects[1].EmitEnd?
    requires SlotInv(o.slot) && o.slot.ended
    ensures PoolInv(Interpret(p.(slots := p.slots[c := o.slot]), c, o.effects, env, policy).pool)
    ensures Within(p) ==> Within(Interpret(p.(slots := p.slots[c := o.slot]), c, o.effects, env, policy).pool)
  {
    var q := p.(slots := p.slots[c := o.slot]);
    assert c !in p.separate && !p.slots[c].ended;
    InterpretPair(q, c, o.effects, env, policy);
    WithoutAppended(p.free, c);
    assert OnChildEnd(q.(free := q.free + [c]), c, env.draw) == OnChildEnd(q, c, env.draw);
    EndKeepsInv(p, c, o.slot, env.draw);
  }

  /** The effects of one step of a live pooled slot keep the pool invariant
      (and, under the `Bounded` policy, the target bound). */
  lemma LiveEffectsKeepInv(p: Pool, c: nat, o: Out, env: Env, policy: SpawnPolicy)
    requires PoolInv(p) && c in p.slots && c !in p.separate
    requires !p.slots[c].ended && LiveShape(p.slots[c], o) && SlotInv(o.slot)
    requires o.slot.readyListener ==> p.slots[c].readyListener
    requires |o.effects| >= 1 && (o.effects[0].Invoke? || o.effects[0].Send?) ==> c in p.childs && c !in p.free
    ensures PoolInv(Interpret(p.(slots := p.slots[c := o.slot]), c, o.effects, env, policy).pool)
    ensures policy.Bounded? && Within(p) ==>
      Within(Interpret(p.(slots := p.slots[c := o.slot]), c, o.effects, env, policy).pool)
  {
    var q := p.(slots := p.slots[c := o.slot]);
    if o.effects == [] {
      UnlistedChangeKeepsInv(p, c, o.slot);
    } else if o.effects == [EmitReady] {
      ReadyEffectKeepsInv(p, c, o, env, policy);
    } else if |o.effects| == 1 && o.effects[0].Send? {
      UnlistedChangeKeepsInv(p, c, o.slot);
      InterpretSingle(q, c, o.effects, env, policy);
    } else if |o.effects| == 1 && o.effects[0].EmitEnd? {
      EndEffectKeepsInv(p, c, o, env, policy);
    } else if |o.effects| == 1 {
      ReturnEffectKeepsInv(p, c, o, env, policy);
    } else {
      ReturnThenEndKeepsInv(p, c, o, env, policy);
    }
  }

  /** Quiet effects (calls after the end, kill, crash) leave the pool as it is. */
  lemma {:induction false} QuietEffectsKeepPool(p: Pool, c: nat, effects: seq<Effect>, env: Env, policy: SpawnPolicy)
    requires c in p.slots && AllQuiet(effects)
    ensures Interpret(p, c, effects, env, policy).pool == p
    decreases |effects|
  {
    if effects != [] {
      assert Quiet(effects[0]);
      assert OnEffect(p, c, effects[0], env, policy).pool == p;
      assert AllQuiet(effects[1..]) by {
        forall i | 0 <= i < |effects[1..]| ensures Quiet(effects[1..][i]) {
          assert effects[1..][i] == effects[i + 1];
        }
      }
      QuietEffectsKeepPool(p, c, effects[1..], env, policy);
    }
  }

  /** Replacing a separate slot by one that keeps the slot invariant keeps
      the pool invariant. */
  lemma SeparateChangeKeepsInv(p: Pool, c: nat, t: Slot)
    requires PoolInv(p) && c in p.separate && SlotInv(t)
    ensures PoolInv(p.(slots := p.slots[c := t]))
  {
  }

  lemma SeparateEffectKeepsInv(p: Pool, c: nat, e: Effect, env: Env, policy: SpawnPolicy)
    requires PoolInv(p) && c in p.separate
    ensures var q := OnEffect(p, c, e, env, policy).pool;
      PoolInv(q) && q == p.(slots := q.slots)
  {
    if e.EmitReady? {
      var job := p.separate[c];
      var ev := Execute(job.taskId, job.callback, env.dead, env.connected);
      StepKeepsSlotInv(p.slots[c], ev);
      SeparateChangeKeepsInv(p, c, Step(p.slots[c], ev).slot);
    }
  }

  /** A separate slot's effects change nothing but that slot, which keeps
      the slot invariant. */
  lemma {:induction false} SeparateEffectsKeepInv(p: Pool, c: nat, effects: seq<Effect>, env: Env, policy: SpawnPolicy)
    requires PoolInv(p) && c in p.separate
    ensures var q := Interpret(p, c, effects, env, policy).pool;
      PoolInv(q) && q == p.(slots := q.slots)
    decreases |effects|
  {
    if effects != [] {
      var first := OnEffect(p, c, effects[0], env, policy);
      SeparateEffectKeepsInv(p, c, effects[0], env, policy);
      SeparateEffectsKeepInv(first.pool, c, effects[1..], env, policy);
    }
  }

  lemma ChildEventKeepsInv(p: Pool, c: nat, e: Event, env: Env, policy: SpawnPolicy)
    requires PoolInv(p) && c in p.slots && !e.Execute?
    ensures PoolInv(PoolStep(p, ChildEvent(c, e), env, policy).pool)
    ensures policy.Bounded? && Within(p) ==> Within(PoolStep(p, ChildEvent(c, e), env, policy).pool)
  {
    var s := p.slots[c];
    var o := Step(s, e);
    StepKeepsSlotInv(s, e);
    var q := p.(slots := p.slots[c := o.slot]);
    if c in p.separate {
      SeparateChangeKeepsInv(p, c, o.slot);
      SeparateEffectsKeepInv(q, c, o.effects, env, policy);
    } else if s.ended {
      EndedStepIsQuiet(s, e);
      assert PoolInv(q);
      QuietEffectsKeepPool(q, c, o.effects, env, policy);
    } else {
      LiveStepShape(s, e);
      StepCallsAtMostOne(s, e);
      if |o.effects| >= 1 && o.effects[0].Invoke? {
        assert Invoked(o.effects) != [];
      }
      LiveEffectsKeepInv(p, c, o, env, policy);
    }
  }

  /** Taking the first free slot off the free list keeps the invariant. */
  lemma TakeFirstFreeKeepsInv(p: Pool)
    requires PoolInv(p) && p.free != []
    ensures PoolInv(p.(free := Without(p.free, p.free[0])))
    ensures var c := p.free[0];
      c in p.childs && c in p.slots && c !in p.separate && Idle(p.slots[c])
      && !p.slots[c].ended && !p.slots[c].readyListener && SlotInv(p.slots[c])
  {
    WithoutKeepsNoDuplicates(p.free, p.free[0]);
  }

  lemma SubmitKeepsInv(p: Pool, job: Job, env: Env, policy: SpawnPolicy)
    requires PoolInv(p)
    ensures PoolInv(ExecuteOnPool(p, job, env, policy).pool)
    ensures policy.Bounded? && Within(p) ==> Within(ExecuteOnPool(p, job, env, policy).pool)
  {
    if p.free != [] {
      var c := p.free[0];
      var taken := p.(free := Without(p.free, c));
      TakeFirstFreeKeepsInv(p);
      var s := taken.slots[c];
      var e := Execute(job.taskId, job.callback, env.dead, env.connected);
      var o := Step(s, e);
      assert ExecuteOnPool(p, job, env, policy) == Interpret(taken.(slots := taken.slots[c := o.slot]), c, o.effects, env, policy);
      StepKeepsSlotInv(s, e);
      LiveStepShape(s, e);
      assert c !in taken.free;
      LiveEffectsKeepInv(taken, c, o, env, policy);
    }
  }

  /** Every pool event keeps the pool invariant: free slots are listed, idle
      and distinct; listed slots are live; starting slots are idle. Under the
      `Bounded` policy it also keeps listed plus starting slots within the target. */
  lemma PoolStepKeepsInv(p: Pool, ev: PoolEvent, env: Env, policy: SpawnPolicy)
    requires PoolInv(p)
    requires ev.ChildEvent? ==> ev.child in p.slots && !ev.event.Execute?
    ensures PoolInv(PoolStep(p, ev, env, policy).pool)
    ensures policy.Bounded? && Within(p) ==> Within(PoolStep(p, ev, env, policy).pool)
  {
    match ev
    case ChildEvent(c, e) => ChildEventKeepsInv(p, c, e, env, policy);
    case Submit(job) => SubmitKeepsInv(p, job, env, policy);
    case SubmitSeparate(job) =>
      SpawnSatisfiesSlotInv(p.nextId, env.draw);
      assert p.nextId !in p.slots;
  }

  /** A run of pool events from a pool satisfying the invariant. An event
      for a slot the pool never spawned, or a direct `executeTask` on a slot,
      cannot occur and ends the run. */
  function RunPool(p: Pool, events: seq<PoolEvent>, env: Env, policy: SpawnPolicy): (h: Handled)
    requires PoolInv(p)
    ensures PoolInv(h.pool) && h.pool.target == p.target
    ensures policy.Bounded? && Within(p) ==> Within(h.pool)
    decreases |events|
  {
    if events == [] then Handled(p, [])
    else if events[0].ChildEvent? && (events[0].child !in p.slots || events[0].event.Execute?) then Handled(p, [])
    else
      PoolStepKeepsInv(p, events[0], env, policy);
      var first := PoolStep(p, events[0], env, policy);
      var rest := RunPool(first.pool, events[1..], env, policy);
      Handled(rest.pool, first.notices + rest.notices)
  }

  /** Under the `Bounded` policy no run from a new pool ever lists more
      slots than `childsLength`. */
  lemma BoundedPoolNeverExceedsTarget(childsLength: int, draw: nat, events: seq<PoolEvent>, env: Env)
    requires childsLength >= 2
    ensures var p := NewPool(childsLength, draw).pool;
      PoolInv(p) && |RunPool(p, events, env, Bounded).pool.childs| <= childsLength
  {
    NewPoolSatisfiesInv(childsLength, draw);
  }

  /** Separate notices never start the scheduler. */
  lemma {:induction false} RelayAllHasNoInit(c: nat, effects: seq<Effect>)
    ensures Init !in RelayAll(c, effects)
    decreases |effects|
  {
    if effects != [] {
      RelayAllHasNoInit(c, effects[1..]);
      assert Init !in Relay(c, effects[0]);
    }
  }

  /** The pool becomes ready exactly when it gives `Init`, at most once, and
      stays ready. */
  predicate InitOnce(p: Pool, h: Handled) {
    && multiset(h.notices)[Init] <= (if p.ready then 0 else 1)
    && (h.pool.ready <==> p.ready || multiset(h.notices)[Init] > 0)
  }

  lemma OnEffectInitOnce(p: Pool, c: nat, e: Effect, env: Env, policy: SpawnPolicy)
    requires c in p.slots
    ensures InitOnce(p, OnEffect(p, c, e, env, policy))
  {
    var h := OnEffect(p, c, e, env, policy);
    if c in p.separate {
      if e.EmitReady? {
        var job := p.separate[c];
        RelayAllHasNoInit(c, ExecuteTask(p.slots[c], job.taskId, job.callback, env.dead, env.connected).effects);
      }
      assert Init !in h.notices;
    } else if e.EmitReady? {
      assert |h.notices| <= 1;
      if Init in h.notices {
        assert h.notices == [Init];
      } else {
        assert multiset(h.notices)[Init] == 0;
      }
    }
  }

  lemma {:induction false} InterpretInitOnce(p: Pool, c: nat, effects: seq<Effect>, env: Env, policy: SpawnPolicy)
    requires c in p.slots
    ensures InitOnce(p, Interpret(p, c, effects, env, policy))
    decreases |effects|
  {
    if effects != [] {
      var first := OnEffect(p, c, effects[0], env, policy);
      OnEffectInitOnce(p, c, effects[0], env, policy);
      InterpretInitOnce(first.pool, c, effects[1..], env, policy);
      var rest := Interpret(first.pool, c, effects[1..], env, policy);
      assert multiset(first.notices + rest.notices) == multiset(first.notices) + multiset(rest.notices);
    }
  }

  lemma PoolStepInitOnce(p: Pool, ev: PoolEvent, env: Env, policy: SpawnPolicy)
    requires WellFormed(p)
    requires ev.ChildEvent? ==> ev.child in p.slots && !ev.event.Execute?
    ensures InitOnce(p, PoolStep(p, ev, env, policy))
  {
    match ev
    case ChildEvent(c, e) =>
      var o := Step(p.slots[c], e);
      InterpretInitOnce(p.(slots := p.slots[c := o.slot]), c, o.effects, env, policy);
    case Submit(job) =>
      if p.free != [] {
        var c := p.free[0];
        var taken := p.(free := Without(p.free, c));
        var o := ExecuteTask(taken.slots[c], job.taskId, job.callback, env.dead, env.connected);
        InterpretInitOnce(taken.(slots := taken.slots[c := o.slot]), c, o.effects, env, policy);
      }
    case SubmitSeparate(_) =>
  }

  /** Over any run the scheduler is started at most once, and never by a
      pool that was already ready. */
  lemma {:induction false} InitAtMostOnce(p: Pool, events: seq<PoolEvent>, env: Env, policy: SpawnPolicy)
    requires PoolInv(p)
    ensures InitOnce(p, RunPool(p, events, env, policy))
    decreases |events|
  {
    if events != [] && !(events[0].ChildEvent? && (events[0].child !in p.slots || events[0].event.Execute?)) {
      PoolStepKeepsInv(p, events[0], env, policy);
      PoolStepInitOnce(p, events[0], env, policy);
      var first := PoolStep(p, events[0], env, policy);
      InitAtMostOnce(first.pool, events[1..], env, policy);
      var rest := RunPool(first.pool, events[1..], env, policy);
      assert multiset(first.notices + rest.notices) == multiset(first.notices) + multiset(rest.notices);
    }
  }

  /** A job given to the pool goes to the first free slot: a ready slot takes
      it and leaves the free list; any other free slot answers the job's
      callback at once with the reason it refused. */
  lemma SubmitTakesFirstFree(p: Pool, job: Job, env: Env, policy: SpawnPolicy)
    requires PoolInv(p) && p.free != []
    ensures var h := PoolStep(p, Submit(job), env, policy);
      var c := p.free[0];
      var refusal := Refusal(p.slots[c], env.dead, env.connected);
      && (refusal.None? ==>
            && h.notices == [SendTo(c, Protocol.ToChild(Some(job.taskId)))]
            && c !in h.pool.free && h.pool.free == Without(p.free, c)
            && h.pool.childs == p.childs && h.pool.separate == p.separate && c in h.pool.slots
            && var s, t := p.slots[c], h.pool.slots[c];
            && t.executingId == Some(job.taskId) && t.executingCallback == Some(job.callback)
            && t.replyListeners == s.replyListeners + [s.nextTimer]
            && t.tasksDone == s.tasksDone && t.tasksLimit == s.tasksLimit && t.worker == s.worker
            && !t.ended && !t.readyListener && SlotInv(t))
      && (refusal.Some? ==> |h.notices| >= 1 && h.notices[0] == Answer(job.callback, refusal, p.slots[c].worker))
  {
    var c := p.free[0];
    var taken := p.(free := Without(p.free, c));
    var run := ExecuteTask(taken.slots[c], job.taskId, job.callback, env.dead, env.connected);
    var q := taken.(slots := taken.slots[c := run.slot]);
    assert p.slots[c].worker.Some?;
    if Refusal(p.slots[c], env.dead, env.connected).None? {
      assert run.effects == [Send(Protocol.ToChild(Some(job.taskId)))];
      InterpretSingle(q, c, run.effects, env, policy);
    } else {
      var first := OnEffect(q, c, run.effects[0], env, policy);
      assert first.notices == [Answer(job.callback, Refusal(p.slots[c], env.dead, env.connected), p.slots[c].worker)];
    }
  }

  /** The pool's side of a matching reply to a listed slot running a job:
      the caller is answered with the worker's error, and the slot goes back
      to the tail of the free list, unless the job was its last, in which
      case the slot ends, is unlisted and is replaced. */
  lemma MatchingReplyFreesSlot(q: Pool, c: nat, id: TaskId, err: Option<string>, env: Env, policy: SpawnPolicy)
    requires WellFormed(q) && c in q.slots && c !in q.separate && c !in q.free
    requires var s := q.slots[c];
      && SlotInv(s) && !s.ended && !s.readyListener
      && id != "" && s.executingId == Some(id) && s.executingCallback.Some? && |s.replyListeners| == 1
    ensures var s := q.slots[c];
      var h := PoolStep(q, ChildEvent(c, Message(Protocol.Reply(id, err))), env, policy);
      var last := s.tasksDone + 1 == s.tasksLimit;
      && h.notices == [Answer(s.executingCallback.value, WorkerError(err), s.worker)]
      && h.pool.free == (if last then q.free else q.free + [c])
      && h.pool.childs == (if last then Without(q.childs, c) else q.childs)
  {
    var s := q.slots[c];
    MatchingReplySettles(s, id, err);
    var o := Step(s, Message(Protocol.Reply(id, err)));
    var answer := Invoke(s.executingCallback.value, WorkerError(err), s.worker, false);
    var q2 := q.(slots := q.slots[c := o.slot]);
    var first := OnEffect(q2, c, answer, env, policy);
    if o.slot.ended {
      assert o.effects == [answer, EmitEnd(Some(LimitReached))];
      InterpretPair(q2, c, o.effects, env, policy);
      InterpretSingle(first.pool, c, o.effects[1..], env, policy);
      WithoutAppended(q.free, c);
    } else {
      assert o.effects == [answer];
      InterpretSingle(q2, c, o.effects, env, policy);
    }
  }

  /** A job taken by the first free slot comes back through the pool's
      wrapper callback: the matching reply answers the job's caller with the
      worker's error, and the slot goes back to the tail of the free list,
      unless the job was its last, in which case it is unlisted and replaced. */
  lemma SubmitThenReplyReturnsSlot(p: Pool, job: Job, err: Option<string>, env: Env, policy: SpawnPolicy)
    requires PoolInv(p) && p.free != [] && job.taskId != ""
    requires Refusal(p.slots[p.free[0]], env.dead, env.connected).None?
    requires p.slots[p.free[0]].replyListeners == []
    ensures var c := p.free[0];
      var h1 := PoolStep(p, Submit(job), env, policy);
      && PoolInv(h1.pool) && c in h1.pool.slots
      && var h2 := PoolStep(h1.pool, ChildEvent(c, Message(Protocol.Reply(job.taskId, err))), env, policy);
      var last := p.slots[c].tasksDone + 1 == p.slots[c].tasksLimit;
      && h1.notices + h2.notices == [SendTo(c, Protocol.ToChild(Some(job.taskId))), Answer(job.callback, WorkerError(err), p.slots[c].worker)]
      && h2.pool.free == (if last then Without(p.free, c) else Without(p.free, c) + [c])
      && (c in h2.pool.childs <==> !last)
  {
    var c := p.free[0];
    SubmitTakesFirstFree(p, job, env, policy);
    PoolStepKeepsInv(p, Submit(job), env, policy);
    var h1 := PoolStep(p, Submit(job), env, policy);
    MatchingReplyFreesSlot(h1.pool, c, job.taskId, err, env, policy);
  }

  /** A pooled slot as it is once its `ready` message has been handled. */
  function StartedSlot(c: nat, draw: nat): Slot {
    Spawn(c, draw).(ready := true, readyListener := false)
  }

  /** The `ready` message of a freshly spawned pooled slot lists it, and as
      written spawns the next slot while the listed slots are short of the
      target. */
  lemma FreshSlotReadyAsWritten(p: Pool, c: nat, env: Env)
    requires WellFormed(p) && c in p.slots && c !in p.separate && p.slots[c] == Spawn(c, env.draw)
    ensures var h := PoolStep(p, ChildEvent(c, Message(Protocol.ReadyMessage)), env, AsWritten);
      && h.pool.childs == p.childs + [c] && h.pool.separate == p.separate
      && c in h.pool.slots && h.pool.slots[c] == StartedSlot(c, env.draw)
      && (forall k :: k in p.slots && k != c ==> k in h.pool.slots && h.pool.slots[k] == p.slots[k])
      && (|p.childs| + 1 < p.target ==>
            && h.pool.nextId == p.nextId + 1
            && p.nextId in h.pool.slots && h.pool.slots[p.nextId] == Spawn(p.nextId, env.draw))
  {
    var o := Step(p.slots[c], Message(Protocol.ReadyMessage));
    assert o == Out(StartedSlot(c, env.draw), [EmitReady]);
    var q := p.(slots := p.slots[c := o.slot]);
    InterpretSingle(q, c, o.effects, env, AsWritten);
  }

  /** The exit of a listed slot unlists it and spawns its replacement. */
  lemma StartedSlotExits(p: Pool, c: nat, code: int, env: Env, policy: SpawnPolicy)
    requires WellFormed(p) && c in p.slots && c !in p.separate && p.slots[c] == StartedSlot(c, env.draw)
    ensures var h := PoolStep(p, ChildEvent(c, Exit(code)), env, policy);
      && h.pool.childs == Without(p.childs, c) && h.pool.separate == p.separate
      && c in h.pool.slots
      && (forall k :: k in p.slots && k != c ==> k in h.pool.slots && h.pool.slots[k] == p.slots[k])
      && h.pool.nextId == p.nextId + 1
      && p.nextId in h.pool.slots && h.pool.slots[p.nextId] == Spawn(p.nextId, env.draw)
  {
    var o := Step(p.slots[c], Exit(code));
    assert o.effects == [EmitEnd(Some(ExitCode(code)))];
    var q := p.(slots := p.slots[c := o.slot]);
    InterpretSingle(q, c, o.effects, env, policy);
  }

  /** The over-spawning run below, one event at a time: each stage is a pool
      described by its listed slots and its not-yet-ready slots, and states
      how many slots the rest of the run leaves listed. */
  const OverSpawnEnv := Env(0, false, true)
  const ReadyEvent := Message(Protocol.ReadyMessage)

  lemma OverSpawnLast(p: Pool)
    requires PoolInv(p) && p.separate == map[] && p.childs == [1, 2] && 3 in p.slots && p.slots[3] == Spawn(3, 0)
    ensures |RunPool(p, [ChildEvent(3, ReadyEvent)], OverSpawnEnv, AsWritten).pool.childs| == 3
  {
    FreshSlotReadyAsWritten(p, 3, OverSpawnEnv);
    var events := [ChildEvent(3, ReadyEvent)];
    assert events[1..] == [];
  }

  lemma OverSpawnFourth(p: Pool)
    requires PoolInv(p) && p.separate == map[] && p.target == 2 && p.childs == [1]
    requires 2 in p.slots && p.slots[2] == Spawn(2, 0) && 3 in p.slots && p.slots[3] == Spawn(3, 0)
    ensures |RunPool(p, [ChildEvent(2, ReadyEvent), ChildEvent(3, ReadyEvent)], OverSpawnEnv, AsWritten).pool.childs| == 3
  {
    var events := [ChildEvent(2, ReadyEvent), ChildEvent(3, ReadyEvent)];
    FreshSlotReadyAsWritten(p, 2, OverSpawnEnv);
    PoolStepKeepsInv(p, events[0], OverSpawnEnv, AsWritten);
    var q := PoolStep(p, events[0], OverSpawnEnv, AsWritten).pool;
    OverSpawnLast(q);
    assert events[1..] == [ChildEvent(3, ReadyEvent)];
  }

  lemma OverSpawnThird(p: Pool)
    requires PoolInv(p) && p.separate == map[] && p.target == 2 && p.childs == []
    requires 1 in p.slots && p.slots[1] == Spawn(1, 0) && 2 in p.slots && p.slots[2] == Spawn(2, 0) && p.nextId == 3
    ensures |RunPool(p, [ChildEvent(1, ReadyEvent), ChildEvent(2, ReadyEvent), ChildEvent(3, ReadyEvent)],
                     OverSpawnEnv, AsWritten).pool.childs| == 3
  {
    var events := [ChildEvent(1, ReadyEvent), ChildEvent(2, ReadyEvent), ChildEvent(3, ReadyEvent)];
    FreshSlotReadyAsWritten(p, 1, OverSpawnEnv);
    PoolStepKeepsInv(p, events[0], OverSpawnEnv, AsWritten);
    var q := PoolStep(p, events[0], OverSpawnEnv, AsWritten).pool;
    OverSpawnFourth(q);
    assert events[1..] == [ChildEvent(2, ReadyEvent), ChildEvent(3, ReadyEvent)];
  }

  lemma OverSpawnSecond(p: Pool)
    requires PoolInv(p) && p.separate == map[] && p.target == 2 && p.childs == [0]
    requires 0 in p.slots && p.slots[0] == StartedSlot(0, 0) && 1 in p.slots && p.slots[1] == Spawn(1, 0) && p.nextId == 2
    ensures |RunPool(p, [ChildEvent(0, Exit(1)), ChildEvent(1, ReadyEvent), ChildEvent(2, ReadyEvent),
                         ChildEvent(3, ReadyEvent)], OverSpawnEnv, AsWritten).pool.childs| == 3
  {
    var events := [ChildEvent(0, Exit(1)), ChildEvent(1, ReadyEvent), ChildEvent(2, ReadyEvent), ChildEvent(3, ReadyEvent)];
    StartedSlotExits(p, 0, 1, OverSpawnEnv, AsWritten);
    PoolStepKeepsInv(p, events[0], OverSpawnEnv, AsWritten);
    var q := PoolStep(p, events[0], OverSpawnEnv, AsWritten).pool;
    OverSpawnThird(q);
    assert events[1..] == [ChildEvent(1, ReadyEvent), ChildEvent(2, ReadyEvent), ChildEvent(3, ReadyEvent)];
  }

  /** Counterexample to the pool's size bound as written: with two childs
      wanted, a slot that exits after it was listed is replaced while its
      own ready listener has already spawned the next slot, so three slots
      end up listed. */
  lemma AsWrittenPoolOverSpawns()
    ensures var p := NewPool(2, 0).pool;
      var events := [ChildEvent(0, ReadyEvent), ChildEvent(0, Exit(1)), ChildEvent(1, ReadyEvent),
                     ChildEvent(2, ReadyEvent), ChildEvent(3, ReadyEvent)];
      PoolInv(p) && |RunPool(p, events, OverSpawnEnv, AsWritten).pool.childs| == 3 > p.target
  {
    NewPoolSatisfiesInv(2, 0);
    var p := NewPool(2, 0).pool;
    var events := [ChildEvent(0, ReadyEvent), ChildEvent(0, Exit(1)), ChildEvent(1, ReadyEvent),
                   ChildEvent(2, ReadyEvent), ChildEvent(3, ReadyEvent)];
    assert p.slots == map[0 := Spawn(0, 0)] && p.nextId == 1 && p.separate == map[];
    FreshSlotReadyAsWritten(p, 0, OverSpawnEnv);
    PoolStepKeepsInv(p, events[0], OverSpawnEnv, AsWritten);
    var q := PoolStep(p, events[0], OverSpawnEnv, AsWritten).pool;
    OverSpawnSecond(q);
    assert events[1..] == [ChildEvent(0, Exit(1)), ChildEvent(1, ReadyEvent), ChildEvent(2, ReadyEvent), ChildEvent(3, ReadyEvent)];
  }
}

=== FILE: protocol.dfy ===
/** The messages between the scheduler process and a worker process
    (`worker.send` / `process.send`). */
module Protocol {
  import opened Common

  /** Parent to child: `{ taskId }`. */
  datatype ToChild = ToChild(taskId: Option<string>)

  /** Child to parent: `{ ready: true }` at start-up, `{ taskId, err }` as a
      reply. A field the sender leaves out is `false` / `None`. */
  datatype ToParent = ToParent(ready: bool, taskId: Option<string>, err: Option<string>)

  const ReadyMessage := ToParent(true, None, None)

  function Reply(taskId: string, err: Option<string>): ToParent {
    ToParent(false, Some(taskId), err)
  }

  /** A worker process's output: `{ ready: true }` once at start-up, then
      its replies in order. The process announces itself exactly once, first. */
  function Announced(replies: seq<ToParent>): (out: seq<ToParent>)
    requires forall i :: 0 <= i < |replies| ==> !replies[i].ready
    ensures |out| == |replies| + 1 && out[1..] == replies
    ensures forall i :: 0 <= i < |out| ==> (out[i].ready <==> i == 0)
  {
    [ReadyMessage] + replies
  }
}

=== FILE: redisqueue.dfy ===
/** The admission step of the newer dispatcher (`RedisQueue` in
    lib/TaskDispatcher/RedisQueue.js): for each listed job take the job lock,
    then the throttle lock, then the singleton lock through redlock, and only
    then hand the job to `runTask`; a busy throttle refuses the job, a busy
    job or singleton lock skips it. Redlock's answers are inputs. */
module RedisQueue {
  import opened Common

  /** The job list entry (`tasks:list`). Missing `options` fields are falsy;
      `throttleTimeout` is 0 when unset. */
  datatype QueueOptions = QueueOptions(singleton: bool, throttle: bool, trailing: bool, throttleTimeout: int)

  datatype QueueTask = QueueTask(id: string, uniqId: Option<string>, options: QueueOptions, num: Option<int>)

  /** The environment numbers `WORKER_TASK_DEFAULT_TIMEOUT`,
      `WORKER_MONGO_QUERY_TIMEOUT` and `WORKER_THROTTLE_TIMEOUT`. */
  datatype Config = Config(taskTimeout: int, mongoQueryTimeout: int, throttleTimeout: int)

  /** Whether redlock grants each of the three locks if it is asked for it. */
  datatype Grants = Grants(task: bool, throttle: bool, singleton: bool)

  /** `redlock.lock(key, ttl)`. */
  datatype Request = Request(key: string, ttl: int)

  /** `runTask(taskId, status, statusError)`. */
  datatype RunCall = RunCall(status: string, statusError: Option<string>)

  const Executing := RunCall("executing", None)
  const RefusedByThrottle := RunCall("refused", Some("Throttle"))

  /** What one `handleTask` does: the lock requests in the order made, the
      `runTask` call, the delay after which the job lock is released (`None`
      when it was not taken), whether the singleton lock is released, and
      whether a throttle lock is held (it is never released, only expires). */
  datatype Handled = Handled(requests: seq<Request>, run: Option<RunCall>, taskUnlockAfter: Option<int>,
                             singletonUnlocked: bool, throttleHeld: bool)

  function TaskRequest(t: QueueTask, cfg: Config): Request {
    Request("tasks:regular:" + t.id, cfg.taskTimeout + cfg.mongoQueryTimeout)
  }

  /** The throttle window: the job's own `throttleTimeout` when truthy. */
  function ThrottleRequest(t: QueueTask, cfg: Config): Request {
    Request("tasks:throttle:" + KeyPart(t.uniqId),
            if t.options.throttleTimeout != 0 then t.options.throttleTimeout else cfg.throttleTimeout)
  }

  function SingletonRequest(t: QueueTask, cfg: Config): Request {
    Request("tasks:singleton:" + KeyPart(t.uniqId), cfg.taskTimeout)
  }

  /** The locks a job asks for when every one is granted, in the fixed order
      job, throttle, singleton. */
  function Plan(t: QueueTask, cfg: Config): (plan: seq<Request>)
    ensures |plan| >= 1 && plan[0] == TaskRequest(t, cfg)
  {
    [TaskRequest(t, cfg)]
    + (if t.options.throttle then [ThrottleRequest(t, cfg)] else [])
    + (if t.options.singleton then [SingletonRequest(t, cfg)] else [])
  }

  /** A busy throttle lets the job through only for a trailing throttle when
      the job is the last of its kind (`num === 1`). */
  predicate ThrottlePasses(t: QueueTask, g: Grants) {
    !t.options.throttle || g.throttle || (t.options.trailing && t.num == Some(1))
  }

  /** `handleTask(task)`. */
  function HandleTask(t: QueueTask, cfg: Config, g: Grants): (r: Handled)
    ensures r.requests <= Plan(t, cfg) && |r.requests| >= 1
    ensures r.run == Some(Executing) <==> g.task && ThrottlePasses(t, g) && (!t.options.singleton || g.singleton)
    ensures r.run == Some(RefusedByThrottle) <==> g.task && !ThrottlePasses(t, g)
    ensures r.run.Some? ==> r.run == Some(Executing) || r.run == Some(RefusedByThrottle)
    ensures r.run == Some(Executing) ==> r.requests == Plan(t, cfg)
    ensures !g.task ==> r == Handled([TaskRequest(t, cfg)], None, None, false, false)
    ensures r.taskUnlockAfter == if !g.task then None
                                 else if r.run.Some? then Some(cfg.mongoQueryTimeout + 100) else Some(0)
    ensures r.singletonUnlocked <==> r.run == Some(Executing) && t.options.singleton
    ensures r.throttleHeld <==> g.task && t.options.throttle && g.throttle
  {
    var task := [TaskRequest(t, cfg)];
    if !g.task then Handled(task, None, None, false, false)
    else
      var throttled := task + (if t.options.throttle then [ThrottleRequest(t, cfg)] else []);
      var throttleHeld := t.options.throttle && g.throttle;
      if !ThrottlePasses(t, g) then
        Handled(throttled, Some(RefusedByThrottle), Some(cfg.mongoQueryTimeout + 100), false, throttleHeld)
      else if !t.options.singleton then
        Handled(throttled, Some(Executing), Some(cfg.mongoQueryTimeout + 100), false, throttleHeld)
      else
        var all := throttled + [SingletonRequest(t, cfg)];
        if !g.singleton then Handled(all, None, Some(0), false, throttleHeld)
        else Handled(all, Some(Executing), Some(cfg.mongoQueryTimeout + 100), true, throttleHeld)
  }

  /** A lock is asked for only after every lock before it in the order was
      granted (or, for the throttle, let through): with the prefix property of
      `HandleTask`, this says exactly which requests a job makes. */
  lemma LocksInOrder(t: QueueTask, cfg: Config, g: Grants)
    ensures |HandleTask(t, cfg, g).requests| ==
      1 + (if g.task && t.options.throttle then 1 else 0)
        + (if g.task && ThrottlePasses(t, g) && t.options.singleton then 1 else 0)
  {
  }

  /** A job lock that is not granted skips the job: no status is written
      and no lock is held. */
  lemma TaskLockBusySkips(t: QueueTask, cfg: Config, g: Grants)
    requires !g.task
    ensures var r := HandleTask(t, cfg, g);
      r.run.None? && r.taskUnlockAfter.None? && !r.singletonUnlocked && !r.throttleHeld
  {
  }

  /** A busy throttle refuses the job with "Throttle" unless it is a trailing
      throttle and the job is the last of its kind, which goes on to the
      singleton lock. */
  lemma ThrottleBusyRefuses(t: QueueTask, cfg: Config, g: Grants)
    requires g.task && t.options.throttle && !g.throttle
    ensures var r := HandleTask(t, cfg, g);
      && (r.run == Some(RefusedByThrottle) <==> !(t.options.trailing && t.num == Some(1)))
      && (t.options.trailing && t.num == Some(1) ==>
            r.run == (if !t.options.singleton || g.singleton then Some(Executing) else None))
  {
  }

  /** A busy singleton lock skips the job without refusing it; the job lock
      is released at once. */
  lemma SingletonBusySkips(t: QueueTask, cfg: Config, g: Grants)
    requires g.task && ThrottlePasses(t, g) && t.options.singleton && !g.singleton
    ensures var r := HandleTask(t, cfg, g);
      r.run.None? && r.taskUnlockAfter == Some(0) && !r.singletonUnlocked
  {
  }

  /** The raw `GET tasks:list` reply: a Redis error, no value, or a text that
      is malformed JSON, `null`, an array of jobs or any other JSON value. */
  datatype Json = Malformed | JsonNull | JsonArray(tasks: seq<QueueTask>) | OtherJson
  datatype ListReply = ReadError | Nil | Text(json: Json)

  /** `getTaskList()`: a Redis error or malformed JSON give `[]`; a missing
      key gives Redis `null`, which the `"[]"` default does not replace. */
  function GetTaskList(reply: ListReply): (v: Json)
    ensures v != Malformed
    ensures (reply == ReadError || reply == Text(Malformed)) ==> v == JsonArray([])
    ensures reply.Text? && reply.json != Malformed ==> v == reply.json
  {
    match reply
    case ReadError => JsonArray([])
    case Nil => JsonNull
    case Text(json) => if json == Malformed then JsonArray([]) else json
  }

  /** `doLoop`: the jobs handed to `handleTasks`; a falsy value becomes `[]`.
      Any other non-array value is taken as no jobs. */
  function LoopTasks(reply: ListReply): (tasks: seq<QueueTask>)
    ensures tasks != [] ==> reply.Text? && reply.json == JsonArray(tasks)
  {
    match GetTaskList(reply)
    case JsonArray(tasks) => tasks
    case _ => []
  }

  /** The loop works on the stored jobs exactly when the stored text is a
      JSON array; every failure to read or parse the list means no jobs. */
  lemma LoopTasksFallback(reply: ListReply)
    ensures (reply.Text? && reply.json.JsonArray?) ==> LoopTasks(reply) == reply.json.tasks
    ensures !(reply.Text? && reply.json.JsonArray?) ==> LoopTasks(reply) == []
  {
  }
}

=== FILE: tasks.dfy ===
/** The job record kept in the job store (`tasks` collection), its status
    values, and the partial updates (`model.setEach`) the scheduler applies. */
module Tasks {
  import opened Common

  type TaskId = string

  datatype Status = New | Waiting | Executing | Done | Error | Refused

  /** `task.options`; `timeout` is the throttle window in ms, 0 when unset
      (falsy); nothing keeps it from being negative. */
  datatype Options = Options(singleton: bool, throttle: bool, trailing: bool, timeout: int)

  /** A job record. Absent fields are `None`; `actionType` is the record's `type`. */
  datatype Task = Task(
    id: TaskId,
    uniqId: Option<string>,
    actionType: Option<string>,
    status: Status,
    options: Option<Options>,
    separate: bool,
    createdAt: int,
    startTime: Option<int>,
    waitingTime: Option<int>,
    executingTime: Option<int>,
    doneTime: Option<int>,
    errorTime: Option<int>,
    refusedTime: Option<int>,
    error: Option<string>)

  /** The job store: records by id. */
  type Store = map<TaskId, Task>

  /** The partial updates written by the scheduler; each sets a status and its time stamp. */
  datatype Patch =
    | ToWaiting(at: int)
    | ToRefused(reason: string, at: int)
    | ToExecuting(at: int)
    | ToDone(at: int)
    | ToError(reason: string, at: int)

  /** The status a patch writes. */
  function Target(p: Patch): Status {
    match p
    case ToWaiting(_) => Waiting
    case ToRefused(_, _) => Refused
    case ToExecuting(_) => Executing
    case ToDone(_) => Done
    case ToError(_, _) => Error
  }

  /** One partial update: only the fields named by the patch change. */
  function Apply(t: Task, p: Patch): (r: Task)
    ensures r.status == Target(p)
    ensures r.id == t.id && r.uniqId == t.uniqId && r.options == t.options
    ensures r.actionType == t.actionType && r.createdAt == t.createdAt
  {
    match p
    case ToWaiting(at) => t.(status := Waiting, waitingTime := Some(at))
    case ToRefused(reason, at) => t.(status := Refused, error := Some(reason), refusedTime := Some(at))
    case ToExecuting(at) => t.(status := Executing, executingTime := Some(at))
    case ToDone(at) => t.(status := Done, doneTime := Some(at))
    case ToError(reason, at) => t.(status := Error, error := Some(reason), errorTime := Some(at))
  }

  /** `model.setEach('tasks.' + id, fields)`: updates the stored record and nothing else.
      A record that is not in the store is left absent. */
  function SetEach(s: Store, id: TaskId, p: Patch): (r: Store)
    ensures r.Keys == s.Keys
    ensures id in s ==> r[id] == Apply(s[id], p)
    ensures forall k :: k in s && k != id ==> r[k] == s[k]
  {
    if id in s then s[id := Apply(s[id], p)] else s
  }

  /** The status changes the orchestration loops can make to one record:
      admission moves `new`, timed-out `waiting` and timed-out `executing`
      records to `waiting` or `refused`; dispatch moves `waiting` to
      `executing` and `executing` to `done` or `error`. */
  predicate Permitted(from: Status, to: Status) {
    from == to
    || (from in {New, Waiting, Executing} && to in {Waiting, Refused})
    || (from == Waiting && to == Executing)
    || (from == Executing && to in {Done, Error})
  }

  /** The admission query: new records (without a start time or whose start
      time has passed), and waiting/executing records whose time stamp is older
      than the given timeouts. */
  predicate Eligible(t: Task, now: int, waitingTimeout: int, executingTimeout: int) {
    match t.status
    case New => t.startTime.None? || t.startTime.value < now
    case Waiting => t.waitingTime.Some? && t.waitingTime.value < now - waitingTimeout
    case Executing => t.executingTime.Some? && t.executingTime.value < now - executingTimeout
    case _ => false
  }
}

=== FILE: validation.dfy ===
/** The checks a worker process makes before it runs a job, shared by
    lib/Worker/executor.js and worker/index.js: the record must exist, be
    `executing`, name an action type, and that type must be registered. The
    record lookup and the action registry are inputs. */
module Validation {
  import opened Common
  import opened Tasks

  datatype Rejection = NoTask | NotExecuting(status: Status) | NoActionType | NoAction

  /** The result of the checks: the first failing check, or the record and
      the registered action to run. */
  datatype Checked<A> = Rejected(why: Rejection) | Valid(task: Task, action: A)

  /** The status as stored, for error messages. */
  function StatusName(s: Status): (name: string)
    ensures name == "executing" <==> s == Executing
  {
    match s
    case New => "new"
    case Waiting => "waiting"
    case Executing => "executing"
    case Done => "done"
    case Error => "error"
    case Refused => "refused"
  }

  /** The checks, in the order both workers make them. */
  function Validate<A>(found: Option<Task>, actions: map<string, A>): (c: Checked<A>)
    ensures c == Rejected(NoTask) <==> found.None?
    ensures c.Rejected? && c.why.NotExecuting? <==> found.Some? && found.value.status != Executing
    ensures c.Rejected? && c.why.NotExecuting? ==> c.why.status == found.value.status
    ensures c == Rejected(NoActionType) <==>
      found.Some? && found.value.status == Executing && !Present(found.value.actionType)
    ensures c == Rejected(NoAction) <==>
      && found.Some? && found.value.status == Executing && Present(found.value.actionType)
      && found.value.actionType.value !in actions
    ensures c.Valid? <==>
      && found.Some? && found.value.status == Executing && Present(found.value.actionType)
      && found.value.actionType.value in actions
    ensures c.Valid? ==> c.task == found.value && c.action == actions[found.value.actionType.value]
  {
    match found
    case None => Rejected(NoTask)
    case Some(t) =>
      if t.status != Executing then Rejected(NotExecuting(t.status))
      else if !Present(t.actionType) then Rejected(NoActionType)
      else if t.actionType.value !in actions then Rejected(NoAction)
      else Valid(t, actions[t.actionType.value])
  }

  /** The record a lookup in the job store finds. */
  function Lookup(s: Store, id: TaskId): (found: Option<Task>)
    ensures found.Some? <==> id in s
    ensures found.Some? ==> found.value == s[id]
  {
    if id in s then Some(s[id]) else None
  }
}

=== FILE: workerprocess.dfy ===
/** The worker process of the orchestration scheduler (worker/index.js):
    every `{ taskId }` message validates the record and runs the registered
    action; every call of the completion callback is answered with
    `{ taskId, err }`. Failed checks report a plain string. How many times
    an action calls its callback, and whether it throws, are inputs; nothing
    catches a throw, so it ends the process. */
module WorkerProcess {
  import opened Common
  import opened Tasks
  import opened Validation
  import Protocol

  /** A registered action, by the number of times it calls its callback
      (0 when it never does) and whether its call then throws. */
  datatype WorkerAction = WorkerAction(callbacks: nat, throws: bool)

  /** What `executeTask` does: the errors `done` receives, in order, and
      whether the action's throw escapes and ends the process. */
  datatype TaskRun = TaskRun(calls: seq<Option<string>>, exits: bool)

  /** One delivered message, and whether the record fetch it starts fails.
      The `fetch` callback ignores its error, so a failed fetch reads no
      record, whatever the store holds. */
  datatype Delivery = Delivery(data: Option<Protocol.ToChild>, fetchFails: bool)

  /** The record the `fetch` callback sees. */
  function Fetched(s: Store, id: TaskId, fetchFails: bool): (found: Option<Task>)
    ensures found.Some? <==> !fetchFails && id in s
    ensures found.Some? ==> found.value == s[id]
  {
    if fetchFails then None else Lookup(s, id)
  }

  /** The string each failed check reports. */
  function RejectionText(why: Rejection): string {
    match why
    case NoTask => "No task with such taskId"
    case NotExecuting(status) => "Task status is not executing: " + StatusName(status)
    case NoActionType => "No action type in task"
    case NoAction => "No action to execute: undefined"
  }

  /** `executeTask(taskId, done)`: a failed check calls `done` once with its
      string; a valid record runs the action, whose every completion calls it
      without an error, and whose throw, with no `try` around the call,
      escapes the `fetch` callback and ends the process. */
  function ExecuteTask(s: Store, id: TaskId, actions: map<string, WorkerAction>, fetchFails: bool): (r: TaskRun)
    ensures Validate(Fetched(s, id, fetchFails), actions).Rejected? ==>
      r == TaskRun([Some(RejectionText(Validate(Fetched(s, id, fetchFails), actions).why))], false)
    ensures Validate(Fetched(s, id, fetchFails), actions).Valid? ==>
      && |r.calls| == actions[s[id].actionType.value].callbacks
      && (forall i :: 0 <= i < |r.calls| ==> r.calls[i].None?)
      && (r.exits <==> actions[s[id].actionType.value].throws)
  {
    match Validate(Fetched(s, id, fetchFails), actions)
    case Rejected(why) => TaskRun([Some(RejectionText(why))], false)
    case Valid(_, action) => TaskRun(seq(action.callbacks, _ => None), action.throws)
  }

  /** The checks in order, each reported as its own string without running
      the action; a valid record reports no error. */
  lemma RejectionOrder(s: Store, id: TaskId, actions: map<string, WorkerAction>, fetchFails: bool)
    ensures var calls := ExecuteTask(s, id, actions, fetchFails).calls;
      var seen := !fetchFails && id in s;
      && (!seen ==> calls == [Some("No task with such taskId")])
      && (seen && s[id].status != Executing ==>
            calls == [Some("Task status is not executing: " + StatusName(s[id].status))])
      && (seen && s[id].status == Executing && !Present(s[id].actionType) ==>
            calls == [Some("No action type in task")])
      && (seen && s[id].status == Executing && Present(s[id].actionType) && s[id].actionType.value !in actions ==>
            calls == [Some("No action to execute: undefined")])
      && (forall i :: 0 <= i < |calls| ==> (calls[i].None? <==> Validate(Fetched(s, id, fetchFails), actions).Valid?))
  {
  }

  /** A failed fetch reads no record: even a stored, runnable job is
      answered "No task with such taskId" and its action does not run. */
  lemma FailedFetchAnswersNoTask(s: Store, id: TaskId, actions: map<string, WorkerAction>)
    ensures ExecuteTask(s, id, actions, true) == TaskRun([Some("No task with such taskId")], false)
    ensures Validate(Lookup(s, id), actions).Valid? ==>
      ExecuteTask(s, id, actions, false).calls != ExecuteTask(s, id, actions, true).calls
  {
    assert Fetched(s, id, false) == Lookup(s, id);
    var ran := ExecuteTask(s, id, actions, false).calls;
    if Validate(Lookup(s, id), actions).Valid? && |ran| > 0 {
      assert ran[0].None?;
    }
  }

  /** The process's reaction to one message: its replies, and whether it
      then ends. */
  datatype Reaction = Reaction(replies: seq<Protocol.ToParent>, exits: bool)

  /** The reaction to one message: nothing without a job id; otherwise one
      `{ taskId, err }` per callback call, echoing the id, and the end of the
      process when the action throws. */
  function OnMessage(m: Delivery, s: Store, actions: map<string, WorkerAction>): (r: Reaction)
    ensures !(m.data.Some? && Present(m.data.value.taskId)) ==> r == Reaction([], false)
    ensures forall i :: 0 <= i < |r.replies| ==> !r.replies[i].ready && r.replies[i].taskId == m.data.value.taskId
  {
    var data := m.data;
    if !(data.Some? && Present(data.value.taskId)) then Reaction([], false)
    else
      var id := data.value.taskId.value;
      var run := ExecuteTask(s, id, actions, m.fetchFails);
      Reaction(seq(|run.calls|, i requires 0 <= i < |run.calls| => Protocol.Reply(id, run.calls[i])), run.exits)
  }

  /** A message with a job id is answered with the checks' result: a failed
      check gets exactly one reply carrying its string; a valid record gets
      one reply without `err` per completion of its action, and the process
      ends exactly when that action throws. */
  lemma RepliesMatchChecks(m: Delivery, s: Store, actions: map<string, WorkerAction>)
    requires m.data.Some? && Present(m.data.value.taskId)
    ensures var id := m.data.value.taskId.value;
      var c := Validate(Fetched(s, id, m.fetchFails), actions);
      var r := OnMessage(m, s, actions);
      && (c.Rejected? ==> r == Reaction([Protocol.Reply(id, Some(RejectionText(c.why)))], false))
      && (c.Valid? ==>
            && |r.replies| == c.action.callbacks && (forall i :: 0 <= i < |r.replies| ==> r.replies[i].err.None?)
            && (r.exits <==> c.action.throws))
  {
  }

  /** The replies to a sequence of messages answered one at a time, in
      order, until a throwing action ends the process. */
  function Replies(messages: seq<Delivery>, s: Store, actions: map<string, WorkerAction>): (out: seq<Protocol.ToParent>)
    ensures forall i :: 0 <= i < |out| ==> !out[i].ready
    decreases |messages|
  {
    if messages == [] then []
    else
      var first := OnMessage(messages[0], s, actions);
      first.replies + (if first.exits then [] else Replies(messages[1..], s, actions))
  }

  /** Once a message's action throws, the process answers nothing more:
      the replies to the whole sequence are those up to that message. */
  lemma {:induction false} NothingAfterThrow(messages: seq<Delivery>, s: Store, actions: map<string, WorkerAction>, k: nat)
    requires k < |messages| && OnMessage(messages[k], s, actions).exits
    ensures Replies(messages, s, actions) == Replies(messages[..k + 1], s, actions)
    decreases k
  {
    if k == 0 {
      assert messages[..1][1..] == [];
    } else {
      assert messages[1..][k - 1] == messages[k];
      NothingAfterThrow(messages[1..], s, actions, k - 1);
      assert messages[..k + 1][0] == messages[0];
      assert messages[..k + 1][1..] == messages[1..][..k];
    }
  }

  /** Messages whose actions do not throw are answered one after another:
      the replies to a sequence are the first message's replies followed by
      the rest's. */
  lemma RepliesWithoutThrow(m: Delivery, rest: seq<Delivery>, s: Store, actions: map<string, WorkerAction>)
    requires !OnMessage(m, s, actions).exits
    ensures Replies([m] + rest, s, actions) == OnMessage(m, s, actions).replies + Replies(rest, s, actions)
  {
    assert ([m] + rest)[1..] == rest;
  }

  /** The process's output for a sequence of messages: `{ ready: true }`
      exactly once, first, then the replies in order. */
  function Outputs(messages: seq<Delivery>, s: Store, actions: map<string, WorkerAction>): seq<Protocol.ToParent> {
    Protocol.Announced(Replies(messages, s, actions))
  }
}
